=== FILE: README.md ===
# codesnap: layout engine, components and parsers in Dafny

codesnap renders a code snippet as a picture. The snippet sits in a window with a
title bar, optional line numbers, breadcrumbs and highlighted lines, on a padded
background, with an optional watermark. The picture is built as a tree of
components. A small box-model layout engine measures the tree bottom-up, then
places and draws it top-down.

This project models that engine, every component it lays out, and the text
parsers around it:

- the colour, gradient and configuration values;
- the ASCII snapshot;
- the `name@url` asset names;
- the command line's line-range and highlight-range language.

## How the model is built

- **Components** are the constructors of one datatype, `Tree.Kind`. A component tree is a `Tree.Node`.
- **Styles.**
  - Each component module gives its declared style (`DeclaredStyle`) and what it paints (`Paints`).
  - Sizes come from `Style.RawStyle` (`Num`, `Dynamic`, `Inherit`) and resolve to a `Style.ResolvedStyle`.
  - Lengths are `real`.
- **The engine** (`Engine`, component.rs) is written as pure functions.
  - `ParsedStyle`, `ChildStyles`, `Draw`, `DrawPlaced` and `DrawChildren` thread the style cache explicitly, as a map from component name to resolved style.
  - `Renderer.ComponentContext` is the same engine as a class. It holds the cache as a field, updates it in place and paints into a `Canvas.Pixmap`. Each of its methods is proved to do exactly what the functions describe.
- **The pixmap** is an append-only log of paint events: filled rects and paths, composited shadow buffers, blurs and text draws. Each event is tagged with the component that issued it. Ordering facts about the picture are facts about this log, such as the highlight bands being painted before the code text.
- **Panics and overflow.** A panic in the Rust code becomes an error value:
  - `Canvas.RenderError` in the renderer;
  - `Color.ColorError` in colour parsing;
  - `CliRange.CliError` on the command line.

  Unsigned arithmetic that leaves its range is such a panic, as in a debug build. A cast to `u32` is written out as `Config.AsU32`.
- **Strings.**
  - Rust strings are `seq<char>`.
  - `len()` is the UTF-8 byte length, `Text.Utf8Len`.
  - `str::lines`, `split_whitespace` and `parse::<usize>` are modelled character by character in `Text`.

## Model

| member | source | states |
|---|---|---|
| Edges.FromValue | core/src/edges/padding.rs:22-29 | all four sides equal the value, so the horizontal and the vertical sums are both twice it |
| Edges.FromConfig | core/src/edges/padding.rs:31-45 | a uniform background padding, when given, wins and equals `from_value` of it; otherwise left and right take the horizontal value and top and bottom the vertical one |
| Layout.RowOf | core/src/components/layout/row.rs:15-23 | a Row keeps its children in the given order, the left-to-right order in which they are laid out and drawn (see Engine.RowSize and Engine.DrawChildrenStep) |
| Layout.ColumnOf | core/src/components/layout/column.rs:15-23 | a Column keeps its children in the given order, the top-to-bottom order in which they are stacked (see Engine.ColumnSize and Engine.Position) |
| Layout.CodeBlockOf | core/src/components/code_block.rs:15-23 | a code block keeps its children in the given order; its style takes the parent's width and the children's height |
| Engine.ParseSize | core/src/components/interface/component.rs:102-108 | a number is taken as it is, Dynamic gives the children's extent, Inherit gives the parent's value and falls back to the children's extent without a parent |
| Engine.Resolve | core/src/components/interface/component.rs:136-154 | the width is the parsed width plus horizontal padding and margin, raised to the minimum width; the height is the parsed height plus the vertical sums, never clamped; align, padding, margin and minimum width are carried over |
| Engine.AggregateRow | core/src/components/interface/component.rs:220-241 | under Row alignment the fold gives the sum of the children's widths and the largest of 0 and their heights |
| Engine.AggregateColumn | core/src/components/interface/component.rs:229-244 | under Column alignment the fold gives the largest of 0 and the children's widths, and the sum of their heights |
| Engine.RowOfTenAndTwenty | core/src/components/interface/component.rs:239-241 | two children 10 and 20 wide placed in a row need 30 |
| Engine.ParsedStyle | core/src/components/interface/component.rs:110-163 | a named component found in the cache gets the cached style and leaves the cache alone; otherwise a pruned one gets the default style; a component that passes its render condition leaves its style cached under its name |
| Engine.ChildStyles | core/src/components/interface/component.rs:217-246 | the children are measured in order, without a parent style, one style per child |
| Engine.ParsedStyleStable | core/src/components/interface/component.rs:115-121 | measuring never removes a cache entry, and never replaces an entry under a real name: only the stub name is overwritten (also lines 156-160) |
| Engine.ChildStylesStable | core/src/components/interface/component.rs:217-246 | measuring the children keeps every cache entry made under a real name |
| Engine.ResolvedWhenNotCached | core/src/components/interface/component.rs:115-121 | a stub component, or a named one not cached yet, is measured afresh, and its width is at least its declared minimum width (also lines 131-154) |
| Engine.ParsedStyleIdempotent | core/src/components/interface/component.rs:115-121 | asking a named component twice returns the same style, whatever the second parent style, and the second request changes nothing (also lines 156-160) |
| Engine.SameNameSharesStyle | core/src/components/interface/component.rs:115-121 | the cache is keyed by name only: once one component is measured, another of the same name gets its style (also lines 156-160) |
| Engine.BareLayoutSize | core/src/components/interface/component.rs:131-154 | a stub container that declares only an alignment is exactly as wide (raised to 0) and as tall as the fold of its children under that alignment (also lines 238-245) |
| Engine.CodeBlockInheritsWidth | core/src/components/code_block.rs:15-17 | with a parent style, a code block is as wide as its parent (raised to 0) |
| Engine.CodeBlockMeasured | core/src/components/code_block.rs:15-17 | with no parent, a code block falls back to its children: the sum of their widths, and the tallest of them (Row is the default alignment) |
| Engine.CodeBlockMeasuredSize | core/src/components/interface/component.rs:137-150 | with no parent, a code block's width and height are those of the Row fold of its children (the parent-less case is line 106) |
| Engine.RowSize | core/src/components/layout/row.rs:15-17 | a Row is as wide as its children together (raised to 0) and as tall as the tallest one |
| Engine.ColumnSize | core/src/components/layout/column.rs:15-17 | a Column is as wide as its widest child and as tall as its children together |
| Engine.HiddenBackgroundTakesChildrenSize | core/src/components/interface/component.rs:129-136 | a background without padding drops its own style, Column alignment included, and takes the Row fold of its children as its width |
| Engine.Position | core/src/components/interface/component.rs:37-59 | under a Row parent a node goes right of its previous sibling (sibling width plus horizontal padding plus own left margin) at the cursor's y plus its top margin; under a Column parent it goes below the sibling the same way |
| Engine.FirstChildOffsetByMargin | core/src/components/interface/component.rs:192-196 | after the default sibling style, under either alignment, a node is offset from the cursor by its own left and top margin only |
| Engine.Own | core/src/components/interface/component.rs:182-189 | a node that fails its render condition or hides itself paints nothing of its own |
| Engine.PrunedDrawsNothing | core/src/components/interface/component.rs:182-185 | a node whose render condition fails succeeds and paints nothing, neither itself nor anything below it |
| Engine.SelfHiddenDrawsChildren | core/src/components/interface/component.rs:187-212 | a node that hides itself succeeds exactly when its children do, and paints exactly what they paint |
| Engine.OwnPaintsComeFirst | core/src/components/interface/component.rs:187-212 | a node's own paints come before anything its children paint, and an error in its own painting is the node's error |
| Engine.DrawChildrenPrefix | core/src/components/interface/component.rs:198-210 | children are drawn in order: the paints of the first i children are a prefix of those of the first j, and a failure among the first i is the failure of the first j |
| Engine.DrawPlacedOwnFails | core/src/components/interface/component.rs:187-189 | when the node's own drawing fails, the error propagates and no child is drawn |
| Engine.DrawPlacedChildren | core/src/components/interface/component.rs:191-212 | after its own paints the node draws its children from its origin moved in by its left and top padding, returns its own origin, and fails with the first child's error |
| Engine.DrawChildrenNext | core/src/components/interface/component.rs:198-209 | one round of the loop: the cursor becomes the child's returned origin and the sibling style becomes the child's style against the parent's |
| Engine.DrawChildrenFails | core/src/components/interface/component.rs:198-208 | the first child that fails ends the loop with its error |
| Engine.DrawChildrenStep | core/src/components/interface/component.rs:198-209 | after child i the cursor is that child's origin and the paints grow by exactly what it drew |
| Renderer.ComponentContext.constructor | core/src/components/interface/component.rs:16-22 | a new context carries the environment and an empty style cache |
| Renderer.ComponentContext.ParsedStyle | core/src/components/interface/component.rs:110-163 | updating the cache in place returns the style, and leaves the cache, that Engine.ParsedStyle describes |
| Renderer.ComponentContext.GetDynamicWh | core/src/components/interface/component.rs:215-246 | the in-place fold measures the children in order and returns the Row or Column aggregate of their styles, leaving the cache as Engine.ChildStyles does |
| Renderer.ComponentContext.DrawSelf | core/src/components/interface/component.rs:79-88 | the component's own drawing appends exactly the paints of Engine.DrawSelf to the pixmap, or fails with its error |
| Renderer.ComponentContext.Draw | core/src/components/interface/component.rs:165-213 | drawing in place follows Engine.Draw: the same error, or the same origin, the same cache afterwards and exactly its paints appended |
| Renderer.ComponentContext.DrawPlaced | core/src/components/interface/component.rs:187-212 | after placing, the node's own paints and then its children's follow Engine.DrawPlaced |
| Renderer.ComponentContext.DrawOwn | core/src/components/interface/component.rs:187-189 | the node paints itself only when it passes both render conditions, exactly as Engine.Own says |
| Renderer.ComponentContext.DrawChildLoop | core/src/components/interface/component.rs:191-210 | the loop over the children appends exactly the paints of Engine.DrawChildren and leaves its cache, or fails with its error |
| Renderer.ComponentContext.DrawChild | core/src/components/interface/component.rs:198-209 | one round of the loop draws child i at the cursor and then measures it against the parent's style, advancing Engine.DrawChildren by one child |
| Canvas.Pixmap.PaintEach | core/src/components/highlight_code_block.rs:39-60 | the results are painted in order until the first error, which is returned; all succeed exactly when collecting them does |
| RectComponent.New | core/src/components/rect.rs:118-135 | a missing minimum width becomes 0, the rect starts without a shadow, and radius, colour, padding, name and children are kept |
| RectComponent.DeclaredStyle | core/src/components/rect.rs:42-47 | a rect declares Column alignment, its own padding and minimum width, and nothing else |
| RectComponent.CreateWithBorder | core/src/components/rect.rs:211-242 | three nested rects named RectUnderLayer, RectBorderLayer and RectInnerLayer: radii r, r-bw, r-2bw; minimum widths m+2bw, m+bw, m; the border colour only in the middle layer; uniform padding bw outside; the caller's padding and children only in the innermost layer |
| RectComponent.WindowBorderLayers | core/src/components/rect.rs:211-242 | a one-wide border at radius 12 and minimum width 350 gives radii 12, 11, 10 and minimum widths 352, 351, 350 |
| RectComponent.WithShadow | core/src/components/rect.rs:244-247 | the shadow is set and every other field and the children are unchanged |
| RectComponent.PathSpansBox | core/src/components/rect.rs:57-98 | every point and circle of the outline stays in [x, x+w] × [y, y+h], and the outline reaches all four sides |
| RectComponent.CornerCircles | core/src/components/rect.rs:90-97 | the four corner circles have radius r and are centred r in from both sides of their corner |
| RectComponent.ShadowPlacement | core/src/components/rect.rs:146-172 | the buffer is the host size plus the window margin on each axis, the offset is half the extra size, and the buffer sits at the host origin minus the offset |
| RectComponent.ShadowIsHostTranslated | core/src/components/rect.rs:164-181 | the buffer is centred on the host, and the shadow rect lands where the host is, moved by the shadow offset, with the host's size |
| RectComponent.Paints | core/src/components/rect.rs:100-113 | a rect paints its shadow first when it has one, then its filled outline at the scale factor |
| RectComponent.DrawShadow | core/src/components/rect.rs:137-199 | the shadow buffer gets the shadow rect and the blur, and is composited once at the buffer position cut to whole pixels |
| RectComponent.BuildOutline | core/src/components/rect.rs:57-98 | the path builder steps produce exactly the outline the rect is filled with |
| RectComponent.PushUpper | core/src/components/rect.rs:65-79 | the first seven path steps: the top edge, the upper right notch and the right edge |
| RectComponent.PushLower | core/src/components/rect.rs:81-89 | the next seven path steps: the bottom edge, the left edge and back to the top |
| RectComponent.PushCorners | core/src/components/rect.rs:90-98 | the four corner circles, then the path is closed |
| RectComponent.DrawSelf | core/src/components/rect.rs:49-114 | drawing a rect appends exactly its shadow (if any) and then its filled outline to the pixmap |
| BackgroundComponent.HasBackgroundIffNonZero | core/src/components/background.rs:24-26 | for non-negative paddings there is a background exactly when some side is non-zero |
| BackgroundComponent.CancellingPaddingHasNoBackground | core/src/components/background.rs:24-26 | opposite sides that cancel out (-1 and 1) hide the background although the padding is not zero |
| BackgroundComponent.DeclaredStyle | core/src/components/background.rs:38-42 | a background declares Column alignment and its padding, and nothing else |
| BackgroundComponent.BackgroundFill | core/src/components/background.rs:63-82 | a solid background fills with its parsed colour and fails exactly when the colour does not parse; a gradient fills between its two points resolved against the canvas, with pad spread, and fails when a stop colour does not parse, or, after the colours, when there are no stops (tiny-skia builds no gradient from an empty list and the `unwrap` panics) |
| BackgroundComponent.Paints | core/src/components/background.rs:56-91 | one rect over the whole w × h canvas from (0, 0), without anti-aliasing, whatever the component's own origin |
| BackgroundComponent.GradientReachesRightEdge | core/src/components/background.rs:70-71 | a gradient end at `max` lands on the right edge of the canvas |
| BackgroundComponent.PresetBackgroundPaints | core/src/components/background.rs:69-82 | every preset background has stops whose colours all parse, so painting it never fails |
| BackgroundComponent.DrawSelf | core/src/components/background.rs:48-92 | drawing appends exactly the canvas-sized fill, or fails with its error and paints nothing |
| HighlightCodeBlockComponent.From | core/src/components/highlight_code_block.rs:67-80 | a childless leaf that keeps the entries, the code line count, the line height and the editor padding |
| HighlightCodeBlockComponent.HighlightRect | core/src/components/highlight_code_block.rs:82-119 | the two ends are taken in either order and the larger is clamped to the code line count cut to u32; a zero start or a clamped end before the start is an arithmetic overflow; otherwise an unparsable colour is its colour error, and the band spans the lines from the smaller end to the clamped one |
| HighlightCodeBlockComponent.HighlightRectSymmetric | core/src/components/highlight_code_block.rs:90-99 | swapping the two ends changes nothing |
| HighlightCodeBlockComponent.HighlightCoversLines | core/src/components/highlight_code_block.rs:103-111 | for 1 ≤ start ≤ end ≤ line count the band's top is origin y + (start-1)·line height, its bottom is origin y + end·line height, its left is origin x minus the editor's left padding, and its width is the parent's |
| HighlightCodeBlockComponent.BandCovers | core/src/components/highlight_code_block.rs:104-111 | the band over lines first..last starts at the top of `first` and ends at the bottom of `last` |
| HighlightCodeBlockComponent.ThreeToFiveAtEighteen | core/src/components/highlight_code_block.rs:104-111 | lines 3 to 5 with 18-pixel lines give a band 36 below the block and 54 high |
| HighlightCodeBlockComponent.HighlightClampsToCode | core/src/components/highlight_code_block.rs:101 | a range reaching past the code is drawn as if it ended on the last code line |
| HighlightCodeBlockComponent.SingleIsRange | core/src/components/highlight_code_block.rs:40-45 | a single line n is drawn exactly as the range n to n |
| HighlightCodeBlockComponent.EntryPaintsInOrder | core/src/components/highlight_code_block.rs:39-60 | drawing succeeds exactly when every entry does, with one band per entry, in entry order |
| HighlightCodeBlockComponent.BandsAreCrisp | core/src/components/highlight_code_block.rs:54-59 | every band is a filled rect without anti-aliasing, scaled by the scale factor (also lines 116) |
| HighlightCodeBlockComponent.DrawSelf | core/src/components/highlight_code_block.rs:31-63 | drawing appends the entries' bands in order and fails with the first entry's error, exactly as EntryPaints says |
| LineNumberComponent.New | core/src/components/line_number.rs:82-109 | without a start number the gutter is the hidden default; otherwise it succeeds exactly when start + piece count (cut to u32) lies in 1..2^32-1, is shown, has one entry per "\n"-separated piece numbered consecutively from the start, each right-aligned to the digit count of the last number |
| LineNumberComponent.EntriesHaveEqualWidth | core/src/components/line_number.rs:89-98 | every entry is exactly as wide as the last number and ends in its own number |
| LineNumberComponent.EntriesAligned | core/src/components/line_number.rs:94-98 | entries padded to the width of the last number are all that wide and end in their own number |
| LineNumberComponent.OneNumberPerLine | core/src/components/line_number.rs:86-88 | there is one number per "\n" in the content, plus one |
| LineNumberComponent.TrailingNewlineAddsNumber | core/src/components/line_number.rs:86 | a content ending in "\n" gets one more number than the same content without it |
| LineNumberComponent.DeclaredStyle | core/src/components/line_number.rs:37-47 | the gutter is one character cell wide per digit, one line high per entry, with a right margin of 10 and no other edges |
| LineNumberComponent.Paints | core/src/components/line_number.rs:49-78 | one text draw of the entries joined by "\n", at the origin, in the component's own box |
| MacTitleBarComponent.New | core/src/components/editor/mac_title_bar.rs:72-77 | a childless leaf that keeps its render condition |
| MacTitleBarComponent.DeclaredStyle | core/src/components/editor/mac_title_bar.rs:24-33 | the bar is 62 wide (one diameter plus 2·25) and 12 high, with a bottom margin of 10 and nothing else |
| MacTitleBarComponent.ButtonPaints | core/src/components/editor/mac_title_bar.rs:79-100 | one button per colour |
| MacTitleBarComponent.ButtonPaintsAt | core/src/components/editor/mac_title_bar.rs:88-99 | button i has colour i and sits i·(diameter + gap) to the right |
| MacTitleBarComponent.DrawControlButton | core/src/components/editor/mac_title_bar.rs:102-121 | one filled circle of radius 6 at (x + offset, y) in the given colour |
| MacTitleBarComponent.DrawControlButtons | core/src/components/editor/mac_title_bar.rs:79-100 | the loop appends exactly one button per colour, in colour order |
| MacTitleBarComponent.DrawSelf | core/src/components/editor/mac_title_bar.rs:39-64 | drawing appends exactly the three buttons, starting one radius in from the origin |
| MacTitleBarComponent.ButtonLayout | core/src/components/editor/mac_title_bar.rs:47-61 | button i is a circle of radius 6 centred at (x + 6 + 16·i, y + 6), and the buttons come red, yellow, green (also lines 88-99, 113) |
| TitleComponent.FromText | core/src/components/editor/title.rs:73-78 | a childless leaf that keeps the optional text |
| TitleComponent.DeclaredStyle | core/src/components/editor/title.rs:27-36 | the title is 6 per UTF-8 byte of the text wide and 12 high, with a bottom margin of 2 and nothing else |
| TitleComponent.Paints | core/src/components/editor/title.rs:38-69 | one centred line of the text from x 0 at the title's y, across the whole canvas |
| TitleComponent.TitleIgnoresX | core/src/components/editor/title.rs:57-61 | where the layout puts the title horizontally makes no difference; only its y is used |
| WatermarkComponent.New | core/src/components/watermark.rs:71-76 | a childless leaf that keeps the optional configuration |
| WatermarkComponent.DeclaredStyle | core/src/components/watermark.rs:56-67 | a configured watermark has a top margin of 50 and a bottom margin of 22; otherwise the default style |
| WatermarkComponent.Paints | core/src/components/watermark.rs:22-46 | one centred line of the content from x 0 at the watermark's y; an unparsable colour is the error |
| BreadcrumbsComponent.FromPath | core/src/components/breadcrumbs.rs:78-87 | a childless leaf that keeps the optional path and configuration |
| BreadcrumbsComponent.DeclaredStyle | core/src/components/breadcrumbs.rs:26-40 | with both a configuration and a path, the size measured for the path at 8 per character and 15 per line, and no margin; otherwise the default style |
| BreadcrumbsComponent.Paints | core/src/components/breadcrumbs.rs:42-74 | with both a configuration and a path, one text draw of the path at the origin, as wide as the component and one line high; otherwise nothing |
| BreadcrumbsComponent.DrawsIffMeasured | core/src/components/breadcrumbs.rs:29-51 | something is drawn exactly when a size was measured |
| BreadcrumbsComponent.ExpandLiteral | core/src/components/breadcrumbs.rs:89-94 | a replacement without '$' is inserted as it is |
| BreadcrumbsComponent.ParseSeparatorSlashIsIdentity | core/src/components/breadcrumbs.rs:89-94 | the separator "/" gives the path back |
| BreadcrumbsComponent.ParseSeparatorWithoutSlash | core/src/components/breadcrumbs.rs:89-94 | a path without "/" is returned unchanged |
| BreadcrumbsComponent.ParseSeparatorDropsDollarName | core/src/components/breadcrumbs.rs:89-94 | as written, the separator "$x" is read as a reference to a capture group that does not exist: "a/b" becomes "ab", not "a$xb" |
| BreadcrumbsComponent.ParseSeparatorAgreesWithoutDollar | core/src/components/breadcrumbs.rs:89-94 | for separators without '$' the regex rewriting equals the literal one |
| BreadcrumbsComponent.ParseSeparatorLiteralLength | core/src/components/breadcrumbs.rs:89-94 | with the literal rewriting, each "/" changes the length by the separator's length minus one |
| CommandLineHeaderComponent.From | core/src/components/command_line/command_line_header.rs:92-103 | the header exists exactly when the command has a word and both colours parse; its prompt gains a trailing space, its command is exactly the first word followed by one space, and its arguments exactly the remaining words joined by single spaces (so they split back into those words); the missing word and the bad colours fail in source order |
| CommandLineHeaderComponent.WordThenSpace | core/src/components/command_line/command_line_header.rs:97 | the command word with its trailing space splits back to the word |
| CommandLineHeaderComponent.HeaderShowsCommand | core/src/components/command_line/command_line_header.rs:92-103 | command and arguments side by side split into the same words as the command given |
| CommandLineHeaderComponent.DeclaredStyle | core/src/components/command_line/command_line_header.rs:35-40 | the size measured for prompt plus command at half the font size per character and 20 per line; every other style field is the default |
| CommandLineHeaderComponent.StyleIgnoresArgs | core/src/components/command_line/command_line_header.rs:35-40 | the arguments never change the header's size |
| CommandLineHeaderComponent.Paints | core/src/components/command_line/command_line_header.rs:42-88 | one text draw in the component's box of three runs, prompt, command and arguments, in the prompt, command and foreground colours |
| CodeComponent.DeclaredStyle | core/src/components/editor/code.rs:33-41 | the size the font renderer measures for the code; every other style field is the default |
| CodeComponent.Paints | core/src/components/editor/code.rs:43-70 | one text draw of the code from the component's origin, without a box |
| CommandLineOutputComponent.From | core/src/components/command_line/command_line_output.rs:64-71 | a childless leaf holding the terminal text unchanged |
| CommandLineOutputComponent.DeclaredStyle | core/src/components/command_line/command_line_output.rs:24-32 | the text measured at half the font size per character and 20 per line; every other style field is the default |
| CommandLineOutputComponent.Paints | core/src/components/command_line/command_line_output.rs:34-57 | one draw of as many runs as the escape-code parser gives categories, each with its text, the code font and its colour (White when it has none) |
| Color.ParseColorToRgbaHex | core/src/utils/color.rs:14-20 | the result extends the input, by "ff" or not at all; a valid 7-byte colour becomes a valid 9-byte one and a 9-byte colour is kept; "ff" is appended exactly when the text is a valid 7-byte colour, and any text that is not a valid colour comes back unchanged |
| Color.HexDigitChar | core/src/utils/color.rs:40 | the lower-case digit that reads back as the given value below 16 |
| Color.ParsePair | core/src/utils/color.rs:40-47 | a chunk is read exactly when its second character is a hex digit and its first is a digit or a sign; two digits give their base-16 value |
| Color.ToRgba | core/src/utils/color.rs:28-50 | accepted exactly when the string has the right shape, is ASCII and every character after the '#' is a hex digit (or a sign at the head of a two-character chunk); the wrong shape is refused as an invalid colour, bad digits as an invalid digit; a 7-byte colour is opaque |
| Color.ParseDigitsIff | core/src/utils/color.rs:34-41 | after the alpha is added and the case lowered, the four chunks parse exactly when the colour's digits are accepted |
| Color.NonHexDigitRefused | core/src/utils/color.rs:40 | "#zzzzzz" has the right shape but is refused for its digits |
| Color.SignedChunkRead | core/src/utils/color.rs:40-44 | "#-1ff00" is read, its red chunk -1 wrapping to 255 |
| Color.SignInsideChunkRefused | core/src/utils/color.rs:40 | "#f-ff00" is refused: a sign is read only at the head of a chunk |
| Color.ParsePairOfHex2 | core/src/utils/color.rs:40 | a byte written as two hex digits reads back as itself |
| Color.ParseDigitsOfHex | core/src/utils/color.rs:38-48 | four bytes written as eight digits read back as the quadruple |
| Color.ToRgbaOfFormat | core/src/utils/color.rs:28-50 | every colour's "#rrggbbaa" spelling parses back to that colour |
| Color.ToRgbaOfRgbFormat | core/src/utils/color.rs:14-20 | every "#rrggbb" spelling parses back to the opaque colour (also lines 28-50) |
| Color.Utf8LenLower | core/src/utils/color.rs:36 | lowering the case keeps the encoded length |
| Color.ToRgbaIgnoresCase | core/src/utils/color.rs:36 | two spellings that differ only in case parse to the same result |
| Color.ReadsAsOpaque | core/src/utils/color.rs:14-20 | any spelling whose lower case is "#rrggbb" reads as that opaque colour (also lines 28-50) |
| Ansi.ParseColorToHex | core/src/ansi.rs:38-57 | every terminal colour is spelled as a 7-byte "#rrggbb" string |
| Ansi.SpellsComponents | core/src/ansi.rs:38-57 | each spelling, lowered, is the hex form of the colour's red, green and blue components |
| Ansi.ParseColorToHexIsValid | core/src/ansi.rs:38-57 | every table entry parses to the opaque colour it spells, so colouring a run never fails (the parse is at lines 24 and 29) |
| Ansi.ParseColorToHexInjective | core/src/ansi.rs:38-57 | no two terminal colours share a spelling |
| Ansi.ComponentsDecode | core/src/ansi.rs:38-57 | each colour's components lead back to it |
| Ansi.ForegroundRgba | core/src/ansi.rs:24-29 | a run's colour is its foreground's parsed spelling, White's when it has none |
| Ansi.Colorize | core/src/ansi.rs:20-34 | one span per run, in order, with the run's text, the block's font family and the run's foreground colour (White by default) |
| Config.AsU32 | cli/src/highlight.rs:39-40 | a cast to `u32` keeps every number below 2^32 |
| Config.DeserializeDimensionValue | core/src/config.rs:21-43 | a number or the exact string "max" is accepted; another string fails with the crate's message, any other value with serde's |
| Config.IntoF32Point | core/src/config.rs:53-66 | numbers pass through; `Max` becomes the pixmap width on x and the pixmap height on y |
| Config.IntoF32PointAxesIndependent | core/src/config.rs:54-65 | each axis is resolved from its own extent only |
| Config.NewStop | core/src/config.rs:74-85 | a stop is made exactly when its position lies in [0, 1], keeping position and colour; otherwise the range message |
| Config.ToGradientStop | core/src/config.rs:87-94 | the conversion succeeds exactly when the colour parses, keeping the position |
| Config.ToGradientStops | core/src/config.rs:87-94 | all stops convert, in order, exactly when every colour parses |
| Config.SerdeScaleFactor | core/src/config.rs:323-325 | an absent scale factor reads as 3 and a present one as itself (also lines 463-465) |
| Config.Validate | core/src/config.rs:365-373 | validation fails exactly when the scale factor is set to 0, with the crate's message |
| Config.Build | core/src/config.rs:301-362 | a configuration is built exactly when the scale factor is not 0 and content and background are set; then every unset field takes its default (scale factor 3, the default window, command-output and code configs, no watermark, no theme or font folders, theme "candy", line-number colour "#495162", no title), content and background are the ones set, and the scale factor is at least 1 |
| Config.DefaultScaleFactorAgrees | core/src/config.rs:323-325 | the builder's default scale factor and serde's are both 3 (also lines 463-465) |
| Config.CodeSnap.constructor | core/src/config.rs:301-304 | a builder with only content and background set |
| Config.CodeSnap.SetScaleFactor | core/src/config.rs:321-325 | only the scale factor changes |
| Config.CodeSnap.MapCodeConfig | core/src/config.rs:389-399 | the code configuration, or its default, passes through `f`; on success only that field changes, on failure nothing does |
| Config.CodeSnap.MapCode | core/src/config.rs:401-416 | command output is left alone; otherwise the code, or empty code, passes through `f`, and only the content changes on success |
| Config.CodeSnap.MapWindow | core/src/config.rs:418-428 | the window, or its default, passes through `f`; on success only that field changes, on failure nothing does |
| Config.CodeSnap.MapWatermark | core/src/config.rs:430-437 | the watermark, unset read as none, passes through `f`; on success only that field changes, on failure nothing does |
| Presets.NewStops | core/src/preset_background.rs:20-23 | the preset's stops are all made exactly when every position is in [0, 1], in order and unchanged |
| Presets.StopPositionsInRange | core/src/preset_background.rs:10-130 | every preset stop position lies in [0, 1], so no preset panics when built |
| Presets.StopPositionsIncreasing | core/src/preset_background.rs:10-130 | within each preset the stop positions strictly increase |
| Presets.PresetBackground | core/src/preset_background.rs:10-130 | every preset is a horizontal gradient from (0, 0) to (max, 0) with at least two stops holding the table's positions and colours |
| Presets.SpellsComponents | core/src/preset_background.rs:10-130 | every preset colour is the lower-case "#rrggbb" spelling of its components |
| Presets.BambooSpellsComponents | core/src/preset_background.rs:20-23 | the BAMBOO colours spell their components |
| Presets.SeaSpellsComponents | core/src/preset_background.rs:37-41 | the SEA colours spell their components |
| Presets.ClassicSpellsComponents | core/src/preset_background.rs:56-60 | the CLASSIC colours spell their components |
| Presets.GrapeSpellsComponents | core/src/preset_background.rs:74-77 | the GRAPE colours spell their components |
| Presets.PeachSpellsComponents | core/src/preset_background.rs:81-97 | the PEACH colours spell their components |
| Presets.SummerSpellsComponents | core/src/preset_background.rs:98-114 | the SUMMER colours spell their components |
| Presets.DuskSpellsComponents | core/src/preset_background.rs:115-130 | the DUSK colours spell their components |
| Presets.PresetColorParses | core/src/preset_background.rs:10-130 | every preset colour is a valid opaque hex colour that parses to its components |
| Presets.PresetColorsParse | core/src/preset_background.rs:10-130 | all colours of a preset are valid opaque hex colours |
| Presets.PresetGradientStopsParse | core/src/preset_background.rs:10-130 | every preset's stops convert to renderer stops without a colour error |
| ImageSnapshot.FromConfig | core/src/snapshot/image_snapshot.rs:98-192 | a border colour that does not parse fails first, then a line-number overflow; otherwise the root holds one background, padded by the margin, around the window and the watermark |
| ImageSnapshot.DefaultBorderParses | core/src/snapshot/image_snapshot.rs:135-143 | without a border the colour "#ffffff30" is translucent white, so only the line numbers can make building fail |
| ImageSnapshot.WindowFrame | core/src/snapshot/image_snapshot.rs:130-134 | the window is radius 12 with min width 350 inside, a one-wide frame in the border colour only when a border is set, and the shadow 21 below in translucent black (also lines 144-154, 176-181) |
| ImageSnapshot.WindowInnerPadding | core/src/snapshot/image_snapshot.rs:122-129 | the window's padding is 14 all round, 12 on top without the mac title bar |
| ImageSnapshot.WindowContents | core/src/snapshot/image_snapshot.rs:155-174 | the window holds the title row (buttons, then title), the breadcrumbs and the code block, in that order |
| ImageSnapshot.CodeBlockWiring | core/src/snapshot/image_snapshot.rs:164-173 | the code block holds the highlight bands over as many lines as the code has, 18 apart, then the line numbers, then the code |
| ImageSnapshot.WatermarkShownIff | core/src/snapshot/image_snapshot.rs:115-121 | the watermark is drawn exactly when one is configured and the vertical margin is at least 82 (also lines 183) |
| ImageSnapshot.KeptWatermarkIff | core/src/snapshot/image_snapshot.rs:117-121 | the watermark is kept exactly when the bottom padding, the vertical margin, is at least 82 and one is configured |
| ImageSnapshot.LeafDrawsOwn | core/src/components/interface/component.rs:182-212 | a drawn leaf draws exactly its own paints |
| ImageSnapshot.CodeBlockLeafPainters | core/src/snapshot/image_snapshot.rs:164-173 | the band leaf paints only bands, the gutter only numbers and the code leaf only code |
| ImageSnapshot.CodeBlockLeafDraws | core/src/snapshot/image_snapshot.rs:164-173 | what each leaf of the code block draws is painted by that leaf's component |
| ImageSnapshot.CodeBlockDrawsChildren | core/src/components/code_block.rs:15-23 | the code block draws only what its children draw |
| ImageSnapshot.CodeBlockChildStep | core/src/components/interface/component.rs:198-209 | drawing one more code block leaf appends what that leaf painted |
| ImageSnapshot.CodeBlockChildrenSplit | core/src/snapshot/image_snapshot.rs:164-173 | the code block's drawing splits into the bands, then the numbers, then the code |
| ImageSnapshot.FirstBlockBeforeLast | core/src/snapshot/image_snapshot.rs:164-173 | in three blocks painted one after another, every band comes before any code |
| ImageSnapshot.OverlayBeforeCode | core/src/snapshot/image_snapshot.rs:164-173 | in the drawn code block every highlight band is painted before any code, so the bands lie under the text |
| ImageSnapshot.SavePath | core/src/snapshot/image_snapshot.rs:66-76 | a path is accepted exactly when it ends in ".png" or ".svg", unchanged; otherwise the crate's message |
| ImageSnapshot.SvgPayload | core/src/snapshot/image_snapshot.rs:86-96 | a payload found in a document is the one that document wraps |
| ImageSnapshot.Unwrap | core/src/snapshot/image_snapshot.rs:89-92 | a payload found between a head and a tail rebuilds the string |
| ImageSnapshot.UnwrapWrap | core/src/snapshot/image_snapshot.rs:89-92 | unwrapping what was wrapped gives the payload back |
| ImageSnapshot.SvgRoundTrip | core/src/snapshot/image_snapshot.rs:86-96 | the base64 PNG data is recovered from the SVG document made of it |
| ImageSnapshot.Snapshot.constructor | core/src/snapshot/image_snapshot.rs:188-191 | a snapshot holds the pixmap and no SVG content |
| ImageSnapshot.Snapshot.ToSvg | core/src/snapshot/image_snapshot.rs:86-96 | the SVG content becomes the document wrapping the data, from which the data is recovered |
| AsciiSnapshot.FrameWidth | core/src/snapshot/ascii_snapshot.rs:39-45 | the frame is the wider of code and path (in bytes) plus 2, plus 2 and the line-number width when numbers are on, so it is never narrower than either |
| AsciiSnapshot.FramedSnapshot | core/src/snapshot/ascii_snapshot.rs:48-73 | the snapshot opens with the top frame and closes with the bottom frame |
| AsciiSnapshot.BreadcrumbsBlock | core/src/snapshot/ascii_snapshot.rs:14-20 | the path line and a separator follow the top frame exactly when breadcrumbs are on; otherwise the rows follow it directly (also lines 68-73) |
| AsciiSnapshot.OptionalBlock | core/src/snapshot/ascii_snapshot.rs:14-20 | an optional block is spliced in when seen and vanishes otherwise |
| AsciiSnapshot.Save | core/src/snapshot/ascii_snapshot.rs:29-31 | saving always fails, as the method is not implemented |
| AsciiSnapshot.RowNewlines | core/src/snapshot/ascii_snapshot.rs:53-66 | each row ends its line with exactly one newline |
| AsciiSnapshot.RowsNewlines | core/src/snapshot/ascii_snapshot.rs:50-67 | the rows hold one newline per code line |
| AsciiSnapshot.LineCount | core/src/snapshot/ascii_snapshot.rs:46-73 | the snapshot has one newline for the top frame, two more with breadcrumbs, and one per code line; the bottom frame has none |
| AsciiSnapshot.FrameNewlines | core/src/snapshot/ascii_snapshot.rs:46-68 | the top frame, separator and path line end in one newline each, the bottom frame in none |
| AsciiSnapshot.FrameWidths | core/src/snapshot/ascii_snapshot.rs:46-68 | the frames and the path line are all two characters wider than the rule |
| AsciiSnapshot.RowsFitFrame | core/src/snapshot/ascii_snapshot.rs:53-66 | when no line is wider than the measured code width and no number wider than the number width, every row is exactly as wide as the frames |
| AsciiSnapshot.NumberedRow | core/src/snapshot/ascii_snapshot.rs:56-61 | with numbers on, row i starts with the number start + i right-aligned, a space and line i |
| Assets.FromUrl | core/src/assets.rs:136-147 | the text is accepted exactly when it holds one '@'; then name and URL hold no '@' and written back as name@url give the text; otherwise the crate's message |
| Assets.FromUrlOfFormat | core/src/assets.rs:136-147 | any name and URL without '@' are read back from name@url |
| CliRange.PrepareRange | cli/src/range.rs:13-21 | ":b" gains "start" in front and "a:" gains "end" behind; no separator is ever added, and a text without one is kept |
| CliRange.FromStr | cli/src/range.rs:27-41 | the text is accepted exactly when it holds at most one ':'; its two sides, or the lone point twice, are the points, after "start" is put before a leading ":" or else "end" after a trailing one |
| CliRange.FromStrBounded | cli/src/range.rs:27-41 | "a:b" with both sides non-empty reads as the range a to b |
| CliRange.FromStrOpenStart | cli/src/range.rs:13-41 | ":b" reads as "start" to b |
| CliRange.FromStrOpenEnd | cli/src/range.rs:16-41 | "a:" reads as a to "end" |
| CliRange.DefaultRangeText | cli/src/range.rs:4-25 | without a range option the range is "start" to "end" |
| CliRange.ParseUsizeError | cli/src/range.rs:77 | of a text `parse::<usize>` refuses: empty exactly when the text is empty; an overflow exactly when some prefix of the digits after an optional '+' is all digits and already exceeds `usize::MAX`, i.e. the value overflows before any bad character is reached; otherwise an invalid digit |
| CliRange.OverflowBeforeLetter | cli/src/range.rs:73-81 | the point `usize::MAX + 1` written out and followed by "x" fails as an overflow, not an invalid digit |
| CliRange.ParseRangePoint | cli/src/range.rs:73-81 | "start" is line 1 and "end" the line count; any other point is its `usize` value, or the parse error, whose kind is the first failure met reading left to right (`CliRange.ParseUsizeError`) |
| CliRange.ParseRangePointOfNumber | cli/src/range.rs:73-81 | a line number in decimal reads back as itself |
| CliRange.ParsePoints | cli/src/range.rs:44-56 | both points parse (the start's error first) and come back in ascending order, the same two numbers |
| CliRange.ParseRange | cli/src/range.rs:44-56 | a parsed range never runs backwards |
| CliRange.NumberedRange | cli/src/range.rs:27-56 | two line numbers a ≤ b written "a:b" read back as the range a to b |
| CliRange.DefaultRangeLines | cli/src/range.rs:44-56 | the default range is 1 to the line count, or 0 to 1 for a snippet without lines (the constant is line 4; line reading at 73-81) |
| CliRange.SkipTakeSlice | cli/src/range.rs:63-66 | skipping k items and taking n is the slice from k to k + n, clipped to the sequence |
| CliRange.CutLines | cli/src/range.rs:60-70 | the cut succeeds exactly when start ≥ 1, end + 1 fits in a `usize` and start ≤ end + 1; otherwise the arithmetic panics |
| CliRange.CutCodeSnippet | cli/src/range.rs:60-70 | the cut on the snippet's lines, with the same conditions for success |
| CliRange.CutLinesSlice | cli/src/range.rs:60-70 | a successful cut holds exactly the lines start to end that exist, one per newline-separated piece |
| CliRange.CutCodeSnippetLines | cli/src/range.rs:60-70 | on a snippet, a successful cut holds exactly its lines start to end |
| CliRange.CutWholeSnippet | cli/src/range.rs:60-70 | the range 1 to the line count gives every line back |
| CliRange.EmptySnippetDefaultRangeOverflows | cli/src/range.rs:44-70 | as written, the default range of an empty snippet is 0 to 1, and cutting it computes 0 - 1 (the default range constant is line 4) |
| CliRange.CutCodeSnippetFromLineOne | cli/src/range.rs:60-70 | the cut with a start of 0 read as line 1: it fails only when end + 1 leaves the type's range or start > end + 1, and agrees with the cut from line 1 on |
| CliRange.DefaultRangeKeepsSnippet | cli/src/range.rs:44-70 | with the start read from line 1, the default range gives back every snippet, the empty one included (also lines 4 and 23-25) |
| CliHighlight.AbsoluteHighlightRange | cli/src/highlight.rs:25-54 | a file range is accepted exactly when it lies within the snippet's range; it is then shifted so that the snippet's first line is 1; the start, end and offset failures come in source order |
| CliHighlight.RelativeHighlightRange | cli/src/highlight.rs:56-71 | the range is accepted unchanged exactly when the snippet range is ordered, its line count `size + 1` fits in a `usize`, and the end is at most that count; a reversed range or an overflowing count is an overflow; otherwise the message names the count minus one |
| CliHighlight.RelativeLineCountOverflows | cli/src/highlight.rs:61-63 | a snippet range from 0 to `usize::MAX` overflows when its line count is computed |
| CliHighlight.RelativeBoundAboveMessage | cli/src/highlight.rs:61-67 | as written, an end of the line count is accepted while one more is refused with a message naming the count minus one |
| CliHighlight.RelativeHighlightRangeNamingLineCount | cli/src/highlight.rs:56-71 | relative mode whose refusal names the line count; it accepts the same ranges as the original, unchanged, and overflows in the same cases |
| CliHighlight.RelativeMessageNamesLargestEnd | cli/src/highlight.rs:63-67 | with the corrected message, the bound a refusal names is accepted and the refused end lies above it |
| CliHighlight.AbsoluteLandsInSnippet | cli/src/highlight.rs:47-53 | an accepted absolute range lands within the snippet's own numbering, where relative mode accepts it unchanged |
| CliHighlight.AbsoluteOfFileLines | cli/src/highlight.rs:47-53 | snippet lines shifted back to file lines are read by absolute mode as the snippet lines |
| CliHighlight.SnippetHighlightRange | cli/src/highlight.rs:78-83 | a bad range text fails as an invalid format; a translated range never runs backwards |
| CliHighlight.CreateHighlightLines | cli/src/highlight.rs:73-90 | one `Range` entry in the given colour, whose ends are the translated ends cast to `u32` and stay ordered when they fit; failures pass through |
| CliHighlight.CreateOfSnippet | cli/src/highlight.rs:85-89 | a translation that fits in 32 bits gives one entry with exactly those ends |
| CliHighlight.SnippetOfParsed | cli/src/highlight.rs:78-83 | the raw range is translated by the mode the highlight range was made with |
| CliHighlight.TryFoldExtendEntries | cli/src/highlight.rs:97-100 | when every item gives one entry, the fold succeeds exactly when every item does, with the entries in item order |
| CliHighlight.TryFoldExtendFirstFailure | cli/src/highlight.rs:97-100 | the first failing item decides the fold |
| CliHighlight.CreateMultipleHighlightLines | cli/src/highlight.rs:92-101 | every range accepted gives one entry per range, in order; otherwise the result fails |
| CliHighlight.FirstFailureAborts | cli/src/highlight.rs:92-101 | the first range that fails gives the error |
| CliHighlight.LaterRangesIgnored | cli/src/highlight.rs:92-101 | ranges after the first failing one never change the result |

## Left out

- Rasterisation is not modelled: tiny-skia's path filling, anti-aliasing, gradient interpolation and compositing, and the blur filter. A paint is recorded as an event, never as pixels. So nothing is claimed about pixel values, for example how a shadow fades at its edge.
- `f32` is modelled as `real`, without rounding. The `f32`-to-integer casts that place the shadow buffer are written as truncation toward zero for values inside the `i32` range. `Color::from_rgba8`'s conversion to floats is not modelled; colours stay as byte quadruples.
- Text measuring and shaping are parameters of `Tree.Env`, not models:
  - `calcWh` stands for `calc_wh_with_min_width`;
  - `measureText` stands for the font renderer's `measure_text`;
  - `charWidth` stands for `CHAR_WIDTH`.

  utils/code.rs and utils/text.rs are not part of this model.
- `AsciiSnapshot.FromConfig` takes the prepared code and its measures as given. These are `prepare_code`, `calc_wh` and `calc_max_line_number_length` from utils/code.rs.
- Syntax highlighting and themes come from syntect, the theme provider and the syntax guesser, and are not modelled:
  - the theme's editor background and foreground colours are given values;
  - `Code::new`, which can fail when no syntax matches, is replaced by the `Code` kind holding the code text;
  - splitting terminal output into coloured runs (cansi's `categorise_text`) is the given function `Tree.Env.categorise`.
- CodeComponent.Paints: the code is drawn as one text. The coloured runs that syntect would produce, and their error path, are not modelled.
- CommandLineHeaderComponent.Paints: the bold weight of the command run is not recorded.
- TitleComponent.Paints, WatermarkComponent.Paints, LineNumberComponent.Paints and BreadcrumbsComponent.Paints record where the text goes and its box, not its font size or family. The watermark's colour must parse, but no text colour is recorded.
- HighlightCodeBlockComponent.HighlightRect: `Rect::from_xywh(..).unwrap()` panics for a band of non-positive width or height, for example when the parent width is 0. That case is not refused.
- RectComponent.DrawShadow: two `unwrap`s in `draw_shadow` can panic, and the model always composites the shadow instead. `Pixmap::new(..).unwrap()` (rect.rs:169) panics when a side of the buffer casts to 0 or exceeds tiny-skia's size limit. `from_xywh(..).unwrap()` (rect.rs:176-177) panics for a host of non-positive size. Those limits belong to tiny-skia, which is not part of this model. `RectComponent.Paints` and `RectComponent.DrawSelf` inherit this.
- The `Mutex` around the style cache and the font renderer is left out. The cache is threaded explicitly, or held as a field of `Renderer.ComponentContext`.
- `Container::draw_root` and the style defaults (style.rs) are not part of this model.
  - `Engine.Draw` takes the parent style, the cursor and the preceding sibling's style as parameters, so the values the root receives are the caller's.
  - `From<WindowMargin> for Padding` is assumed to put the margin's x on the left and right and its y on the top and bottom (`RectComponent.BackgroundPadding`). The window's outer padding, the watermark's 82 threshold (`ImageSnapshot.WatermarkShownIff`, `ImageSnapshot.KeptWatermarkIff`) and the shadow buffer's size depend on it.
  - The default raw style is assumed to be `Dynamic` by `Dynamic`, with minimum width 0, Row alignment and zero edges.
- I/O is left out:
  - clipboard copy;
  - writing the PNG;
  - encoding the pixmap as PNG and then base64 (`ImageSnapshot.Snapshot.ToSvg` takes the base64 text as given);
  - asset download and the asset cache files;
  - path expansion;
  - the command-line driver and its configuration file.
- `ImageSnapshot.ImageConfig` is the part of the configuration that `from_config` reads. image_snapshot.rs reads fields that config.rs's `SnapshotConfig` does not declare (an optional border, the window title, the code's own fields), so the model follows image_snapshot.rs.
- `CodeSnap::from_config`, `from_theme` and `from_default_theme` are not modelled: they parse JSON with serde and read the bundled themes. Only the field defaults they share with the builder are: `Config.Build` and `Config.SerdeScaleFactor`.
- `HighlightLineRange::from` only stores its arguments, so it is the constructor of `CliHighlight.HighlightLineRange`.
- The error texts of `parse::<usize>` are modelled by kind only (`CliRange.ParseIntError`); the kind is the first failure met reading left to right. anyhow's error chains are not modelled.
- `BreadcrumbsComponent.ParseSeparator` has no caller among the files modelled: `draw_self` (breadcrumbs.rs:50-69) draws the path as given, so the configured separator never shows. The finding below concerns the function as published.
- `CliRange.CutCodeSnippet` has no caller among the command-line files shown. The finding about it below concerns the method as published.

## Findings

| source | as written | input that shows it | evidently intended | confidence | as-written member | corrected member |
|---|---|---|---|---|---|---|
| core/src/components/breadcrumbs.rs:89-94 | the separator is the replacement text of `Regex::replace_all`, where `$name` means a capture group, and a missing group expands to nothing | path "a/b" with separator "$x" gives "ab" | every "/" replaced by the separator literally ("a$xb"), so the length grows by the separator's length minus one per "/" | not executed; `parse_separator` has no caller in the files modelled, since `draw_self` (breadcrumbs.rs:50-69) draws the raw path | BreadcrumbsComponent.ParseSeparatorDropsDollarName | BreadcrumbsComponent.ParseSeparatorLiteralLength |
| cli/src/range.rs:60-70 | `start - 1` on `usize` with the default range | an empty snippet and no range option: "start:end" reads as 1 and 0, put in order as 0 to 1, and cutting computes 0 - 1 | the default range gives back the whole snippet, the empty one included | not executed | CliRange.EmptySnippetDefaultRangeOverflows | CliRange.DefaultRangeKeepsSnippet |
| cli/src/highlight.rs:61-67 | relative mode accepts an end up to `size + 1` but names `size` in its error | a snippet cut as 1:5 and the relative highlight "1:6": the message says the end should be at most 4, yet 5 is accepted | the message names the largest end accepted, the snippet's line count | not executed | CliHighlight.RelativeBoundAboveMessage | CliHighlight.RelativeMessageNamesLargestEnd |

=== FILE: ansi.dfy ===
/**
 * ansi.rs: the sixteen terminal colours, their hex spellings, and the
 * colouring of text that has already been cut into coloured runs.
 */
module Ansi {
  import opened Wrappers
  import opened Text
  import opened Color

  datatype AnsiColor =
    | Black | Red | Green | Yellow | Blue | Magenta | Cyan | White
    | BrightBlack | BrightRed | BrightGreen | BrightYellow
    | BrightBlue | BrightMagenta | BrightCyan | BrightWhite

  /** `parse_color_to_hex`. */
  function ParseColorToHex(c: AnsiColor): (hex: string)
    ensures |hex| == HEX_COLOR_LENGTH && hex[0] == '#'
  {
    match c
    case Black => "#4B4B4B"
    case Red => "#FF6F61"
    case Green => "#77DD77"
    case Yellow => "#FFEB3B"
    case Blue => "#89CFF0"
    case Magenta => "#FF77FF"
    case Cyan => "#00FFFF"
    case White => "#979EAB"
    case BrightBlack => "#696969"
    case BrightRed => "#FF9999"
    case BrightGreen => "#99FF99"
    case BrightYellow => "#FFFF99"
    case BrightBlue => "#ADD8E6"
    case BrightMagenta => "#FFB6C1"
    case BrightCyan => "#E0FFFF"
    case BrightWhite => "#F5F5F5"
  }

  /** The red, green and blue components each spelling above stands for. */
  function Components(c: AnsiColor): (Byte, Byte, Byte) {
    match c
    case Black => (0x4B, 0x4B, 0x4B)
    case Red => (0xFF, 0x6F, 0x61)
    case Green => (0x77, 0xDD, 0x77)
    case Yellow => (0xFF, 0xEB, 0x3B)
    case Blue => (0x89, 0xCF, 0xF0)
    case Magenta => (0xFF, 0x77, 0xFF)
    case Cyan => (0x00, 0xFF, 0xFF)
    case White => (0x97, 0x9E, 0xAB)
    case BrightBlack => (0x69, 0x69, 0x69)
    case BrightRed => (0xFF, 0x99, 0x99)
    case BrightGreen => (0x99, 0xFF, 0x99)
    case BrightYellow => (0xFF, 0xFF, 0x99)
    case BrightBlue => (0xAD, 0xD8, 0xE6)
    case BrightMagenta => (0xFF, 0xB6, 0xC1)
    case BrightCyan => (0xE0, 0xFF, 0xFF)
    case BrightWhite => (0xF5, 0xF5, 0xF5)
  }

  lemma SpellsComponents(c: AnsiColor)
    ensures Lower(ParseColorToHex(c)) == FormatRgbHex(Components(c).0, Components(c).1, Components(c).2)
  {
    match Quarter(c)
    case 0 => DarkSpellsComponents(c);
    case 1 => LightSpellsComponents(c);
    case 2 => BrightDarkSpellsComponents(c);
    case 3 => BrightLightSpellsComponents(c);
  }

  /** The table split in four, to keep each spelling proof small. */
  function Quarter(c: AnsiColor): (q: nat)
    ensures q < 4
  {
    match c
    case Black | Red | Green | Yellow => 0
    case Blue | Magenta | Cyan | White => 1
    case BrightBlack | BrightRed | BrightGreen | BrightYellow => 2
    case BrightBlue | BrightMagenta | BrightCyan | BrightWhite => 3
  }

  lemma DarkSpellsComponents(c: AnsiColor)
    requires Quarter(c) == 0
    ensures Lower(ParseColorToHex(c)) == FormatRgbHex(Components(c).0, Components(c).1, Components(c).2)
  {
    match c
    case Black => LowerSpellsRgb("#4B4B4B", 0x4B, 0x4B, 0x4B);
    case Red => LowerSpellsRgb("#FF6F61", 0xFF, 0x6F, 0x61);
    case Green => LowerSpellsRgb("#77DD77", 0x77, 0xDD, 0x77);
    case Yellow => LowerSpellsRgb("#FFEB3B", 0xFF, 0xEB, 0x3B);
  }

  lemma LightSpellsComponents(c: AnsiColor)
    requires Quarter(c) == 1
    ensures Lower(ParseColorToHex(c)) == FormatRgbHex(Components(c).0, Components(c).1, Components(c).2)
  {
    match c
    case Blue => LowerSpellsRgb("#89CFF0", 0x89, 0xCF, 0xF0);
    case Magenta => LowerSpellsRgb("#FF77FF", 0xFF, 0x77, 0xFF);
    case Cyan => LowerSpellsRgb("#00FFFF", 0x00, 0xFF, 0xFF);
    case White => LowerSpellsRgb("#979EAB", 0x97, 0x9E, 0xAB);
  }

  lemma BrightDarkSpellsComponents(c: AnsiColor)
    requires Quarter(c) == 2
    ensures Lower(ParseColorToHex(c)) == FormatRgbHex(Components(c).0, Components(c).1, Components(c).2)
  {
    match c
    case BrightBlack => LowerSpellsRgb("#696969", 0x69, 0x69, 0x69);
    case BrightRed => LowerSpellsRgb("#FF9999", 0xFF, 0x99, 0x99);
    case BrightGreen => LowerSpellsRgb("#99FF99", 0x99, 0xFF, 0x99);
    case BrightYellow => LowerSpellsRgb("#FFFF99", 0xFF, 0xFF, 0x99);
  }

  lemma BrightLightSpellsComponents(c: AnsiColor)
    requires Quarter(c) == 3
    ensures Lower(ParseColorToHex(c)) == FormatRgbHex(Components(c).0, Components(c).1, Components(c).2)
  {
    match c
    case BrightBlue => LowerSpellsRgb("#ADD8E6", 0xAD, 0xD8, 0xE6);
    case BrightMagenta => LowerSpellsRgb("#FFB6C1", 0xFF, 0xB6, 0xC1);
    case BrightCyan => LowerSpellsRgb("#E0FFFF", 0xE0, 0xFF, 0xFF);
    case BrightWhite => LowerSpellsRgb("#F5F5F5", 0xF5, 0xF5, 0xF5);
  }

  /**
   * Every table entry is a colour `ToRgba` accepts, opaque, with the
   * components it spells; so colouring a terminal run never fails.
   */
  lemma ParseColorToHexIsValid(c: AnsiColor)
    ensures ToRgba(ParseColorToHex(c)) == Ok(Rgba(Components(c).0, Components(c).1, Components(c).2, 255))
  {
    SpellsComponents(c);
    ReadsAsOpaque(ParseColorToHex(c), Components(c).0, Components(c).1, Components(c).2);
  }

  /** No two terminal colours share a hex spelling. */
  lemma ParseColorToHexInjective(c: AnsiColor, d: AnsiColor)
    requires ParseColorToHex(c) == ParseColorToHex(d)
    ensures c == d
  {
    ParseColorToHexIsValid(c);
    ParseColorToHexIsValid(d);
    assert Components(c) == Components(d);
    ComponentsDecode(c);
    ComponentsDecode(d);
  }

  /** The colour a component triple belongs to, if any. */
  function ColorOfComponents(t: (Byte, Byte, Byte)): Option<AnsiColor> {
    if t == (0x4B, 0x4B, 0x4B) then Some(Black)
    else if t == (0xFF, 0x6F, 0x61) then Some(Red)
    else if t == (0x77, 0xDD, 0x77) then Some(Green)
    else if t == (0xFF, 0xEB, 0x3B) then Some(Yellow)
    else if t == (0x89, 0xCF, 0xF0) then Some(Blue)
    else if t == (0xFF, 0x77, 0xFF) then Some(Magenta)
    else if t == (0x00, 0xFF, 0xFF) then Some(Cyan)
    else if t == (0x97, 0x9E, 0xAB) then Some(White)
    else if t == (0x69, 0x69, 0x69) then Some(BrightBlack)
    else if t == (0xFF, 0x99, 0x99) then Some(BrightRed)
    else if t == (0x99, 0xFF, 0x99) then Some(BrightGreen)
    else if t == (0xFF, 0xFF, 0x99) then Some(BrightYellow)
    else if t == (0xAD, 0xD8, 0xE6) then Some(BrightBlue)
    else if t == (0xFF, 0xB6, 0xC1) then Some(BrightMagenta)
    else if t == (0xE0, 0xFF, 0xFF) then Some(BrightCyan)
    else if t == (0xF5, 0xF5, 0xF5) then Some(BrightWhite)
    else None
  }

  /** Each colour's components lead back to it, so no two colours share them. */
  lemma ComponentsDecode(c: AnsiColor)
    ensures ColorOfComponents(Components(c)) == Some(c)
  {
  }

  /** One run of text as the terminal-escape parser reports it. */
  datatype Category = Category(text: string, fg: Option<AnsiColor>)

  /** A run of text ready for the font renderer. */
  datatype Span = Span(text: string, color: Rgba, family: string)

  const DEFAULT_FOREGROUND: AnsiColor := White

  /** The colour of a run: its foreground, or White when it has none. */
  function ForegroundRgba(fg: Option<AnsiColor>): (color: Rgba)
    ensures Ok(color) == ToRgba(ParseColorToHex(fg.GetOr(DEFAULT_FOREGROUND)))
  {
    var c := fg.GetOr(DEFAULT_FOREGROUND);
    ParseColorToHexIsValid(c);
    Rgba(Components(c).0, Components(c).1, Components(c).2, 255)
  }

  /**
   * `ANSI::colorize`: one span per run, in order, keeping the run's text and
   * taking the font family of the whole block.
   */
  function Colorize(categories: seq<Category>, fontFamily: string): (spans: seq<Span>)
    ensures |spans| == |categories|
    ensures forall i :: 0 <= i < |spans| ==>
      spans[i].text == categories[i].text && spans[i].family == fontFamily
      && Ok(spans[i].color) == ToRgba(ParseColorToHex(categories[i].fg.GetOr(White)))
  {
    seq(|categories|, i requires 0 <= i < |categories| =>
      Span(categories[i].text, ForegroundRgba(categories[i].fg), fontFamily))
  }
}

=== FILE: ascii_snapshot.dfy ===
/**
 * snapshot/ascii_snapshot.rs: the code drawn as plain text inside a frame of
 * box-drawing characters, optionally with the file path above it and line
 * numbers before each line.
 */
module AsciiSnapshot {
  import opened Wrappers
  import opened Text

  const SPACE_BOTH_SIDE: nat := 2

  const HORIZONTAL: char := '\U{2500}'
  const VERTICAL: string := "\U{2502}"
  const TOP_LEFT: string := "\U{256D}"
  const TOP_RIGHT: string := "\U{256E}"
  const BOTTOM_LEFT: string := "\U{2570}"
  const BOTTOM_RIGHT: string := "\U{256F}"

  /** What `from_config` reads of the snapshot configuration. */
  datatype AsciiConfig = AsciiConfig(filePath: string, startLineNumber: Option<nat>, hasBreadcrumbs: bool)

  /**
   * What `from_config` takes from the helpers in utils/code.rs, which is not
   * part of this model: the prepared code, its width in characters (after
   * `as usize`) and the width of the widest line number.
   */
  datatype Measures = Measures(code: string, codeWidth: nat, lineNumberWidth: nat)

  function MaxNat(a: nat, b: nat): nat {
    if a < b then b else a
  }

  /**
   * The number of rule characters across the frame: the wider of the code and
   * the path (in bytes), one space each side, and room for the line numbers
   * and their separator when they are shown.
   */
  function FrameWidth(config: AsciiConfig, m: Measures): (fw: nat)
    ensures fw >= Utf8Len(config.filePath) + SPACE_BOTH_SIDE && fw >= m.codeWidth + SPACE_BOTH_SIDE
    ensures config.startLineNumber.None? ==> fw == MaxNat(m.codeWidth, Utf8Len(config.filePath)) + 2
    ensures config.startLineNumber.Some? ==> fw == MaxNat(m.codeWidth, Utf8Len(config.filePath)) + 4 + m.lineNumberWidth
  {
    var frameWidth := MaxNat(m.codeWidth, Utf8Len(config.filePath)) + SPACE_BOTH_SIDE;
    match config.startLineNumber
    case Some(_) => frameWidth + SPACE_BOTH_SIDE + m.lineNumberWidth
    case None => frameWidth
  }

  function Rule(fw: nat): string {
    RepeatChar(HORIZONTAL, fw)
  }

  function TopFrame(fw: nat): string {
    TOP_LEFT + Rule(fw) + TOP_RIGHT + "\n"
  }

  function Separator(fw: nat): string {
    VERTICAL + Rule(fw) + VERTICAL + "\n"
  }

  /** The bottom frame ends the snapshot, without a newline. */
  function BottomFrame(fw: nat): string {
    BOTTOM_LEFT + Rule(fw) + BOTTOM_RIGHT
  }

  /** `text_line`: the text left-aligned in the frame, after one space. */
  function TextLine(text: string, fw: nat): string
    requires fw >= 1
  {
    VERTICAL + " " + PadRight(text, fw - 1) + VERTICAL + "\n"
  }

  /** `optional`: the component when it is to be seen, nothing otherwise. */
  function Optional(component: string, isView: bool): string {
    if isView then component else ""
  }

  /** What row `i` shows: its line, after its number right-aligned when numbers are on. */
  function RowContent(config: AsciiConfig, m: Measures, i: nat, line: string): string {
    match config.startLineNumber
    case Some(start) => PadLeft(NatToString(start + i), m.lineNumberWidth) + " " + line
    case None => line
  }

  /** One row: the content left-aligned between one space on each side of the frame. */
  function Row(config: AsciiConfig, m: Measures, fw: nat, i: nat, line: string): string
    requires fw >= SPACE_BOTH_SIDE
  {
    VERTICAL + " " + PadRight(RowContent(config, m, i, line), fw - 2) + " " + VERTICAL + "\n"
  }

  /** The rows from line `i` on, in order. */
  function Rows(config: AsciiConfig, m: Measures, fw: nat, lines: seq<string>, i: nat): string
    requires fw >= SPACE_BOTH_SIDE && i <= |lines|
    decreases |lines| - i
  {
    if i == |lines| then "" else Row(config, m, fw, i, lines[i]) + Rows(config, m, fw, lines, i + 1)
  }

  /**
   * `ASCIISnapshot::from_config`: the top frame, the path and a separator
   * when breadcrumbs are on, one row per line of the code, and the bottom
   * frame.
   */
  function FromConfig(config: AsciiConfig, m: Measures): string {
    var fw := FrameWidth(config, m);
    var breadcrumbs := Optional(TextLine(config.filePath, fw) + Separator(fw), config.hasBreadcrumbs);
    TopFrame(fw) + breadcrumbs + Rows(config, m, fw, Lines(m.code), 0) + BottomFrame(fw)
  }

  /** The snapshot opens with the top frame and closes with the bottom frame. */
  lemma FramedSnapshot(config: AsciiConfig, m: Measures)
    ensures var fw := FrameWidth(config, m);
      StartsWith(FromConfig(config, m), TopFrame(fw)) && EndsWith(FromConfig(config, m), BottomFrame(fw))
  {
    var fw := FrameWidth(config, m);
    var breadcrumbs := Optional(TextLine(config.filePath, fw) + Separator(fw), config.hasBreadcrumbs);
    var rows := Rows(config, m, fw, Lines(m.code), 0);
    assert FromConfig(config, m) == TopFrame(fw) + breadcrumbs + rows + BottomFrame(fw);
    OuterParts(TopFrame(fw), breadcrumbs, rows, BottomFrame(fw));
  }

  /**
   * The path line and its separator come right after the top frame exactly
   * when breadcrumbs are on; otherwise the rows follow the top frame directly.
   */
  lemma BreadcrumbsBlock(config: AsciiConfig, m: Measures)
    ensures var fw := FrameWidth(config, m);
      var rows := Rows(config, m, fw, Lines(m.code), 0);
      && (config.hasBreadcrumbs ==>
            FromConfig(config, m) == TopFrame(fw) + TextLine(config.filePath, fw) + Separator(fw) + rows + BottomFrame(fw))
      && (!config.hasBreadcrumbs ==> FromConfig(config, m) == TopFrame(fw) + rows + BottomFrame(fw))
  {
    var fw := FrameWidth(config, m);
    OptionalBlock(TopFrame(fw), TextLine(config.filePath, fw), Separator(fw),
      Rows(config, m, fw, Lines(m.code), 0), BottomFrame(fw), config.hasBreadcrumbs);
  }

  lemma OptionalBlock(top: string, text: string, sep: string, rows: string, bottom: string, isView: bool)
    ensures isView ==> top + Optional(text + sep, isView) + rows + bottom == top + text + sep + rows + bottom
    ensures !isView ==> top + Optional(text + sep, isView) + rows + bottom == top + rows + bottom
  {
    if !isView {
      assert top + Optional(text + sep, isView) == top;
    }
  }

  /** The snapshot cannot be saved: `save` is not implemented and panics. */
  datatype SaveError = NotImplemented

  function Save(savePath: string): (r: Result<(), SaveError>)
    ensures r.Err?
  {
    Err(NotImplemented)
  }

  // ---------------------------------------------------------------- properties

  /** One newline per row, at its end: the row's content never holds one. */
  lemma RowNewlines(config: AsciiConfig, m: Measures, fw: nat, i: nat, line: string)
    requires fw >= SPACE_BOTH_SIDE && '\n' !in line
    ensures Count(Row(config, m, fw, i, line), '\n') == 1
  {
    var content := RowContent(config, m, i, line);
    var padded := PadRight(content, fw - 2);
    assert '\n' !in content by {
      if config.startLineNumber.Some? {
        var number := PadLeft(NatToString(config.startLineNumber.value + i), m.lineNumberWidth);
        assert forall k :: 0 <= k < |number| ==> number[k] == ' ' || IsDigit(number[k]);
      }
    }
    assert '\n' !in padded;
    var head := VERTICAL + " " + padded + " " + VERTICAL;
    assert '\n' !in head;
    CountZero(head, '\n');
    CountAppend(head, "\n", '\n');
  }

  /** There is exactly one newline-ended row per line of the code. */
  lemma {:induction false} RowsNewlines(config: AsciiConfig, m: Measures, fw: nat, lines: seq<string>, i: nat)
    requires fw >= SPACE_BOTH_SIDE && i <= |lines|
    requires forall k :: 0 <= k < |lines| ==> '\n' !in lines[k]
    ensures Count(Rows(config, m, fw, lines, i), '\n') == |lines| - i
    decreases |lines| - i
  {
    if i < |lines| {
      RowNewlines(config, m, fw, i, lines[i]);
      RowsNewlines(config, m, fw, lines, i + 1);
      CountAppend(Row(config, m, fw, i, lines[i]), Rows(config, m, fw, lines, i + 1), '\n');
    }
  }

  /**
   * The snapshot has one text line for the top frame, two for the
   * breadcrumbs when they are on, one per line of the code and one for the
   * bottom frame: one newline fewer, as the bottom frame has none.
   */
  lemma LineCount(config: AsciiConfig, m: Measures)
    requires '\n' !in config.filePath
    ensures Count(FromConfig(config, m), '\n') == 1 + (if config.hasBreadcrumbs then 2 else 0) + |Lines(m.code)|
  {
    var fw := FrameWidth(config, m);
    var rows := Rows(config, m, fw, Lines(m.code), 0);
    var breadcrumbs := Optional(TextLine(config.filePath, fw) + Separator(fw), config.hasBreadcrumbs);
    assert FromConfig(config, m) == TopFrame(fw) + breadcrumbs + rows + BottomFrame(fw);
    FrameNewlines(config.filePath, fw);
    CountAppend(TextLine(config.filePath, fw), Separator(fw), '\n');
    RowsNewlines(config, m, fw, Lines(m.code), 0);
    CountAppend(TopFrame(fw), breadcrumbs, '\n');
    CountAppend(TopFrame(fw) + breadcrumbs, rows, '\n');
    CountAppend(TopFrame(fw) + breadcrumbs + rows, BottomFrame(fw), '\n');
  }

  /** Each frame line and the path line end in the only newline they hold; the bottom frame holds none. */
  lemma FrameNewlines(path: string, fw: nat)
    requires '\n' !in path && fw >= 1
    ensures Count(TopFrame(fw), '\n') == 1 && Count(Separator(fw), '\n') == 1
    ensures Count(TextLine(path, fw), '\n') == 1 && Count(BottomFrame(fw), '\n') == 0
  {
    var top := TOP_LEFT + Rule(fw) + TOP_RIGHT;
    var bar := VERTICAL + Rule(fw) + VERTICAL;
    var text := VERTICAL + " " + PadRight(path, fw - 1) + VERTICAL;
    assert '\n' !in top && '\n' !in bar && '\n' !in text && '\n' !in BottomFrame(fw);
    CountZero(top, '\n');
    CountZero(bar, '\n');
    CountZero(text, '\n');
    CountZero(BottomFrame(fw), '\n');
    CountAppend(top, "\n", '\n');
    CountAppend(bar, "\n", '\n');
    CountAppend(text, "\n", '\n');
  }

  /** The frames and the path line are all `fw + 2` characters wide before their newline. */
  lemma FrameWidths(config: AsciiConfig, m: Measures)
    ensures var fw := FrameWidth(config, m);
      && |TopFrame(fw)| == fw + 3 && |Separator(fw)| == fw + 3 && |BottomFrame(fw)| == fw + 2
      && |TextLine(config.filePath, fw)| == fw + 3
  {
    var fw := FrameWidth(config, m);
    assert |config.filePath| <= Utf8Len(config.filePath);
    assert |PadRight(config.filePath, fw - 1)| == fw - 1;
  }

  /**
   * When the measures are honest — no line is wider than the code width, and
   * no shown number wider than the line-number width — every row is exactly
   * as wide as the frames.
   */
  lemma RowsFitFrame(config: AsciiConfig, m: Measures, i: nat, line: string)
    requires |line| <= m.codeWidth
    requires config.startLineNumber.Some? ==> |NatToString(config.startLineNumber.value + i)| <= m.lineNumberWidth
    ensures var fw := FrameWidth(config, m);
      |Row(config, m, fw, i, line)| == fw + 3 == |TopFrame(fw)|
  {
    var fw := FrameWidth(config, m);
    var content := RowContent(config, m, i, line);
    assert |content| <= fw - 2;
    assert |PadRight(content, fw - 2)| == fw - 2;
  }

  /**
   * With line numbers on, row `i` shows the number `start + i` right-aligned
   * in the line-number width, a space and then line `i`.
   */
  lemma NumberedRow(config: AsciiConfig, m: Measures, lines: seq<string>, i: nat)
    requires config.startLineNumber.Some? && i < |lines|
    ensures var fw := FrameWidth(config, m);
      var number := PadLeft(NatToString(config.startLineNumber.value + i), m.lineNumberWidth);
      && StartsWith(Row(config, m, fw, i, lines[i]), VERTICAL + " " + number + " " + lines[i])
      && EndsWith(number, NatToString(config.startLineNumber.value + i))
  {
    var fw := FrameWidth(config, m);
    var number := PadLeft(NatToString(config.startLineNumber.value + i), m.lineNumberWidth);
    var content := RowContent(config, m, i, lines[i]);
    assert content == number + " " + lines[i];
    var padded := PadRight(content, fw - 2);
    PrefixAfter(VERTICAL + " ", padded, content);
    Regroup(VERTICAL + " ", number, " ", lines[i]);
    PrefixExtend(VERTICAL + " " + padded, VERTICAL + " " + content, " ");
    PrefixExtend(VERTICAL + " " + padded + " ", VERTICAL + " " + content, VERTICAL);
    PrefixExtend(VERTICAL + " " + padded + " " + VERTICAL, VERTICAL + " " + content, "\n");
  }

  lemma OuterParts(a: string, b: string, c: string, d: string)
    ensures StartsWith(a + b + c + d, a) && EndsWith(a + b + c + d, d)
  {
    assert (a + b + c + d)[..|a|] == a;
    assert (a + b + c + d)[|a + b + c|..] == d;
  }

  lemma Regroup(a: string, b: string, c: string, d: string)
    ensures a + (b + c + d) == a + b + c + d
  {
  }

  lemma PrefixAfter(a: string, p: string, c: string)
    requires StartsWith(p, c)
    ensures StartsWith(a + p, a + c)
  {
    assert (a + p)[..|a + c|] == a + c;
  }

  lemma PrefixExtend(x: string, y: string, z: string)
    requires StartsWith(x, y)
    ensures StartsWith(x + z, y)
  {
    assert (x + z)[..|y|] == y;
  }
}

=== FILE: assets.dfy ===
/** assets.rs: the `name@url` text that names a remote asset. */
module Assets {
  import opened Wrappers
  import opened Text

  const INVALID_ASSETS_URL: string := "Invalid assets URL format"

  datatype AssetsUrl = AssetsUrl(name: string, url: string)

  /** How an asset is written: its name, '@', its URL. */
  function Format(a: AssetsUrl): string {
    a.name + "@" + a.url
  }

  /**
   * `AssetsURL::from_url`: the text split at '@' must give exactly two
   * pieces, the name and the URL, either of which may be empty.
   */
  function FromUrl(assetsUrl: string): (r: Result<AssetsUrl, string>)
    ensures r.Ok? <==> Count(assetsUrl, '@') == 1
    ensures r.Err? ==> r.error == INVALID_ASSETS_URL
    ensures r.Ok? ==> '@' !in r.value.name && '@' !in r.value.url && Format(r.value) == assetsUrl
  {
    var info := Split(assetsUrl, '@');
    SplitCount(assetsUrl, '@');
    SplitPiecesAvoid(assetsUrl, '@');
    JoinSplit(assetsUrl, '@');
    if |info| != 2 then Err(INVALID_ASSETS_URL)
    else
      assert Join(info, "@") == info[0] + "@" + info[1];
      Ok(AssetsUrl(info[0], info[1]))
  }

  /** Any name and URL without '@' are read back from their written form. */
  lemma FromUrlOfFormat(a: AssetsUrl)
    requires '@' !in a.name && '@' !in a.url
    ensures FromUrl(Format(a)) == Ok(a)
  {
    SplitAt(a.name, a.url, '@');
    SplitWithout(a.url, '@');
    assert Format(a) == a.name + ['@'] + a.url;
  }
}

=== FILE: background.dfy ===
/** components/background.rs: the canvas-filling background and its padding rule. */
module BackgroundComponent {
  import opened Wrappers
  import opened Edges
  import opened Style
  import opened Color
  import opened Config
  import opened Canvas
  import opened Tree
  import Presets

  const NAME: string := "Background"

  /** `has_background`: some padding in either direction. */
  predicate HasBackground(padding: Padding) {
    padding.Horizontal() != 0.0 || padding.Vertical() != 0.0
  }

  /** For ordinary (non-negative) paddings, there is a background exactly when some side is non-zero. */
  lemma HasBackgroundIffNonZero(padding: Padding)
    requires 0.0 <= padding.left && 0.0 <= padding.right && 0.0 <= padding.top && 0.0 <= padding.bottom
    ensures HasBackground(padding) <==> padding != Zero
  {
  }

  /** Opposite sides that cancel out hide the background although the padding is not zero. */
  lemma CancellingPaddingHasNoBackground()
    ensures !HasBackground(Edge(-1.0, 1.0, 0.0, 0.0)) && Edge(-1.0, 1.0, 0.0, 0.0) != Zero
  {
  }

  /** `Background::style`: column alignment with the given padding. */
  function DeclaredStyle(padding: Padding): (s: RawStyle)
    ensures s.align == Column && s.padding == padding
    ensures s.width == Dynamic && s.height == Dynamic && s.minWidth == 0.0 && s.margin == Zero
  {
    DefaultRaw.(align := Column, padding := padding)
  }

  /**
   * The fill: a parsed solid colour, or a linear gradient over the canvas with
   * pad spread. The stop colours are parsed first; then `LinearGradient::new`
   * gives no shader for an empty stop list, and its `unwrap` panics.
   */
  function BackgroundFill(background: Background, w: real, h: real): (r: Result<Fill, RenderError>)
    ensures background.Solid? ==> (r.Ok? <==> ToRgba(background.color).Ok?)
    ensures background.Solid? && r.Ok? ==> r.value == SolidFill(ToRgba(background.color).value)
    ensures background.Gradient? ==>
      (r.Ok? <==> ToGradientStops(background.gradient.stops).Ok? && background.gradient.stops != [])
    ensures background.Gradient? && background.gradient.stops == [] ==> r == Err(EmptyGradient)
    ensures background.Gradient? && r.Ok? ==>
      r.value == LinearGradientFill(IntoF32Point(background.gradient.start, w, h), IntoF32Point(background.gradient.end, w, h),
        ToGradientStops(background.gradient.stops).value, Pad)
  {
    match background
    case Solid(color) =>
      (match ToRgba(color)
       case Ok(c) => Ok(SolidFill(c))
       case Err(e) => Err(BadColor(e)))
    case Gradient(g) =>
      (match ToGradientStops(g.stops)
       case Ok(stops) =>
         if stops == [] then Err(EmptyGradient)
         else Ok(LinearGradientFill(IntoF32Point(g.start, w, h), IntoF32Point(g.end, w, h), stops, Pad))
       case Err(e) => Err(BadColor(e)))
  }

  /**
   * What `draw_self` paints on a w × h canvas: one rect over the whole canvas,
   * wherever the component itself sits, without anti-aliasing.
   */
  function Paints(background: Background, w: real, h: real): (r: Result<seq<Event>, RenderError>)
    ensures r.Ok? <==> BackgroundFill(background, w, h).Ok?
    ensures r.Ok? ==> r.value == [Event(BackgroundPainter, FillRect(0.0, 0.0, w, h, BackgroundFill(background, w, h).value, false, Identity))]
  {
    match BackgroundFill(background, w, h)
    case Ok(fill) => Ok([Event(BackgroundPainter, FillRect(0.0, 0.0, w, h, fill, false, Identity))])
    case Err(e) => Err(e)
  }

  /** A gradient ending at (Max, y) runs to the right edge of the canvas. */
  lemma GradientReachesRightEdge(g: LinearGradient, w: real, h: real)
    requires g.end.x.Max?
    requires ToGradientStops(g.stops).Ok? && g.stops != []
    ensures Paints(Gradient(g), w, h).Ok?
    ensures Paints(Gradient(g), w, h).value[0].paint.fill.end.x == w
  {
  }

  /** Every preset background has stops, all of which parse, so painting it never panics. */
  lemma PresetBackgroundPaints(p: Presets.Preset, w: real, h: real)
    ensures Paints(Presets.PresetBackground(p), w, h).Ok?
  {
    Presets.PresetGradientStopsParse(p);
  }

  /** `Background::draw_self` on the pixmap it is given. */
  method DrawSelf(pixmap: Pixmap, background: Background) returns (r: Result<(), RenderError>)
    modifies pixmap
    ensures r.Ok? <==> Paints(background, pixmap.width, pixmap.height).Ok?
    ensures r.Ok? ==> pixmap.events == old(pixmap.events) + Paints(background, pixmap.width, pixmap.height).value
    ensures r.Err? ==> r.error == Paints(background, pixmap.width, pixmap.height).error
    ensures r.Err? ==> pixmap.events == old(pixmap.events)
  {
    var w, h := pixmap.width, pixmap.height;
    var fill := BackgroundFill(background, w, h);
    if fill.Err? {
      return Err(fill.error);
    }
    pixmap.Paint(Event(BackgroundPainter, FillRect(0.0, 0.0, w, h, fill.value, false, Identity)));
    r := Ok(());
  }
}

=== FILE: breadcrumbs.dfy ===
/**
 * components/breadcrumbs.rs: the file path above the code, and the separator
 * rewriting of `parse_separator`, which goes through a regex replacement.
 */
module BreadcrumbsComponent {
  import opened Wrappers
  import opened Text
  import opened Edges
  import opened Style
  import Config
  import opened Canvas
  import opened Tree

  const LINE_HEIGHT: real := 15.0
  const CHAR_WIDTH: real := 8.0

  /** `Breadcrumbs::from_path`: a leaf holding the optional path and configuration. */
  function FromPath(filePath: Option<string>, config: Option<Config.BreadcrumbsConfig>): (n: Node)
    ensures n.kind == Breadcrumbs(filePath, config) && n.children == []
  {
    Node(Breadcrumbs(filePath, config), [])
  }

  /** Both a configuration and a path are present: the condition for a size and for drawing. */
  predicate Shown(k: Kind)
    requires k.Breadcrumbs?
  {
    k.breadcrumbs.Some? && k.path.Some?
  }

  /**
   * `Breadcrumbs::style`: the measured size of the path (8 per character, 15
   * per line) when shown, the default style otherwise.
   */
  function DeclaredStyle(env: Env, k: Kind): (s: RawStyle)
    requires k.Breadcrumbs?
    ensures Shown(k) ==> s == DefaultRaw.(width := Size.Num(env.calcWh(k.path.value, CHAR_WIDTH, LINE_HEIGHT).0),
                                          height := Size.Num(env.calcWh(k.path.value, CHAR_WIDTH, LINE_HEIGHT).1))
    ensures !Shown(k) ==> s == DefaultRaw
  {
    if k.breadcrumbs.Some? && k.path.Some? then
      var (w, h) := env.calcWh(k.path.value, CHAR_WIDTH, LINE_HEIGHT);
      DefaultRaw.(width := Size.Num(w), height := Size.Num(h), margin := Zero)
    else DefaultRaw
  }

  /** `Breadcrumbs::draw_self`: the path as given, in a box as wide as the component and one line high. */
  function Paints(k: Kind, origin: Config.Point<real>, style: ResolvedStyle): (evs: seq<Event>)
    requires k.Breadcrumbs?
    ensures Shown(k) ==> evs == [Event(BreadcrumbsPainter,
      DrawText(origin.x, origin.y, Some(Config.Point(style.width, LINE_HEIGHT)), [k.path.value], Start))]
    ensures !Shown(k) ==> evs == []
  {
    if k.breadcrumbs.Some? && k.path.Some? then
      [Event(BreadcrumbsPainter, DrawText(origin.x, origin.y, Some(Config.Point(style.width, LINE_HEIGHT)), [k.path.value], Start))]
    else []
  }

  /** Drawing and sizing agree: something is drawn exactly when a size was measured. */
  lemma DrawsIffMeasured(env: Env, k: Kind, origin: Config.Point<real>, style: ResolvedStyle)
    requires k.Breadcrumbs?
    ensures Paints(k, origin, style) != [] <==> DeclaredStyle(env, k).width.Num?
  {
  }

  // ---------------------------------------------------------------- parse_separator

  /** A character that may continue a `$name` capture reference. */
  predicate IsCapLetter(c: char) {
    ('0' <= c <= '9') || ('a' <= c <= 'z') || ('A' <= c <= 'Z') || c == '_'
  }

  /** End of the run of capture-name characters starting at `i`. */
  function CapNameEnd(s: string, i: nat): (j: nat)
    requires i <= |s|
    ensures i <= j <= |s|
    decreases |s| - i
  {
    if i < |s| && IsCapLetter(s[i]) then CapNameEnd(s, i + 1) else i
  }

  /**
   * The only group of the pattern "/" is group 0, the match itself: a
   * reference names it when it parses as the number 0 (an optional '+', then
   * only zeros); every other reference names a group that does not exist.
   */
  predicate NamesWholeMatch(name: string) {
    var digits := if |name| > 0 && name[0] == '+' then name[1..] else name;
    |digits| > 0 && AllZeros(digits)
  }

  predicate AllZeros(digits: string) {
    forall i :: 0 <= i < |digits| ==> digits[i] == '0'
  }

  function CapValue(name: string): string {
    if NamesWholeMatch(name) then "/" else ""
  }

  /**
   * The text the regex engine inserts for each "/": the replacement with its
   * `$` references expanded — "$$" is one '$', "$name" and "${name}" are the
   * named group, and a '$' that starts no reference stays as it is.
   */
  function Expand(rep: string): string
    decreases |rep|
  {
    if rep == [] then ""
    else if rep[0] != '$' then [rep[0]] + Expand(rep[1..])
    else if |rep| >= 2 && rep[1] == '$' then "$" + Expand(rep[2..])
    else if |rep| >= 2 && rep[1] == '{' then
      if '}' in rep[2..] then
        var j := 2 + IndexOf(rep[2..], '}');
        CapValue(rep[2..j]) + Expand(rep[j + 1..])
      else "$" + Expand(rep[1..])
    else
      var e := CapNameEnd(rep, 1);
      if e == 1 then "$" + Expand(rep[1..]) else CapValue(rep[1..e]) + Expand(rep[e..])
  }

  /** A replacement without '$' is inserted as it is. */
  lemma {:induction false} ExpandLiteral(rep: string)
    requires '$' !in rep
    ensures Expand(rep) == rep
  {
    if rep != [] {
      assert rep[0] in rep;
      assert forall c :: c in rep[1..] ==> c in rep;
      ExpandLiteral(rep[1..]);
      assert [rep[0]] + rep[1..] == rep;
    }
  }

  /** `parse_separator`, as written: every "/" of the path becomes the expanded separator. */
  function ParseSeparator(path: string, separator: string): string {
    Join(Split(path, '/'), Expand(separator))
  }

  /** The separator "/" gives the path back. */
  lemma ParseSeparatorSlashIsIdentity(path: string)
    ensures ParseSeparator(path, "/") == path
  {
    ExpandLiteral("/");
    JoinSplit(path, '/');
  }

  /** A path without "/" is returned unchanged. */
  lemma ParseSeparatorWithoutSlash(path: string, separator: string)
    requires '/' !in path
    ensures ParseSeparator(path, separator) == path
  {
    SplitWithout(path, '/');
  }

  /** A separator such as "$x" is not inserted: "a/b" becomes "ab" instead of "a$xb". */
  lemma ParseSeparatorDropsDollarName()
    ensures ParseSeparator("a/b", "$x") == "ab"
    ensures ParseSeparatorLiteral("a/b", "$x") == "a$xb"
  {
    assert Split("a/b", '/') == ["a", "b"] by {
      SplitAt("a", "b", '/');
      SplitWithout("b", '/');
      assert "a/b" == "a" + ['/'] + "b";
    }
    var rep := "$x";
    assert rep[0] == '$' && rep[1] == 'x' && IsCapLetter(rep[1]);
    assert CapNameEnd(rep, 2) == 2;
    assert CapNameEnd(rep, 1) == 2;
    assert rep[1..2] == "x" && rep[2..] == "";
    assert !AllZeros("x") by {
      assert "x"[0] != '0';
    }
    assert Expand(rep) == CapValue("x") + Expand("");
  }

  /** The intended rewriting: every "/" replaced by the separator, taken literally. */
  function ParseSeparatorLiteral(path: string, separator: string): string {
    Join(Split(path, '/'), separator)
  }

  /** For separators without '$' the regex rewriting is the literal one. */
  lemma ParseSeparatorAgreesWithoutDollar(path: string, separator: string)
    requires '$' !in separator
    ensures ParseSeparator(path, separator) == ParseSeparatorLiteral(path, separator)
  {
    ExpandLiteral(separator);
  }

  /** Each "/" grows or shrinks the path by the separator's length minus one. */
  lemma ParseSeparatorLiteralLength(path: string, separator: string)
    ensures |ParseSeparatorLiteral(path, separator)| == |path| + Count(path, '/') * (|separator| - 1)
  {
    JoinSplitLength(path, '/', separator);
  }

  lemma {:induction false} JoinSplitLength(s: string, c: char, t: string)
    ensures |Join(Split(s, c), t)| == |s| + Count(s, c) * (|t| - 1)
  {
    if s != [] {
      var rest := Split(s[1..], c);
      JoinSplitLength(s[1..], c, t);
      if s[0] == c {
        assert Split(s, c) == [""] + rest;
        assert ([""] + rest)[1..] == rest;
        assert Join([""] + rest, t) == "" + t + Join(rest, t);
      } else {
        var first := [s[0]] + rest[0];
        assert Split(s, c) == [first] + rest[1..];
        if |rest| == 1 {
          assert Join([first], t) == first;
        } else {
          assert ([first] + rest[1..])[1..] == rest[1..];
          assert Join([first] + rest[1..], t) == first + t + Join(rest[1..], t);
          assert Join(rest, t) == rest[0] + t + Join(rest[1..], t);
        }
      }
    }
  }
}

=== FILE: canvas.dfy ===
/**
 * The drawing surface, reduced to what the layout engine decides: a pixmap is
 * an append-only log of paint operations, each tagged with the component that
 * issued it. Rasterisation itself (tiny-skia) is not part of this model.
 */
module Canvas {
  import opened Wrappers
  import opened Color
  import opened Config
  import Ansi

  datatype Transform = Identity | Scale(factor: real)

  datatype SpreadMode = Pad

  datatype Fill =
    | SolidFill(color: Rgba)
    | LinearGradientFill(start: Point<real>, end: Point<real>, stops: seq<GradientStop>, spread: SpreadMode)

  /** One step of a `PathBuilder`. */
  datatype PathVerb = MoveTo(to: Point<real>) | LineTo(to: Point<real>) | Circle(center: Point<real>, radius: real) | Close

  datatype TextAlign = Start | Center

  /** The component type that issued a paint. */
  datatype Painter =
    | RectPainter | BackgroundPainter | HighlightPainter | LineNumberPainter | MacTitleBarPainter
    | TitlePainter | WatermarkPainter | BreadcrumbsPainter | CommandLineHeaderPainter
    | CommandLineOutputPainter | CodePainter

  datatype Paint =
    | FillRect(x: real, y: real, width: real, height: real, fill: Fill, antiAlias: bool, transform: Transform)
    | FillPath(path: seq<PathVerb>, color: Rgba, transform: Transform)
      /** Another pixmap, with what was painted on it, composited at (x, y). */
    | DrawPixmap(x: real, y: real, width: real, height: real, contents: seq<Event>, transform: Transform)
    | Blur(sigma: real)
      /** Text laid out by the font renderer; `box` is the layout box when one is given. */
    | DrawText(x: real, y: real, box: Option<Point<real>>, spans: seq<string>, align: TextAlign)
      /** Runs of text, each with its own colour and font family. */
    | DrawSpans(x: real, y: real, box: Option<Point<real>>, runs: seq<Ansi.Span>)

  datatype Event = Event(painter: Painter, paint: Paint)

  /**
   * Rust's `f32 as i32` for values inside the i32 range: the fraction is
   * dropped, rounding toward zero.
   */
  function Truncate(v: real): (n: int)
    ensures 0.0 <= v ==> n as real <= v < n as real + 1.0
    ensures v < 0.0 ==> n as real - 1.0 < v <= n as real
  {
    if 0.0 <= v then v.Floor else -((-v).Floor)
  }

  /**
   * Why drawing stops. In the Rust code each is a panic: a colour string that
   * does not parse, unsigned arithmetic that leaves the u32 range, and a
   * gradient that tiny-skia refuses to build because it has no stops.
   */
  datatype RenderError = BadColor(error: ColorError) | ArithmeticOverflow | EmptyGradient

  class Pixmap {
    const width: real
    const height: real
    var events: seq<Event>

    constructor (width: real, height: real)
      ensures this.width == width && this.height == height && events == []
    {
      this.width := width;
      this.height := height;
      events := [];
    }

    method Paint(e: Event)
      modifies this
      ensures events == old(events) + [e]
    {
      events := events + [e];
    }

    /**
     * Paints the results in order and stops at the first one that is an
     * error, as a loop of draws that propagate their error with `?` does.
     */
    method PaintEach(results: seq<Result<Event, RenderError>>) returns (r: Result<(), RenderError>)
      modifies this
      ensures r.Ok? <==> Collect(results).Ok?
      ensures r.Ok? ==> events == old(events) + Collect(results).value
      ensures r.Err? ==> r.error == Collect(results).error
    {
      var i := 0;
      while i < |results|
        invariant 0 <= i <= |results|
        invariant Collect(results[..i]).Ok?
        invariant events == old(events) + Collect(results[..i]).value
      {
        CollectNext(results, i);
        if results[i].Err? {
          return Err(results[i].error);
        }
        Paint(results[i].value);
        i := i + 1;
      }
      assert results[..i] == results;
      r := Ok(());
    }
  }

  class PathBuilder {
    var verbs: seq<PathVerb>

    constructor ()
      ensures verbs == []
    {
      verbs := [];
    }

    method MoveTo(x: real, y: real)
      modifies this
      ensures verbs == old(verbs) + [PathVerb.MoveTo(Point(x, y))]
    {
      verbs := verbs + [PathVerb.MoveTo(Point(x, y))];
    }

    method LineTo(x: real, y: real)
      modifies this
      ensures verbs == old(verbs) + [PathVerb.LineTo(Point(x, y))]
    {
      verbs := verbs + [PathVerb.LineTo(Point(x, y))];
    }

    method PushCircle(x: real, y: real, radius: real)
      modifies this
      ensures verbs == old(verbs) + [PathVerb.Circle(Point(x, y), radius)]
    {
      verbs := verbs + [PathVerb.Circle(Point(x, y), radius)];
    }

    method Close()
      modifies this
      ensures verbs == old(verbs) + [PathVerb.Close]
    {
      verbs := verbs + [PathVerb.Close];
    }
  }
}

=== FILE: cli_highlight.dfy ===
/**
 * cli/src/highlight.rs: turning the command line's highlight ranges into
 * `HighlightLine::Range` entries, numbered within the cut snippet.
 */
module CliHighlight {
  import opened Wrappers
  import opened Text
  import Config
  import opened CliRange

  /**
   * `HighlightLineRange`: the range the snippet was cut with, the snippet the
   * highlight ranges are read against, and whether they count from the
   * snippet's first line (relative) or from the file's (absolute).
   */
  datatype HighlightLineRange = HighlightLineRange(
    codeSnippetRange: Range<nat>,
    codeSnippet: string,
    isRelativeHighlightRange: bool)

  /**
   * `get_absolute_highlight_range`: a range of file lines must lie inside the
   * snippet's range; it is then renumbered so that the snippet's first line
   * is line 1. The offset `snippet start - 1` is computed before the checks.
   */
  function AbsoluteHighlightRange(h: HighlightLineRange, range: Range<nat>): (r: Result<(nat, nat), CliError>)
    ensures var Range(first, last) := h.codeSnippetRange;
            && (r.Ok? <==> 1 <= first <= range.start && range.end <= last && first - 1 <= range.end)
            && (first == 0 ==> r == Err(Overflow))
            && (1 <= first && range.start < first ==> r == Err(HighlightStartBelow(first)))
            && (1 <= first <= range.start && range.end > last ==> r == Err(HighlightEndAbove(last)))
            && (r.Ok? ==> 1 <= r.value.0 && r.value.0 + (first - 1) == range.start && r.value.1 + (first - 1) == range.end)
  {
    var Range(first, last) := h.codeSnippetRange;
    if first == 0 then Err(Overflow)
    else
      var offsetStart := first - 1;
      if range.start < first then Err(HighlightStartBelow(first))
      else if range.end > last then Err(HighlightEndAbove(last))
      else if range.end < offsetStart then Err(Overflow)
      else Ok((range.start - offsetStart, range.end - offsetStart))
  }

  /**
   * `get_relative_highlight_range`: the range already counts from the
   * snippet's first line; only its end is checked, against the snippet's
   * line count, and the range is returned as given. Both the size
   * `last - first` and the line count `size + 1` are `usize` arithmetic.
   */
  function RelativeHighlightRange(h: HighlightLineRange, range: Range<nat>): (r: Result<(nat, nat), CliError>)
    ensures var Range(first, last) := h.codeSnippetRange;
            && (r.Ok? <==> first <= last && last - first < USIZE_MAX && range.end <= last - first + 1)
            && (last < first || (first <= last && last - first >= USIZE_MAX) ==> r == Err(Overflow))
            && (first <= last && last - first < USIZE_MAX && range.end > last - first + 1 ==> r == Err(HighlightEndAbove(last - first)))
            && (r.Ok? ==> r.value == (range.start, range.end))
  {
    var Range(first, last) := h.codeSnippetRange;
    if last < first then Err(Overflow)
    else
      var rangeSize := last - first;
      if rangeSize >= USIZE_MAX then Err(Overflow)
      else if range.end > rangeSize + 1 then Err(HighlightEndAbove(rangeSize))
      else Ok((range.start, range.end))
  }

  /** A snippet range as wide as `usize` allows overflows when its line count is computed. */
  lemma RelativeLineCountOverflows(snippet: string, range: Range<nat>)
    ensures RelativeHighlightRange(HighlightLineRange(Range(0, USIZE_MAX), snippet, true), range) == Err(Overflow)
  {
  }

  /**
   * Relative mode accepts an end one larger than the bound its error
   * message names: the message reports `last - first`, the check allows
   * `last - first + 1`, the snippet's line count.
   */
  lemma RelativeBoundAboveMessage(h: HighlightLineRange, start: nat)
    requires h.codeSnippetRange.start <= h.codeSnippetRange.end
    requires h.codeSnippetRange.end - h.codeSnippetRange.start < USIZE_MAX
    ensures var size := h.codeSnippetRange.end - h.codeSnippetRange.start;
            && RelativeHighlightRange(h, Range(start, size + 1)) == Ok((start, size + 1))
            && RelativeHighlightRange(h, Range(start, size + 2)) == Err(HighlightEndAbove(size))
  {
  }

  /**
   * Relative mode with the error naming the largest end it accepts, the
   * snippet's line count, instead of one less.
   */
  function RelativeHighlightRangeNamingLineCount(h: HighlightLineRange, range: Range<nat>): (r: Result<(nat, nat), CliError>)
    ensures var Range(first, last) := h.codeSnippetRange;
            && (r.Ok? <==> first <= last && last - first < USIZE_MAX && range.end <= last - first + 1)
            && (r.Ok? ==> r == RelativeHighlightRange(h, range))
            && (last < first || (first <= last && last - first >= USIZE_MAX) ==> r == Err(Overflow))
            && (first <= last && last - first < USIZE_MAX && r.Err? ==> r == Err(HighlightEndAbove(last - first + 1)))
  {
    var Range(first, last) := h.codeSnippetRange;
    if last < first || last - first >= USIZE_MAX then Err(Overflow)
    else
      var lineCount := last - first + 1;
      if range.end > lineCount then Err(HighlightEndAbove(lineCount))
      else Ok((range.start, range.end))
  }

  /** With the corrected message, the bound a refusal names is itself accepted, and the refused end lies above it. */
  lemma RelativeMessageNamesLargestEnd(h: HighlightLineRange, range: Range<nat>)
    requires h.codeSnippetRange.start <= h.codeSnippetRange.end
    requires h.codeSnippetRange.end - h.codeSnippetRange.start < USIZE_MAX
    requires RelativeHighlightRangeNamingLineCount(h, range).Err?
    ensures RelativeHighlightRangeNamingLineCount(h, range).error.HighlightEndAbove?
    ensures var bound := RelativeHighlightRangeNamingLineCount(h, range).error.max;
            && range.end > bound
            && RelativeHighlightRangeNamingLineCount(h, Range(range.start, bound)) == Ok((range.start, bound))
  {
  }

  /**
   * An absolute range inside the snippet lands inside the snippet's own
   * numbering, where relative mode accepts it unchanged.
   */
  lemma AbsoluteLandsInSnippet(h: HighlightLineRange, range: Range<nat>)
    requires h.codeSnippetRange.end <= USIZE_MAX
    requires AbsoluteHighlightRange(h, range).Ok?
    requires range.start <= range.end
    ensures var v := AbsoluteHighlightRange(h, range).value;
            && 1 <= v.0 <= v.1 <= h.codeSnippetRange.end - h.codeSnippetRange.start + 1
            && RelativeHighlightRange(h, Range(v.0, v.1)) == Ok(v)
  {
  }

  /** Shifting snippet lines back to file lines and reading them in absolute mode gives the snippet lines. */
  lemma AbsoluteOfFileLines(h: HighlightLineRange, s: nat, e: nat)
    requires 1 <= h.codeSnippetRange.start <= h.codeSnippetRange.end
    requires 1 <= s <= e <= h.codeSnippetRange.end - h.codeSnippetRange.start + 1
    ensures var offset := h.codeSnippetRange.start - 1;
            AbsoluteHighlightRange(h, Range(s + offset, e + offset)) == Ok((s, e))
  {
  }

  /** The raw range read, parsed against the snippet, and put in the snippet's numbering. */
  function SnippetHighlightRange(h: HighlightLineRange, rawRange: string): (r: Result<(nat, nat), CliError>)
    ensures FromStr(rawRange).Err? ==> r == Err(InvalidRangeFormat)
    ensures r.Ok? ==> r.value.0 <= r.value.1
  {
    match FromStr(rawRange)
    case Err(e) => Err(e)
    case Ok(text) =>
      match ParseRange(text, h.codeSnippet)
      case Err(e) => Err(e)
      case Ok(range) =>
        if h.isRelativeHighlightRange then RelativeHighlightRange(h, range)
        else AbsoluteHighlightRange(h, range)
  }

  /**
   * `create_highlight_lines`: one `Range` entry with the given colour; its
   * ends are cast to `u32`, which keeps their order whenever they fit.
   */
  function CreateHighlightLines(h: HighlightLineRange, rawRange: string, highlightColor: string): (r: Result<seq<Config.HighlightLine>, CliError>)
    ensures var t := SnippetHighlightRange(h, rawRange);
            && (r.Ok? <==> t.Ok?)
            && (r.Err? ==> r.error == t.error)
            && (r.Ok? ==> |r.value| == 1 && r.value[0].Range? && r.value[0].color == highlightColor)
            && (r.Ok? ==> r.value[0].start == Config.AsU32(t.value.0) && r.value[0].end == Config.AsU32(t.value.1))
            && (r.Ok? && t.value.1 < Config.U32_MODULUS ==> r.value[0].start <= r.value[0].end)
  {
    match SnippetHighlightRange(h, rawRange)
    case Err(e) => Err(e)
    case Ok((start, end)) =>
      Ok([Config.Range(Config.AsU32(start), Config.AsU32(end), highlightColor)])
  }

  /** A translation that fits in 32 bits becomes one entry with exactly those ends. */
  lemma CreateOfSnippet(h: HighlightLineRange, raw: string, s: nat, e: nat, highlightColor: string)
    requires SnippetHighlightRange(h, raw) == Ok((s, e))
    requires e < Config.U32_MODULUS
    ensures CreateHighlightLines(h, raw, highlightColor) == Ok([Config.Range(s, e, highlightColor)])
  {
    var r := CreateHighlightLines(h, raw, highlightColor);
    assert r.value == [r.value[0]];
  }

  /** The raw range's translation is the mode's translation of the range it parses to. */
  lemma SnippetOfParsed(h: HighlightLineRange, raw: string, text: Range<string>, range: Range<nat>)
    requires FromStr(raw) == Ok(text)
    requires ParseRange(text, h.codeSnippet) == Ok(range)
    ensures h.isRelativeHighlightRange ==> SnippetHighlightRange(h, raw) == RelativeHighlightRange(h, range)
    ensures !h.isRelativeHighlightRange ==> SnippetHighlightRange(h, raw) == AbsoluteHighlightRange(h, range)
  {
  }

  /**
   * `try_fold` with `Vec::extend`: each item's entries appended to the
   * accumulator in order; the first error is returned.
   */
  function TryFoldExtend<T, E>(f: string -> Result<seq<T>, E>, items: seq<string>, acc: seq<T>): Result<seq<T>, E>
    decreases |items|
  {
    if items == [] then Ok(acc)
    else
      match f(items[0])
      case Err(e) => Err(e)
      case Ok(entries) => TryFoldExtend(f, items[1..], acc + entries)
  }

  /** When every item gives one entry, the fold succeeds iff every item does, with the entries in item order. */
  lemma {:induction false} TryFoldExtendEntries<T, E>(f: string -> Result<seq<T>, E>, items: seq<string>, acc: seq<T>)
    requires forall i :: 0 <= i < |items| && f(items[i]).Ok? ==> |f(items[i]).value| == 1
    ensures var r := TryFoldExtend(f, items, acc);
            && (r.Ok? <==> forall i :: 0 <= i < |items| ==> f(items[i]).Ok?)
            && (r.Ok? ==> |r.value| == |acc| + |items| && r.value[..|acc|] == acc)
            && (r.Ok? ==> forall i :: 0 <= i < |items| ==> r.value[|acc| + i] == f(items[i]).value[0])
    decreases |items|
  {
    if items != [] {
      var rest := items[1..];
      assert forall i :: 1 <= i < |items| ==> items[i] == rest[i - 1];
      var first := f(items[0]);
      if first.Ok? {
        var acc' := acc + first.value;
        TryFoldExtendEntries(f, rest, acc');
        var r := TryFoldExtend(f, rest, acc');
        if r.Ok? {
          assert r.value[..|acc'|][..|acc|] == r.value[..|acc|];
          assert r.value[|acc|] == acc'[|acc|];
        }
      }
    }
  }

  /** The first failing item decides the fold; the items after it are never read. */
  lemma {:induction false} TryFoldExtendFirstFailure<T, E>(f: string -> Result<seq<T>, E>, items: seq<string>, acc: seq<T>, k: nat)
    requires k < |items|
    requires f(items[k]).Err?
    requires forall j :: 0 <= j < k ==> f(items[j]).Ok?
    ensures TryFoldExtend(f, items, acc) == Err(f(items[k]).error)
    decreases k
  {
    if k > 0 {
      var rest := items[1..];
      assert rest[k - 1] == items[k];
      assert forall j :: 0 <= j < k - 1 ==> rest[j] == items[j + 1];
      TryFoldExtendFirstFailure(f, rest, acc + f(items[0]).value, k - 1);
    }
  }

  /**
   * `create_multiple_highlight_lines`: one entry per raw range, in the order
   * given, when every range is accepted.
   */
  function CreateMultipleHighlightLines(h: HighlightLineRange, rawRanges: seq<string>, highlightColor: string): (r: Result<seq<Config.HighlightLine>, CliError>)
    ensures r.Ok? <==> forall i :: 0 <= i < |rawRanges| ==> CreateHighlightLines(h, rawRanges[i], highlightColor).Ok?
    ensures r.Ok? ==> |r.value| == |rawRanges|
    ensures r.Ok? ==> forall i :: 0 <= i < |rawRanges| ==>
              r.value[i] == CreateHighlightLines(h, rawRanges[i], highlightColor).value[0]
  {
    var f := raw => CreateHighlightLines(h, raw, highlightColor);
    TryFoldExtendEntries(f, rawRanges, []);
    TryFoldExtend(f, rawRanges, [])
  }

  /** The first range that fails decides the result. */
  lemma FirstFailureAborts(h: HighlightLineRange, rawRanges: seq<string>, highlightColor: string, k: nat)
    requires k < |rawRanges|
    requires CreateHighlightLines(h, rawRanges[k], highlightColor).Err?
    requires forall j :: 0 <= j < k ==> CreateHighlightLines(h, rawRanges[j], highlightColor).Ok?
    ensures CreateMultipleHighlightLines(h, rawRanges, highlightColor)
              == Err(CreateHighlightLines(h, rawRanges[k], highlightColor).error)
  {
    TryFoldExtendFirstFailure(raw => CreateHighlightLines(h, raw, highlightColor), rawRanges, [], k);
  }

  /** Ranges after the first failing one do not change the result. */
  lemma LaterRangesIgnored(h: HighlightLineRange, rawRanges: seq<string>, highlightColor: string, k: nat, later: seq<string>)
    requires k < |rawRanges|
    requires CreateHighlightLines(h, rawRanges[k], highlightColor).Err?
    requires forall j :: 0 <= j < k ==> CreateHighlightLines(h, rawRanges[j], highlightColor).Ok?
    ensures CreateMultipleHighlightLines(h, rawRanges[..k + 1] + later, highlightColor)
              == CreateMultipleHighlightLines(h, rawRanges, highlightColor)
  {
    var other := rawRanges[..k + 1] + later;
    assert forall j :: 0 <= j <= k ==> other[j] == rawRanges[j];
    FirstFailureAborts(h, rawRanges, highlightColor, k);
    FirstFailureAborts(h, other, highlightColor, k);
  }
}

=== FILE: cli_range.dfy ===
/**
 * cli/src/range.rs: the command line's line-range language. A range is
 * written "a:b", ":b" (from the first line), "a:" (to the last line) or a
 * single point "a"; each point is a line number, "start" or "end".
 */
module CliRange {
  import opened Wrappers
  import opened Text

  const RANGE_SEPARATOR: char := ':'
  const DEFAULT_RANGE: string := "start:end"

  /** `Range<T>`: a pair of points, as text before parsing and as line numbers after. */
  datatype Range<T> = Range(start: T, end: T)

  /** The three ways `str::parse::<usize>` can fail. */
  datatype ParseIntError = Empty | InvalidDigit | PosOverflow

  /**
   * The errors the command line reports while reading ranges. `Overflow`
   * stands for the panic of a `usize` subtraction or addition that leaves
   * its range.
   */
  datatype CliError =
    | InvalidRangeFormat
    | ParseInt(kind: ParseIntError)
    | HighlightStartBelow(min: nat)
    | HighlightEndAbove(max: nat)
    | Overflow

  /** The text each reported error carries; an overflow is a panic, not a report. */
  function Message(e: CliError): string
    requires !e.Overflow?
  {
    match e
    case InvalidRangeFormat => "Invalid range format"
    case ParseInt(Empty) => "cannot parse integer from empty string"
    case ParseInt(InvalidDigit) => "invalid digit found in string"
    case ParseInt(PosOverflow) => "number too large to fit in target type"
    case HighlightStartBelow(min) => "The highlight start range should be greater than or equal to " + NatToString(min)
    case HighlightEndAbove(max) => "The highlight end range should be less than or equal to " + NatToString(max)
  }

  function Min(a: nat, b: nat): nat {
    if a <= b then a else b
  }

  function Max(a: nat, b: nat): nat {
    if a <= b then b else a
  }

  /**
   * `prepare_range`: ":b" becomes "start:b", "a:" becomes "a:end", anything
   * else is kept. Only letters are added, never a separator.
   */
  function PrepareRange(raw: string): (r: string)
    ensures Count(r, RANGE_SEPARATOR) == Count(raw, RANGE_SEPARATOR)
    ensures RANGE_SEPARATOR !in raw ==> r == raw
  {
    CountZero("start", RANGE_SEPARATOR);
    CountZero("end", RANGE_SEPARATOR);
    CountAppend("start", raw, RANGE_SEPARATOR);
    CountAppend(raw, "end", RANGE_SEPARATOR);
    if StartsWith(raw, [RANGE_SEPARATOR]) then
      assert raw[0] == RANGE_SEPARATOR;
      "start" + raw
    else if EndsWith(raw, [RANGE_SEPARATOR]) then
      assert raw[|raw| - 1] == RANGE_SEPARATOR;
      raw + "end"
    else raw
  }

  /**
   * `Range::from_str`: the prepared text must hold at most one separator;
   * its two sides are the points, and a lone point is both ends.
   */
  function FromStr(rangeStr: string): (r: Result<Range<string>, CliError>)
    ensures r.Ok? <==> Count(rangeStr, RANGE_SEPARATOR) <= 1
    ensures r.Err? ==> r.error == InvalidRangeFormat
    ensures r.Ok? ==> RANGE_SEPARATOR !in r.value.start && RANGE_SEPARATOR !in r.value.end
    ensures r.Ok? && RANGE_SEPARATOR !in rangeStr ==> r.value == Range(rangeStr, rangeStr)
    ensures r.Ok? && RANGE_SEPARATOR in rangeStr ==>
              r.value.start + [RANGE_SEPARATOR] + r.value.end == PrepareRange(rangeStr)
  {
    var range := PrepareRange(rangeStr);
    var points := Split(range, RANGE_SEPARATOR);
    SplitCount(range, RANGE_SEPARATOR);
    SplitPiecesAvoid(range, RANGE_SEPARATOR);
    JoinSplit(range, RANGE_SEPARATOR);
    CountZero(rangeStr, RANGE_SEPARATOR);
    if |points| != 2 && |points| != 1 then Err(InvalidRangeFormat)
    else
      var start := points[0];
      var end := if |points| == 2 then points[1] else start;
      Ok(Range(start, end))
  }

  /** `Range::from_opt_string`: a missing range means the whole snippet. */
  function FromOptString(optStr: Option<string>): Result<Range<string>, CliError> {
    FromStr(optStr.GetOr(DEFAULT_RANGE))
  }

  /** "a:b" with two non-empty sides reads as the range from a to b. */
  lemma FromStrBounded(a: string, b: string)
    requires a != [] && b != []
    requires RANGE_SEPARATOR !in a && RANGE_SEPARATOR !in b
    ensures FromStr(a + [RANGE_SEPARATOR] + b) == Ok(Range(a, b))
  {
    var s := a + [RANGE_SEPARATOR] + b;
    assert s[0] == a[0] && s[|s| - 1] == b[|b| - 1];
    assert PrepareRange(s) == s;
    SplitAt(a, b, RANGE_SEPARATOR);
    SplitWithout(b, RANGE_SEPARATOR);
  }

  /** ":b" reads as the range from "start" to b. */
  lemma FromStrOpenStart(b: string)
    requires RANGE_SEPARATOR !in b
    ensures FromStr([RANGE_SEPARATOR] + b) == Ok(Range("start", b))
  {
    assert PrepareRange([RANGE_SEPARATOR] + b) == "start" + [RANGE_SEPARATOR] + b;
    SplitAt("start", b, RANGE_SEPARATOR);
    SplitWithout(b, RANGE_SEPARATOR);
  }

  /** "a:" with a non-empty a reads as the range from a to "end". */
  lemma FromStrOpenEnd(a: string)
    requires a != [] && RANGE_SEPARATOR !in a
    ensures FromStr(a + [RANGE_SEPARATOR]) == Ok(Range(a, "end"))
  {
    var s := a + [RANGE_SEPARATOR];
    assert s[0] == a[0];
    assert PrepareRange(s) == a + [RANGE_SEPARATOR] + "end";
    SplitAt(a, "end", RANGE_SEPARATOR);
    SplitWithout("end", RANGE_SEPARATOR);
  }

  /** Without a range option the range is "start" to "end". */
  lemma DefaultRangeText()
    ensures FromOptString(None) == Ok(Range("start", "end"))
  {
    assert DEFAULT_RANGE == "start" + [RANGE_SEPARATOR] + "end";
    FromStrBounded("start", "end");
  }

  /** The first `j` characters of `d` are digits whose value no longer fits in a `usize`. */
  predicate OverflowsWithin(d: string, j: nat)
    requires j <= |d|
  {
    (forall i :: 0 <= i < j ==> IsDigit(d[i])) && DigitsValue(d[..j]) > USIZE_MAX
  }

  /**
   * Which way `str::parse::<usize>` fails on a text it does not accept. The
   * digits are read left to right and the first failure is reported: a
   * value that leaves the `usize` range before any non-digit is reached is
   * an overflow; otherwise the text has a bad character (or no digit at all).
   */
  function ParseUsizeError(s: string): (e: ParseIntError)
    requires ParseUsize(s).None?
    ensures e == Empty <==> s == []
    ensures var d := UnsignedDigits(s);
      e == PosOverflow <==> exists j :: 0 <= j <= |d| && OverflowsWithin(d, j)
    ensures e == InvalidDigit <==> s != [] && !exists j :: 0 <= j <= |UnsignedDigits(s)| && OverflowsWithin(UnsignedDigits(s), j)
  {
    if s == [] then Empty
    else
      var d := UnsignedDigits(s);
      var k := DigitRun(d);
      assert d[..k] == d[..k][..k];
      if DigitsValue(d[..k]) > USIZE_MAX then
        assert OverflowsWithin(d, k);
        PosOverflow
      else
        NoOverflowWithin(d, k);
        InvalidDigit
  }

  /** When the run of leading digits fits, no prefix of the text overflows. */
  lemma NoOverflowWithin(d: string, k: nat)
    requires k == DigitRun(d)
    requires DigitsValue(d[..k]) <= USIZE_MAX
    ensures !exists j :: 0 <= j <= |d| && OverflowsWithin(d, j)
  {
    forall j | 0 <= j <= |d| && forall i :: 0 <= i < j ==> IsDigit(d[i])
      ensures DigitsValue(d[..j]) <= USIZE_MAX
    {
      if j <= k {
        DigitsValuePrefixMonotone(d, j, k);
      } else {
        assert false;
      }
    }
  }

  /**
   * A number too large for a `usize`, followed by a letter, is an overflow:
   * the parse fails on the digits before it reaches the letter.
   */
  lemma OverflowBeforeLetter(rest: string, lines: seq<string>)
    ensures var s := NatToString(USIZE_MAX + 1) + "x" + rest;
      && ParseUsize(s).None? && ParseUsizeError(s) == PosOverflow
      && ParseRangePoint(s, lines) == Err(ParseInt(PosOverflow))
  {
    var n := NatToString(USIZE_MAX + 1);
    var s := n + "x" + rest;
    assert UnsignedDigits(s) == s by { assert s[0] == n[0]; }
    assert !IsDigit(s[|n|]);
    assert s[..|n|] == n;
    DigitsValueOfNatToString(USIZE_MAX + 1);
    assert OverflowsWithin(s, |n|);
    assert s != "start" && s != "end" by { assert IsDigit(s[0]); }
  }

  /** `parse_range_point`: "start" is line 1, "end" the number of lines, anything else a `usize`. */
  function ParseRangePoint(point: string, lines: seq<string>): (r: Result<nat, CliError>)
    ensures point == "start" ==> r == Ok(1)
    ensures point == "end" ==> r == Ok(|lines|)
    ensures point != "start" && point != "end" ==>
              (r.Ok? <==> ParseUsize(point).Some?) &&
              (r.Ok? ==> r.value == ParseUsize(point).value && r.value <= USIZE_MAX) &&
              (r.Err? ==> r.error == ParseInt(ParseUsizeError(point)))
  {
    if point == "start" then Ok(1)
    else if point == "end" then Ok(|lines|)
    else
      match ParseUsize(point)
      case Some(n) => Ok(n)
      case None => Err(ParseInt(ParseUsizeError(point)))
  }

  /** A line number written in decimal is read back as itself. */
  lemma ParseRangePointOfNumber(n: nat, lines: seq<string>)
    requires n <= USIZE_MAX
    ensures ParseRangePoint(NatToString(n), lines) == Ok(n)
  {
    var s := NatToString(n);
    assert IsDigit(s[0]);
    assert s != "start" && s != "end" by { assert !IsDigit("start"[0]) && !IsDigit("end"[0]); }
    ParseUsizeOfNatToString(n);
  }

  /**
   * Both points read against the snippet's lines (the start's error first)
   * and put in ascending order.
   */
  function ParsePoints(range: Range<string>, lines: seq<string>): (r: Result<Range<nat>, CliError>)
    ensures var s := ParseRangePoint(range.start, lines);
            var e := ParseRangePoint(range.end, lines);
            && (r.Ok? <==> s.Ok? && e.Ok?)
            && (s.Err? ==> r == Err(s.error))
            && (s.Ok? && e.Err? ==> r == Err(e.error))
            && (r.Ok? ==> r.value.start <= r.value.end)
            && (r.Ok? ==> multiset{r.value.start, r.value.end} == multiset{s.value, e.value})
  {
    match ParseRangePoint(range.start, lines)
    case Err(err) => Err(err)
    case Ok(start) =>
      match ParseRangePoint(range.end, lines)
      case Err(err) => Err(err)
      case Ok(end) =>
        if start > end then Ok(Range(end, start)) else Ok(Range(start, end))
  }

  /** `Range::parse_range`: the points read against the snippet's `lines()`. */
  function ParseRange(range: Range<string>, codeSnippet: string): (r: Result<Range<nat>, CliError>)
    ensures r.Ok? ==> r.value.start <= r.value.end
  {
    ParsePoints(range, Lines(codeSnippet))
  }

  /** Two line numbers a ≤ b written as "a:b" read back as the range a to b. */
  lemma NumberedRange(a: nat, b: nat, lines: seq<string>)
    requires a <= b <= USIZE_MAX
    ensures FromStr(NatToString(a) + ":" + NatToString(b)) == Ok(Range(NatToString(a), NatToString(b)))
    ensures ParsePoints(Range(NatToString(a), NatToString(b)), lines) == Ok(Range(a, b))
  {
    var sa, sb := NatToString(a), NatToString(b);
    assert RANGE_SEPARATOR !in sa by { assert forall i :: 0 <= i < |sa| ==> IsDigit(sa[i]); }
    assert RANGE_SEPARATOR !in sb by { assert forall i :: 0 <= i < |sb| ==> IsDigit(sb[i]); }
    assert sa + ":" + sb == sa + [RANGE_SEPARATOR] + sb;
    FromStrBounded(sa, sb);
    ParseRangePointOfNumber(a, lines);
    ParseRangePointOfNumber(b, lines);
  }

  /**
   * The default range covers every line: 1 to the line count, or, for a
   * snippet without lines, 0 to 1 once the points are put in order.
   */
  lemma DefaultRangeLines(codeSnippet: string)
    ensures var r := ParseRange(FromOptString(None).value, codeSnippet);
            && (|Lines(codeSnippet)| >= 1 ==> r == Ok(Range(1, |Lines(codeSnippet)|)))
            && (Lines(codeSnippet) == [] ==> r == Ok(Range(0, 1)))
  {
    DefaultRangeText();
  }

  /** `Iterator::skip`. */
  function Skip<T>(xs: seq<T>, n: nat): seq<T> {
    if n >= |xs| then [] else xs[n..]
  }

  /** `Iterator::take`. */
  function Take<T>(xs: seq<T>, n: nat): seq<T> {
    if n >= |xs| then xs else xs[..n]
  }

  /** `lines.skip(k).take(n).collect::<Vec<_>>().join("\n")`. */
  function SkipTakeJoin(lines: seq<string>, k: nat, n: nat): string {
    Join(Take(Skip(lines, k), n), "\n")
  }

  /** Skipping `k` items and taking `n` of the rest is a slice, clipped to the sequence. */
  lemma SkipTakeSlice<T>(xs: seq<T>, k: nat, n: nat)
    ensures Take(Skip(xs, k), n) == xs[Min(k, |xs|)..Min(k + n, |xs|)]
  {
  }

  /**
   * The cut on a snippet's lines: lines `start` to `end`, counted from 1 and
   * both included, joined by "\n". `start - 1`, `end + 1` and
   * `(end + 1) - start` are `usize` arithmetic that panics when it leaves
   * the type's range.
   */
  function CutLines(range: Range<nat>, lines: seq<string>): (r: Result<string, CliError>)
    ensures r.Ok? <==> 1 <= range.start && range.end < USIZE_MAX && range.start <= range.end + 1
    ensures r.Err? ==> r.error == Overflow
  {
    if range.start == 0 || range.end >= USIZE_MAX || range.start > range.end + 1 then Err(Overflow)
    else Ok(SkipTakeJoin(lines, range.start - 1, (range.end + 1) - range.start))
  }

  /** `Range::cut_code_snippet`: the cut on the snippet's `lines()`. */
  function CutCodeSnippet(range: Range<nat>, codeSnippet: string): (r: Result<string, CliError>)
    ensures r.Ok? <==> 1 <= range.start && range.end < USIZE_MAX && range.start <= range.end + 1
    ensures r.Err? ==> r.error == Overflow
  {
    CutLines(range, Lines(codeSnippet))
  }

  /**
   * A successful cut of lines without "\n" holds exactly the lines from
   * `start` to `end` (as far as there are lines), one per "\n"-separated
   * piece.
   */
  lemma CutLinesSlice(range: Range<nat>, lines: seq<string>)
    requires CutLines(range, lines).Ok?
    requires forall i :: 0 <= i < |lines| ==> '\n' !in lines[i]
    ensures var from := Min(range.start - 1, |lines|);
            var to := Min(range.end, |lines|);
            var cut := CutLines(range, lines).value;
            && from <= to
            && (from < to ==> Split(cut, '\n') == lines[from..to])
            && (from == to ==> cut == "")
  {
    var k, n := range.start - 1, (range.end + 1) - range.start;
    var from := Min(k, |lines|);
    var to := Min(k + n, |lines|);
    SkipTakeSlice(lines, k, n);
    if from < to {
      SplitJoin(lines[from..to], '\n');
    }
  }

  /** On a snippet: a successful cut holds exactly its lines `start` to `end`. */
  lemma CutCodeSnippetLines(range: Range<nat>, codeSnippet: string)
    requires CutCodeSnippet(range, codeSnippet).Ok?
    ensures var lines := Lines(codeSnippet);
            var from := Min(range.start - 1, |lines|);
            var to := Min(range.end, |lines|);
            var cut := CutCodeSnippet(range, codeSnippet).value;
            && from <= to
            && (from < to ==> Split(cut, '\n') == lines[from..to])
            && (from == to ==> cut == "")
  {
    CutLinesSlice(range, Lines(codeSnippet));
  }

  /** The range 1 to the line count gives back every line. */
  lemma CutWholeSnippet(codeSnippet: string)
    requires 1 <= |Lines(codeSnippet)| < USIZE_MAX
    ensures CutCodeSnippet(Range(1, |Lines(codeSnippet)|), codeSnippet) == Ok(Join(Lines(codeSnippet), "\n"))
  {
    var lines := Lines(codeSnippet);
    assert Take(Skip(lines, 0), |lines|) == lines;
  }

  /**
   * With no range given, a snippet without lines (the empty file) reads as
   * the range 0 to 1, and cutting it computes `0 - 1`.
   */
  lemma EmptySnippetDefaultRangeOverflows()
    ensures ParseRange(FromOptString(None).value, "") == Ok(Range(0, 1))
    ensures CutCodeSnippet(Range(0, 1), "") == Err(Overflow)
  {
    DefaultRangeLines("");
  }

  /**
   * The cut with a start of 0 read as line 1, so that `start - 1` cannot
   * leave the type's range.
   */
  function CutCodeSnippetFromLineOne(range: Range<nat>, codeSnippet: string): (r: Result<string, CliError>)
    ensures r.Ok? <==> range.end < USIZE_MAX && range.start <= range.end + 1
    ensures r.Err? ==> r.error == Overflow
    ensures r.Ok? && 1 <= range.start ==> r == CutCodeSnippet(range, codeSnippet)
  {
    CutLines(Range(Max(range.start, 1), range.end), Lines(codeSnippet))
  }

  /** With the start read from line 1, the default range reproduces every snippet, the empty one included. */
  lemma DefaultRangeKeepsSnippet(codeSnippet: string)
    requires |Lines(codeSnippet)| < USIZE_MAX
    ensures var r := ParseRange(FromOptString(None).value, codeSnippet);
            r.Ok? && CutCodeSnippetFromLineOne(r.value, codeSnippet) == Ok(Join(Lines(codeSnippet), "\n"))
  {
    DefaultRangeLines(codeSnippet);
    var lines := Lines(codeSnippet);
    if lines == [] {
      assert Take(Skip(lines, 0), 2) == [];
    } else {
      CutWholeSnippet(codeSnippet);
    }
  }
}

=== FILE: color.dfy ===
/**
 * utils/color.rs: hex colour strings ("#rrggbb" or "#rrggbbaa") and their
 * conversion to an RGBA quadruple.
 */
module Color {
  import opened Wrappers
  import opened Text

  type Byte = x: int | 0 <= x < 256

  datatype Rgba = Rgba(r: Byte, g: Byte, b: Byte, a: Byte)

  /** Why a colour string is refused; in the Rust code each of these is a panic. */
  datatype ColorError = InvalidHexColor | InvalidHexDigit

  const HEX_COLOR_LENGTH: nat := 7
  const HEX_COLOR_WITH_ALPHA_LENGTH: nat := 9

  /** `is_valid_hex_color`: 7 or 9 bytes and a leading '#'; the digits are not looked at. */
  predicate IsValidHexColor(hex: string) {
    (Utf8Len(hex) == HEX_COLOR_LENGTH || Utf8Len(hex) == HEX_COLOR_WITH_ALPHA_LENGTH) && StartsWith(hex, "#")
  }

  /** `parse_color_to_rgba_hex`: a valid 7-byte colour gets an opaque "ff" alpha. */
  function ParseColorToRgbaHex(hex: string): (r: string)
    ensures StartsWith(r, hex)
    ensures r != hex ==> r == hex + "ff"
    ensures r == hex + "ff" <==> IsValidHexColor(hex) && Utf8Len(hex) == HEX_COLOR_LENGTH
    ensures !IsValidHexColor(hex) ==> r == hex
    ensures IsValidHexColor(hex) ==> IsValidHexColor(r) && Utf8Len(r) == HEX_COLOR_WITH_ALPHA_LENGTH
    ensures IsValidHexColor(hex) && Utf8Len(hex) == HEX_COLOR_WITH_ALPHA_LENGTH ==> r == hex
  {
    if IsValidHexColor(hex) && Utf8Len(hex) == HEX_COLOR_LENGTH then
      Utf8LenAppend(hex, "ff");
      hex + "ff"
    else hex
  }

  // ---------------------------------------------------------------- digits

  function HexDigitValue(c: char): (r: Option<nat>)
    ensures r.Some? ==> r.value < 16
  {
    if '0' <= c <= '9' then Some(c as int - '0' as int)
    else if 'a' <= c <= 'f' then Some(c as int - 'a' as int + 10)
    else if 'A' <= c <= 'F' then Some(c as int - 'A' as int + 10)
    else None
  }

  function HexDigitChar(d: nat): (c: char)
    requires d < 16
    ensures HexDigitValue(c) == Some(d)
    ensures '0' <= c <= '9' || 'a' <= c <= 'f'
  {
    "0123456789abcdef"[d]
  }

  /**
   * One two-character chunk through `i64::from_str_radix(_, 16)` and then
   * `as u8`: a leading sign is accepted, and a negative value wraps modulo 256.
   */
  function ParsePair(c1: char, c2: char): (r: Option<Byte>)
    ensures r.Some? && HexDigitValue(c1).Some? && HexDigitValue(c2).Some? ==>
      r.value == 16 * HexDigitValue(c1).value + HexDigitValue(c2).value
    ensures r.Some? <==> (HexDigitValue(c1).Some? || c1 == '+' || c1 == '-') && HexDigitValue(c2).Some?
  {
    if c1 == '+' || c1 == '-' then
      match HexDigitValue(c2)
      case None => None
      case Some(v) => Some(if c1 == '-' then (-(v as int)) % 256 else v)
    else
      match (HexDigitValue(c1), HexDigitValue(c2))
      case (Some(hi), Some(lo)) => Some(16 * hi + lo)
      case _ => None
  }

  function LowerChar(c: char): char {
    if 'A' <= c <= 'Z' then (c as int + 32) as char else c
  }

  /** `to_lowercase` on ASCII text. */
  function Lower(s: string): (r: string)
    ensures |r| == |s| && forall i :: 0 <= i < |s| ==> r[i] == LowerChar(s[i])
  {
    seq(|s|, i requires 0 <= i < |s| => LowerChar(s[i]))
  }

  lemma AsciiConcat(a: string, b: string)
    requires IsAscii(a) && IsAscii(b)
    ensures IsAscii(a + b)
  {
  }

  /** A hexadecimal digit in either case. */
  predicate IsHexDigit(c: char) {
    '0' <= c <= '9' || 'a' <= c <= 'f' || 'A' <= c <= 'F'
  }

  /**
   * What `i64::from_str_radix(_, 16)` accepts at position `i` of the colour:
   * a digit anywhere, and a sign where a two-character chunk begins (the odd
   * positions, counting the '#' as position 0).
   */
  predicate DigitOk(c: char, i: int) {
    IsHexDigit(c) || (i % 2 == 1 && (c == '+' || c == '-'))
  }

  /** Every character after the '#' is accepted where it stands. */
  predicate DigitsOk(hex: string) {
    forall i :: 1 <= i < |hex| ==> DigitOk(hex[i], i)
  }

  /**
   * `impl From<&str> for RgbaColor`: checks the shape, adds the alpha, lowers
   * the case and reads four two-digit chunks. A string with a non-ASCII
   * character always fails in Rust (a slice off a character boundary, or a
   * chunk that is not a number), so it is refused up front.
   */
  function ToRgba(hex: string): (r: Result<Rgba, ColorError>)
    ensures r.Ok? <==> IsValidHexColor(hex) && IsAscii(hex) && DigitsOk(hex)
    ensures !IsValidHexColor(hex) ==> r == Err(InvalidHexColor)
    ensures IsValidHexColor(hex) && !(IsAscii(hex) && DigitsOk(hex)) ==> r == Err(InvalidHexDigit)
    ensures r.Ok? && Utf8Len(hex) == HEX_COLOR_LENGTH ==> r.value.a == 255
  {
    if !IsValidHexColor(hex) then Err(InvalidHexColor)
    else if !IsAscii(hex) then Err(InvalidHexDigit)
    else
      var rgbaHex := ParseColorToRgbaHex(hex);
      ParseDigitsIff(hex);
      match ParseDigits(Lower(rgbaHex)[1..])
      case Some(c) => Ok(c)
      case None => Err(InvalidHexDigit)
  }

  /** A well-shaped colour with a letter that is no hex digit is refused. */
  lemma NonHexDigitRefused()
    ensures ToRgba("#zzzzzz") == Err(InvalidHexDigit)
  {
    var s := "#zzzzzz";
    assert IsAscii(s) && StartsWith(s, "#");
    assert !DigitOk(s[1], 1);
  }

  /** A sign at the head of a chunk is read by `from_str_radix`: "-1" is -1, which `as u8` wraps to 255. */
  lemma SignedChunkRead()
    ensures ToRgba("#-1ff00").Ok? && ToRgba("#-1ff00").value.r == 255
  {
    var s := "#-1ff00";
    assert IsAscii(s) && StartsWith(s, "#");
    assert DigitsOk(s) by {
      forall i | 1 <= i < |s| ensures DigitOk(s[i], i) {
        assert i == 1 || i == 2 || i == 3 || i == 4 || i == 5 || i == 6;
      }
    }
    var full := ParseColorToRgbaHex(s);
    assert full == s + "ff";
    assert Lower(full)[1] == '-' && Lower(full)[2] == '1';
  }

  /** A sign in the second place of a chunk is refused. */
  lemma SignInsideChunkRefused()
    ensures ToRgba("#f-ff00") == Err(InvalidHexDigit)
  {
    var t := "#f-ff00";
    assert IsAscii(t) && StartsWith(t, "#");
    assert !DigitOk(t[2], 2);
  }

  /** One chunk, after lowering, parses exactly when both of its characters are accepted. */
  lemma ParsePairLower(c1: char, c2: char)
    ensures ParsePair(LowerChar(c1), LowerChar(c2)).Some? <==> DigitOk(c1, 1) && DigitOk(c2, 2)
  {
  }

  /** The chunks parse exactly when the digits of the colour are accepted. */
  lemma ParseDigitsIff(hex: string)
    requires IsValidHexColor(hex) && IsAscii(hex)
    ensures |ParseColorToRgbaHex(hex)| == 9
    ensures ParseDigits(Lower(ParseColorToRgbaHex(hex))[1..]).Some? <==> DigitsOk(hex)
  {
    var full := ParseColorToRgbaHex(hex);
    AsciiConcat(hex, "ff");
    var d := Lower(full)[1..];
    assert forall i :: 1 <= i < 9 ==> (DigitOk(full[i], i) <==> (i < |hex| ==> DigitOk(hex[i], i))) by {
      forall i | 1 <= i < 9
        ensures DigitOk(full[i], i) <==> (i < |hex| ==> DigitOk(hex[i], i))
      {
        if |hex| == 7 {
          assert full == hex + "ff";
          if i >= 7 {
            assert full[i] == 'f';
          }
        }
      }
    }
    ParsePairLower(full[1], full[2]);
    ParsePairLower(full[3], full[4]);
    ParsePairLower(full[5], full[6]);
    ParsePairLower(full[7], full[8]);
    if DigitsOk(hex) {
      assert ParseDigits(d).Some?;
    } else {
      var i :| 1 <= i < |hex| && !DigitOk(hex[i], i);
      assert !DigitOk(full[i], i);
    }
  }

  /** The eight digits after the '#', read as four chunks of two. */
  function ParseDigits(d: string): Option<Rgba>
    requires |d| == 8
  {
    match (ParsePair(d[0], d[1]), ParsePair(d[2], d[3]), ParsePair(d[4], d[5]), ParsePair(d[6], d[7]))
    case (Some(r), Some(g), Some(b), Some(a)) => Some(Rgba(r, g, b, a))
    case _ => None
  }

  // ---------------------------------------------------------------- partners

  function Hex2(b: Byte): (s: string)
    ensures |s| == 2
  {
    [HexDigitChar(b / 16), HexDigitChar(b % 16)]
  }

  /** The canonical "#rrggbbaa" spelling of a colour, in lower case. */
  function FormatRgbaHex(c: Rgba): (s: string)
    ensures |s| == HEX_COLOR_WITH_ALPHA_LENGTH && IsAscii(s) && s[0] == '#'
  {
    "#" + Hex2(c.r) + Hex2(c.g) + Hex2(c.b) + Hex2(c.a)
  }

  /** The canonical "#rrggbb" spelling of an opaque colour. */
  function FormatRgbHex(r: Byte, g: Byte, b: Byte): (s: string)
    ensures |s| == HEX_COLOR_LENGTH && IsAscii(s) && s[0] == '#'
  {
    "#" + Hex2(r) + Hex2(g) + Hex2(b)
  }

  lemma ParsePairOfHex2(b: Byte)
    ensures ParsePair(Hex2(b)[0], Hex2(b)[1]) == Some(b)
  {
  }

  lemma ParseDigitsOfHex(r: Byte, g: Byte, b: Byte, a: Byte)
    ensures ParseDigits(Hex2(r) + Hex2(g) + Hex2(b) + Hex2(a)) == Some(Rgba(r, g, b, a))
  {
    var d := Hex2(r) + Hex2(g) + Hex2(b) + Hex2(a);
    ParsePairOfHex2(r);
    ParsePairOfHex2(g);
    ParsePairOfHex2(b);
    ParsePairOfHex2(a);
    assert d[0] == Hex2(r)[0] && d[1] == Hex2(r)[1];
    assert d[2] == Hex2(g)[0] && d[3] == Hex2(g)[1];
    assert d[4] == Hex2(b)[0] && d[5] == Hex2(b)[1];
    assert d[6] == Hex2(a)[0] && d[7] == Hex2(a)[1];
  }

  /** Lower-case hex digits and '#' are left alone by `Lower`. */
  lemma LowerOfCanonical(s: string)
    requires forall i :: 0 <= i < |s| ==> s[i] == '#' || '0' <= s[i] <= '9' || 'a' <= s[i] <= 'f'
    ensures Lower(s) == s
  {
  }

  /** Every colour survives being written out and read back. */
  lemma ToRgbaOfFormat(c: Rgba)
    ensures ToRgba(FormatRgbaHex(c)) == Ok(c)
  {
    var s := FormatRgbaHex(c);
    var digits := Hex2(c.r) + Hex2(c.g) + Hex2(c.b) + Hex2(c.a);
    assert s == "#" + digits;
    assert StartsWith(s, "#");
    assert Utf8Len(s) == 9;
    assert ParseColorToRgbaHex(s) == s;
    LowerOfCanonical(s);
    assert s[1..] == digits;
    ParseDigitsOfHex(c.r, c.g, c.b, c.a);
  }

  /** A six-digit colour reads back as itself with full opacity. */
  lemma ToRgbaOfRgbFormat(r: Byte, g: Byte, b: Byte)
    ensures ToRgba(FormatRgbHex(r, g, b)) == Ok(Rgba(r, g, b, 255))
  {
    var s := FormatRgbHex(r, g, b);
    var full := s + "ff";
    var digits := Hex2(r) + Hex2(g) + Hex2(b) + Hex2(255);
    assert Hex2(255) == "ff";
    assert full == "#" + digits;
    assert StartsWith(s, "#");
    assert Utf8Len(s) == 7;
    assert ParseColorToRgbaHex(s) == full;
    LowerOfCanonical(full);
    assert full[1..] == digits;
    ParseDigitsOfHex(r, g, b, 255);
  }

  lemma {:induction false} Utf8LenLower(s: string)
    ensures Utf8Len(Lower(s)) == Utf8Len(s)
  {
    if s != [] {
      assert Lower(s)[1..] == Lower(s[1..]);
      Utf8LenLower(s[1..]);
    }
  }

  lemma LowerConcat(a: string, b: string)
    ensures Lower(a + b) == Lower(a) + Lower(b)
  {
  }

  /** Upper- and lower-case spellings of the same colour read the same. */
  lemma ToRgbaIgnoresCase(s: string, t: string)
    requires Lower(s) == Lower(t)
    ensures ToRgba(s) == ToRgba(t)
  {
    Utf8LenLower(s);
    Utf8LenLower(t);
    assert Utf8Len(s) == Utf8Len(t);
    assert IsAscii(s) <==> IsAscii(t) by {
      assert forall i :: 0 <= i < |s| ==> (s[i] as int < 0x80 <==> LowerChar(s[i]) as int < 0x80);
      assert forall i :: 0 <= i < |t| ==> (t[i] as int < 0x80 <==> LowerChar(t[i]) as int < 0x80);
    }
    assert StartsWith(s, "#") <==> StartsWith(t, "#") by {
      if |s| > 0 {
        assert LowerChar(s[0]) == LowerChar(t[0]);
      }
    }
    if IsValidHexColor(s) && IsAscii(s) {
      var rs := ParseColorToRgbaHex(s);
      var rt := ParseColorToRgbaHex(t);
      if Utf8Len(s) == HEX_COLOR_LENGTH {
        LowerConcat(s, "ff");
        LowerConcat(t, "ff");
      }
      assert Lower(rs) == Lower(rt);
    }
  }

  /** A seven-character spelling whose digits lower to those of `FormatRgbHex`. */
  lemma LowerSpellsRgb(s: string, r: Byte, g: Byte, b: Byte)
    requires |s| == 7 && s[0] == '#'
    requires LowerChar(s[1]) == Hex2(r)[0] && LowerChar(s[2]) == Hex2(r)[1]
    requires LowerChar(s[3]) == Hex2(g)[0] && LowerChar(s[4]) == Hex2(g)[1]
    requires LowerChar(s[5]) == Hex2(b)[0] && LowerChar(s[6]) == Hex2(b)[1]
    ensures Lower(s) == FormatRgbHex(r, g, b)
  {
    var want := FormatRgbHex(r, g, b);
    assert want == "#" + Hex2(r) + Hex2(g) + Hex2(b);
    assert forall i :: 0 <= i < 7 ==> Lower(s)[i] == want[i];
  }

  /** A spelling that lowers to the canonical one reads as that opaque colour. */
  lemma ReadsAsOpaque(s: string, r: Byte, g: Byte, b: Byte)
    requires Lower(s) == FormatRgbHex(r, g, b)
    ensures ToRgba(s) == Ok(Rgba(r, g, b, 255))
  {
    LowerOfCanonical(FormatRgbHex(r, g, b));
    ToRgbaIgnoresCase(s, FormatRgbHex(r, g, b));
    ToRgbaOfRgbFormat(r, g, b);
  }
}

=== FILE: command_line_header.dfy ===
/**
 * components/command_line/command_line_header.rs: the prompt line above a
 * command's output — the prompt, the command word in bold and the arguments.
 */
module CommandLineHeaderComponent {
  import opened Wrappers
  import opened Text
  import opened Color
  import opened Style
  import Config
  import opened Canvas
  import opened Tree
  import Ansi

  const FONT_SIZE: real := 12.5
  const LINE_HEIGHT: real := 20.0
  const FONT_FAMILY: string := "Caskaydia Cove Nerd Font"

  /** Why a header cannot be built; both are panics in the Rust code. */
  datatype HeaderError = NoCommandWord | BadHeaderColor(error: ColorError)

  /**
   * `CommandLineHeader::from`: the command is split on whitespace; the first
   * word, followed by a space, is the command, and the remaining words joined
   * by single spaces are the arguments. The prompt gets a trailing space. A
   * command without words, then a bad prompt colour, then a bad command
   * colour, stop construction in that order.
   */
  function From(config: Config.CommandOutputConfig, command: string): (r: Result<Kind, HeaderError>)
    ensures r == Err(NoCommandWord) <==> SplitWhitespace(command) == []
    ensures SplitWhitespace(command) != [] && ToRgba(config.promptColor).Err? ==>
      r == Err(BadHeaderColor(ToRgba(config.promptColor).error))
    ensures SplitWhitespace(command) != [] && ToRgba(config.promptColor).Ok? && ToRgba(config.commandColor).Err? ==>
      r == Err(BadHeaderColor(ToRgba(config.commandColor).error))
    ensures r.Ok? <==> SplitWhitespace(command) != [] && ToRgba(config.promptColor).Ok? && ToRgba(config.commandColor).Ok?
    ensures r.Ok? ==> (r.value.CommandLineHeader?
      && r.value.prompt == config.prompt + " "
      && Ok(r.value.promptColor) == ToRgba(config.promptColor)
      && Ok(r.value.commandColor) == ToRgba(config.commandColor)
      && r.value.command == SplitWhitespace(command)[0] + " "
      && r.value.args == Join(SplitWhitespace(command)[1..], " ")
      && SplitWhitespace(r.value.command) == [SplitWhitespace(command)[0]]
      && SplitWhitespace(r.value.args) == SplitWhitespace(command)[1..])
  {
    var words := SplitWhitespace(command);
    if words == [] then Err(NoCommandWord)
    else match ToRgba(config.promptColor)
      case Err(e) => Err(BadHeaderColor(e))
      case Ok(promptColor) =>
        match ToRgba(config.commandColor)
        case Err(e) => Err(BadHeaderColor(e))
        case Ok(commandColor) =>
          WordThenSpace(words[0]);
          SplitWhitespaceJoin(words[1..]);
          Ok(CommandLineHeader(config.prompt + " ", words[0] + " ", Join(words[1..], " "), promptColor, commandColor))
  }

  /** A word followed by a space splits back to the word. */
  lemma WordThenSpace(w: string)
    requires w != [] && NoWhitespace(w)
    ensures SplitWhitespace(w + " ") == [w]
  {
    var s := w + " ";
    WordEndOfConcat(w, " ");
    assert s[..|w|] == w;
    assert s[|w|..] == " ";
    assert SplitWhitespace(" ") == SplitWhitespace(""[..]) by {
      assert " "[1..] == "";
    }
  }

  /**
   * The header shows the command it was given: the command word and the
   * arguments, side by side, split into the same words as the original.
   */
  lemma {:induction false} HeaderShowsCommand(config: Config.CommandOutputConfig, command: string)
    requires From(config, command).Ok?
    ensures var k := From(config, command).value;
      SplitWhitespace(k.command + k.args) == SplitWhitespace(command)
  {
    var words := SplitWhitespace(command);
    var k := From(config, command).value;
    var rest := words[1..];
    if rest == [] {
      WordThenSpace(words[0]);
      assert k.args == "";
      assert k.command + k.args == words[0] + " ";
      assert words == [words[0]];
    } else {
      assert k.command + k.args == Join([words[0]] + rest, " ") by {
        assert ([words[0]] + rest)[1..] == rest;
      }
      SplitWhitespaceJoin([words[0]] + rest);
      assert [words[0]] + rest == words;
    }
  }

  /**
   * `CommandLineHeader::style`: the size of prompt and command as one line, at
   * half the font size per character and 20 per line; the arguments are not measured.
   */
  function DeclaredStyle(env: Env, k: Kind): (s: RawStyle)
    requires k.CommandLineHeader?
    ensures s.width == Size.Num(env.calcWh(k.prompt + k.command, FONT_SIZE / 2.0, LINE_HEIGHT).0)
    ensures s.height == Size.Num(env.calcWh(k.prompt + k.command, FONT_SIZE / 2.0, LINE_HEIGHT).1)
    ensures s.(width := DefaultRaw.width, height := DefaultRaw.height) == DefaultRaw
  {
    var (w, h) := env.calcWh(k.prompt + k.command, FONT_SIZE / 2.0, LINE_HEIGHT);
    DefaultRaw.(width := Size.Num(w), height := Size.Num(h))
  }

  /** The arguments never change the header's size. */
  lemma StyleIgnoresArgs(env: Env, k: Kind, args: string)
    requires k.CommandLineHeader?
    ensures DeclaredStyle(env, k.(args := args)) == DeclaredStyle(env, k)
  {
  }

  /**
   * `CommandLineHeader::draw_self`: three runs in the component's box — the
   * prompt in the prompt colour, the command in the command colour, the
   * arguments in the theme's foreground colour.
   */
  function Paints(env: Env, k: Kind, origin: Config.Point<real>, style: ResolvedStyle): (evs: seq<Event>)
    requires k.CommandLineHeader?
    ensures |evs| == 1 && evs[0].painter == CommandLineHeaderPainter && evs[0].paint.DrawSpans?
    ensures var p := evs[0].paint;
      p.x == origin.x && p.y == origin.y && p.box == Some(Config.Point(style.width, style.height))
      && |p.runs| == 3
      && p.runs[0].text + p.runs[1].text + p.runs[2].text == k.prompt + k.command + k.args
      && p.runs[0].color == k.promptColor && p.runs[1].color == k.commandColor && p.runs[2].color == env.foreground
      && forall i :: 0 <= i < 3 ==> p.runs[i].family == FONT_FAMILY
  {
    [Event(CommandLineHeaderPainter, DrawSpans(origin.x, origin.y, Some(Config.Point(style.width, style.height)),
      [Ansi.Span(k.prompt, k.promptColor, FONT_FAMILY),
       Ansi.Span(k.command, k.commandColor, FONT_FAMILY),
       Ansi.Span(k.args, env.foreground, FONT_FAMILY)]))]
  }
}

=== FILE: component.dfy ===
/**
 * components/interface/component.rs: the layout engine every component shares.
 *
 * A bottom-up pass (`parsed_style`, `get_dynamic_wh`) resolves each node's
 * size from its declared style and its children's sizes, memoising the result
 * per component name; a top-down pass (`draw`) places each node after its
 * previous sibling, draws it, then its children. Here both passes are
 * functions that thread the style cache explicitly; the class in renderer.dfy
 * runs them in place and is proved to agree with them.
 */
module Engine {
  import opened Wrappers
  import opened Edges
  import opened Style
  import opened Config
  import opened Canvas
  import opened Tree
  import Layout
  import RectComponent
  import BackgroundComponent
  import HighlightCodeBlockComponent
  import LineNumberComponent
  import MacTitleBarComponent
  import TitleComponent
  import WatermarkComponent
  import BreadcrumbsComponent
  import CommandLineHeaderComponent
  import CodeComponent
  import CommandLineOutputComponent

  /** The `style_map` of `ComponentContext`: resolved styles by component name. */
  type Cache = map<string, ResolvedStyle>

  // ---------------------------------------------------------------- per-component dispatch

  /** `Component::name`; components that do not override it share the stub name. */
  function Name(k: Kind): string {
    match k
    case Rect(_, _, _, _, _, componentName) => componentName
    case Background(_) => BackgroundComponent.NAME
    case MacTitleBar(_) => MacTitleBarComponent.NAME
    case Watermark(_) => WatermarkComponent.NAME
    case Code(_) => CodeComponent.NAME
    case CommandLineOutput(_) => CommandLineOutputComponent.NAME
    case _ => STUB_COMPONENT
  }

  /** `Component::render_condition`: false prunes the node and everything below it. */
  predicate RenderCondition(k: Kind) {
    match k
    case HighlightCodeBlock(_, _, _, _) => HighlightCodeBlockComponent.RenderCondition(k)
    case LineNumber(_, _, _, _) => LineNumberComponent.RenderCondition(k)
    case MacTitleBar(_) => k.renderCondition
    case Title(_) => TitleComponent.RenderCondition(k)
    case Watermark(_) => WatermarkComponent.RenderCondition(k)
    case _ => true
  }

  /** `Component::self_render_condition`: false hides the node itself but not its children. */
  predicate SelfRenderCondition(k: Kind) {
    match k
    case Background(padding) => BackgroundComponent.HasBackground(padding)
    case _ => true
  }

  /**
   * `Component::style` of each component. The engine only asks a node that
   * passes its render condition, which is what makes `Title::style`'s unwrap safe.
   */
  function Declared(env: Env, k: Kind): RawStyle
    requires RenderCondition(k)
  {
    match k
    case Container => DefaultRaw
    case RowLayout => Layout.ROW_STYLE
    case ColumnLayout => Layout.COLUMN_STYLE
    case CodeBlock => Layout.CODE_BLOCK_STYLE
    case Rect(_, _, _, _, _, _) => RectComponent.DeclaredStyle(k)
    case Background(padding) => BackgroundComponent.DeclaredStyle(padding)
    case HighlightCodeBlock(_, _, _, _) => DefaultRaw
    case LineNumber(_, _, _, _) => LineNumberComponent.DeclaredStyle(env, k)
    case MacTitleBar(_) => MacTitleBarComponent.DeclaredStyle()
    case Title(_) => TitleComponent.DeclaredStyle(k)
    case Watermark(_) => WatermarkComponent.DeclaredStyle(k)
    case Breadcrumbs(_, _) => BreadcrumbsComponent.DeclaredStyle(env, k)
    case CommandLineHeader(_, _, _, _, _) => CommandLineHeaderComponent.DeclaredStyle(env, k)
    case CommandLineOutput(_) => CommandLineOutputComponent.DeclaredStyle(env, k)
    case Code(_) => CodeComponent.DeclaredStyle(env, k)
  }

  /** The style `parsed_style` works from: the declared one, or the default when the node hides itself. */
  function RawStyleOf(env: Env, k: Kind): RawStyle
    requires RenderCondition(k)
  {
    if SelfRenderCondition(k) then Declared(env, k) else DefaultRaw
  }

  /**
   * `Component::draw_self` of each component: what it paints at `origin`, or
   * the panic that stops it.
   */
  function DrawSelf(env: Env, k: Kind, origin: Point<real>, style: ResolvedStyle, parentStyle: ResolvedStyle): Result<seq<Event>, RenderError>
    requires RenderCondition(k)
  {
    match k
    case Rect(_, _, _, _, _, _) => Ok(RectComponent.Paints(env, k, origin, style))
    case Background(_) => BackgroundComponent.Paints(env.background, env.pixmapWidth, env.pixmapHeight)
    case HighlightCodeBlock(_, _, _, _) =>
      HighlightCodeBlockComponent.EntryPaints(k, origin, parentStyle.width, env.scaleFactor, k.highlightLines)
    case LineNumber(_, _, _, _) => Ok(LineNumberComponent.Paints(k, origin, style))
    case MacTitleBar(_) => Ok(MacTitleBarComponent.Paints(env, origin))
    case Title(_) => Ok(TitleComponent.Paints(k, origin, env.pixmapWidth, env.pixmapHeight))
    case Watermark(_) => WatermarkComponent.Paints(k, origin)
    case Breadcrumbs(_, _) => Ok(BreadcrumbsComponent.Paints(k, origin, style))
    case CommandLineHeader(_, _, _, _, _) => Ok(CommandLineHeaderComponent.Paints(env, k, origin, style))
    case CommandLineOutput(_) => Ok(CommandLineOutputComponent.Paints(env, k, origin))
    case Code(_) => Ok(CodeComponent.Paints(k, origin))
    case _ => Ok([])
  }

  // ---------------------------------------------------------------- sizes

  /** `parse_size`: a number as it is, Dynamic the children's extent, Inherit the parent's or else the children's. */
  function ParseSize(size: Size, dynamicValue: real, inheritValue: Option<real>): (v: real)
    ensures size.Num? ==> v == size.value
    ensures size.Dynamic? ==> v == dynamicValue
    ensures size.Inherit? && inheritValue.Some? ==> v == inheritValue.value
    ensures size.Inherit? && inheritValue.None? ==> v == dynamicValue
  {
    match size
    case Num(n) => n
    case Dynamic => dynamicValue
    case Inherit => inheritValue.GetOr(dynamicValue)
  }

  function Max(a: real, b: real): (m: real)
    ensures a <= m && b <= m && (m == a || m == b)
  {
    if a < b then b else a
  }

  /**
   * The resolution step of `parsed_style`: the parsed size plus padding and
   * margin on each axis; the width, and only the width, is raised to the
   * minimum width.
   */
  function Resolve(raw: RawStyle, dynamicWh: (real, real), parent: Option<ResolvedStyle>): (s: ResolvedStyle)
    ensures s.width == Max(raw.minWidth,
      ParseSize(raw.width, dynamicWh.0, if parent.Some? then Some(parent.value.width) else None)
      + raw.padding.Horizontal() + raw.margin.Horizontal())
    ensures s.height == ParseSize(raw.height, dynamicWh.1, if parent.Some? then Some(parent.value.height) else None)
      + raw.padding.Vertical() + raw.margin.Vertical()
    ensures s.width >= raw.minWidth
    ensures s.minWidth == raw.minWidth && s.align == raw.align && s.padding == raw.padding && s.margin == raw.margin
  {
    var width := ParseSize(raw.width, dynamicWh.0, if parent.Some? then Some(parent.value.width) else None)
      + raw.padding.Horizontal() + raw.margin.Horizontal();
    ResolvedStyle(
      if width < raw.minWidth then raw.minWidth else width,
      ParseSize(raw.height, dynamicWh.1, if parent.Some? then Some(parent.value.height) else None)
        + raw.padding.Vertical() + raw.margin.Vertical(),
      raw.minWidth, raw.align, raw.padding, raw.margin)
  }

  /** One step of the fold in `get_dynamic_wh`: `calc_row` or `calc_column`. */
  function Step(align: Align, acc: (real, real), child: ResolvedStyle): (real, real) {
    match align
    case Row => (acc.0 + child.width, Max(acc.1, child.height))
    case Column => (Max(acc.0, child.width), acc.1 + child.height)
  }

  /** `get_dynamic_wh` once the children's styles are known: the fold from (0, 0). */
  function Aggregate(align: Align, styles: seq<ResolvedStyle>): (real, real) {
    if styles == [] then (0.0, 0.0)
    else Step(align, Aggregate(align, styles[..|styles| - 1]), styles[|styles| - 1])
  }

  function Sum(xs: seq<real>): real {
    if xs == [] then 0.0 else xs[0] + Sum(xs[1..])
  }

  function Widths(styles: seq<ResolvedStyle>): (ws: seq<real>)
    ensures |ws| == |styles| && forall i :: 0 <= i < |styles| ==> ws[i] == styles[i].width
  {
    seq(|styles|, i requires 0 <= i < |styles| => styles[i].width)
  }

  function Heights(styles: seq<ResolvedStyle>): (hs: seq<real>)
    ensures |hs| == |styles| && forall i :: 0 <= i < |styles| ==> hs[i] == styles[i].height
  {
    seq(|styles|, i requires 0 <= i < |styles| => styles[i].height)
  }

  /** `m` is the largest of 0 and the values in `xs`. */
  predicate IsCeiling(m: real, xs: seq<real>) {
    0.0 <= m && (forall i :: 0 <= i < |xs| ==> xs[i] <= m) && (m == 0.0 || exists i :: 0 <= i < |xs| && xs[i] == m)
  }

  lemma {:induction false} SumAppend(xs: seq<real>, x: real)
    ensures Sum(xs + [x]) == Sum(xs) + x
  {
    if xs != [] {
      assert (xs + [x])[1..] == xs[1..] + [x];
      SumAppend(xs[1..], x);
    }
  }

  lemma {:induction false} CeilingAppend(m: real, xs: seq<real>, x: real)
    requires IsCeiling(m, xs)
    ensures IsCeiling(Max(m, x), xs + [x])
  {
    var ys := xs + [x];
    if Max(m, x) == m && m != 0.0 {
      var i :| 0 <= i < |xs| && xs[i] == m;
      assert ys[i] == m;
    } else if Max(m, x) == x && x != 0.0 {
      assert ys[|xs|] == x;
    }
  }

  /**
   * Row alignment: the children's widths add up and the height is the
   * tallest child's (0 without children).
   */
  lemma {:induction false} AggregateRow(styles: seq<ResolvedStyle>)
    ensures Aggregate(Row, styles).0 == Sum(Widths(styles))
    ensures IsCeiling(Aggregate(Row, styles).1, Heights(styles))
  {
    if styles != [] {
      var init := styles[..|styles| - 1];
      var last := styles[|styles| - 1];
      AggregateRow(init);
      assert Widths(styles) == Widths(init) + [last.width];
      assert Heights(styles) == Heights(init) + [last.height];
      SumAppend(Widths(init), last.width);
      CeilingAppend(Aggregate(Row, init).1, Heights(init), last.height);
    }
  }

  /** Column alignment: the widest child's width (0 without children) and the heights added up. */
  lemma {:induction false} AggregateColumn(styles: seq<ResolvedStyle>)
    ensures IsCeiling(Aggregate(Column, styles).0, Widths(styles))
    ensures Aggregate(Column, styles).1 == Sum(Heights(styles))
  {
    if styles != [] {
      var init := styles[..|styles| - 1];
      var last := styles[|styles| - 1];
      AggregateColumn(init);
      assert Widths(styles) == Widths(init) + [last.width];
      assert Heights(styles) == Heights(init) + [last.height];
      SumAppend(Heights(init), last.height);
      CeilingAppend(Aggregate(Column, init).0, Widths(init), last.width);
    }
  }

  /** Two children 10 and 20 wide, side by side, need 30. */
  lemma RowOfTenAndTwenty(a: ResolvedStyle, b: ResolvedStyle)
    requires a.width == 10.0 && b.width == 20.0
    ensures Aggregate(Row, [a, b]).0 == 30.0
  {
    assert [a, b][..1] == [a];
    assert [a][..0] == [];
    assert Aggregate(Row, [a]).0 == 10.0;
  }

  // ---------------------------------------------------------------- the bottom-up pass

  /**
   * `parsed_style`: a cached style for a named component; the default style
   * for a pruned one; otherwise the resolved style, which is then cached under
   * the component's name. The children are measured first, without a parent
   * style, in order, each seeing the cache the previous one left.
   */
  function ParsedStyle(env: Env, n: Node, parent: Option<ResolvedStyle>, cache: Cache): (r: (ResolvedStyle, Cache))
    ensures Name(n.kind) != STUB_COMPONENT && Name(n.kind) in cache ==> r == (cache[Name(n.kind)], cache)
    ensures !(Name(n.kind) != STUB_COMPONENT && Name(n.kind) in cache) && !RenderCondition(n.kind) ==>
      r == (DefaultResolved, cache)
    ensures RenderCondition(n.kind) ==> Name(n.kind) in r.1 && r.1[Name(n.kind)] == r.0
    decreases n, |n.children| + 1
  {
    var name := Name(n.kind);
    if name in cache && name != STUB_COMPONENT then (cache[name], cache)
    else if !RenderCondition(n.kind) then (DefaultResolved, cache)
    else
      var raw := RawStyleOf(env, n.kind);
      var (styles, measured) := ChildStyles(env, n, |n.children|, cache);
      var style := Resolve(raw, Aggregate(raw.align, styles), parent);
      (style, measured[name := style])
  }

  /** The children's styles as `get_dynamic_wh` computes them, the first `count` of them. */
  function ChildStyles(env: Env, n: Node, count: nat, cache: Cache): (r: (seq<ResolvedStyle>, Cache))
    requires count <= |n.children|
    ensures |r.0| == count
    decreases n, count
  {
    if count == 0 then ([], cache)
    else
      var (styles, before) := ChildStyles(env, n, count - 1, cache);
      var (style, after) := ParsedStyle(env, n.children[count - 1], None, before);
      (styles + [style], after)
  }

  /**
   * The cache only grows, and an entry under a real name, once made, is never
   * replaced: only the stub name is ever overwritten.
   */
  predicate Stable(before: Cache, after: Cache) {
    before.Keys <= after.Keys
    && forall name :: name in before && name != STUB_COMPONENT ==> after[name] == before[name]
  }

  lemma StableTransitive(a: Cache, b: Cache, c: Cache)
    requires Stable(a, b) && Stable(b, c)
    ensures Stable(a, c)
  {
  }

  /** Measuring a node keeps every entry made under a real name. */
  lemma {:induction false} ParsedStyleStable(env: Env, n: Node, parent: Option<ResolvedStyle>, cache: Cache)
    ensures Stable(cache, ParsedStyle(env, n, parent, cache).1)
    decreases n, |n.children| + 1
  {
    var name := Name(n.kind);
    if !(name in cache && name != STUB_COMPONENT) && RenderCondition(n.kind) {
      ChildStylesStable(env, n, |n.children|, cache);
    }
  }

  lemma {:induction false} ChildStylesStable(env: Env, n: Node, count: nat, cache: Cache)
    requires count <= |n.children|
    ensures Stable(cache, ChildStyles(env, n, count, cache).1)
    decreases n, count
  {
    if count > 0 {
      var before := ChildStyles(env, n, count - 1, cache).1;
      ChildStylesStable(env, n, count - 1, cache);
      ParsedStyleStable(env, n.children[count - 1], None, before);
      StableTransitive(cache, before, ParsedStyle(env, n.children[count - 1], None, before).1);
    }
  }

  /** What the resolution branch of `parsed_style` yields. */
  function Resolved(env: Env, n: Node, parent: Option<ResolvedStyle>, cache: Cache): ResolvedStyle
    requires RenderCondition(n.kind)
  {
    var raw := RawStyleOf(env, n.kind);
    Resolve(raw, Aggregate(raw.align, ChildStyles(env, n, |n.children|, cache).0), parent)
  }

  /**
   * Whatever was cached under the stub name, a stub component is measured
   * afresh; so is a named component that is not cached yet.
   */
  lemma ResolvedWhenNotCached(env: Env, n: Node, parent: Option<ResolvedStyle>, cache: Cache)
    requires RenderCondition(n.kind)
    requires Name(n.kind) == STUB_COMPONENT || Name(n.kind) !in cache
    ensures ParsedStyle(env, n, parent, cache).0 == Resolved(env, n, parent, cache)
    ensures ParsedStyle(env, n, parent, cache).0.width >= RawStyleOf(env, n.kind).minWidth
  {
  }

  /**
   * A named component asked twice gets the same style, whatever parent style
   * the second request carries, and the second request changes nothing.
   */
  lemma ParsedStyleIdempotent(env: Env, n: Node, parent: Option<ResolvedStyle>, parent': Option<ResolvedStyle>, cache: Cache)
    requires Name(n.kind) != STUB_COMPONENT
    ensures var (s, after) := ParsedStyle(env, n, parent, cache);
      ParsedStyle(env, n, parent', after) == (s, after)
  {
  }

  /**
   * The cache is keyed by name alone: once a component is cached, any other
   * component of the same name gets its style, whatever it declares itself.
   */
  lemma SameNameSharesStyle(env: Env, a: Node, b: Node, parent: Option<ResolvedStyle>, cache: Cache)
    requires Name(a.kind) == Name(b.kind) != STUB_COMPONENT
    requires RenderCondition(a.kind)
    ensures var (s, after) := ParsedStyle(env, a, parent, cache);
      ParsedStyle(env, b, None, after).0 == s
  {
  }

  /**
   * A container that declares no size and no edges of its own, only an
   * alignment, is sized by its children alone.
   */
  lemma {:induction false} BareLayoutSize(env: Env, n: Node, parent: Option<ResolvedStyle>, cache: Cache, align: Align)
    requires Name(n.kind) == STUB_COMPONENT && RenderCondition(n.kind)
    requires RawStyleOf(env, n.kind) == DefaultRaw.(align := align)
    ensures var wh := Aggregate(align, ChildStyles(env, n, |n.children|, cache).0);
      var s := ParsedStyle(env, n, parent, cache).0;
      s.width == Max(0.0, wh.0) && s.height == wh.1 && s.align == align
  {
    ResolvedWhenNotCached(env, n, parent, cache);
  }

  /** A code block, once there is a parent, takes the parent's width (raised to 0). */
  lemma CodeBlockInheritsWidth(env: Env, n: Node, parent: ResolvedStyle, cache: Cache)
    requires n.kind == CodeBlock
    ensures ParsedStyle(env, n, Some(parent), cache).0.width == Max(0.0, parent.width)
  {
    assert RawStyleOf(env, n.kind) == Layout.CODE_BLOCK_STYLE;
    ResolvedWhenNotCached(env, n, Some(parent), cache);
  }

  /**
   * While it is only being measured, a code block is as wide as its children
   * together and as tall as the tallest, as it keeps the default Row alignment.
   */
  lemma CodeBlockMeasured(env: Env, n: Node, cache: Cache)
    requires n.kind == CodeBlock
    ensures var styles := ChildStyles(env, n, |n.children|, cache).0;
      ParsedStyle(env, n, None, cache).0.width == Max(0.0, Sum(Widths(styles)))
      && IsCeiling(ParsedStyle(env, n, None, cache).0.height, Heights(styles))
  {
    var styles := ChildStyles(env, n, |n.children|, cache).0;
    CodeBlockMeasuredSize(env, n, cache);
    AggregateRow(styles);
  }

  lemma CodeBlockMeasuredSize(env: Env, n: Node, cache: Cache)
    requires n.kind == CodeBlock
    ensures var wh := Aggregate(Row, ChildStyles(env, n, |n.children|, cache).0);
      ParsedStyle(env, n, None, cache).0.width == Max(0.0, wh.0)
      && ParsedStyle(env, n, None, cache).0.height == wh.1
  {
    assert RawStyleOf(env, n.kind) == Layout.CODE_BLOCK_STYLE;
    ResolvedWhenNotCached(env, n, None, cache);
  }

  /** A row is as wide as its children together and as tall as the tallest of them. */
  lemma RowSize(env: Env, n: Node, parent: Option<ResolvedStyle>, cache: Cache)
    requires n.kind == RowLayout
    ensures var styles := ChildStyles(env, n, |n.children|, cache).0;
      ParsedStyle(env, n, parent, cache).0.width == Max(0.0, Sum(Widths(styles)))
      && IsCeiling(ParsedStyle(env, n, parent, cache).0.height, Heights(styles))
  {
    BareLayoutSize(env, n, parent, cache, Row);
    AggregateRow(ChildStyles(env, n, |n.children|, cache).0);
  }

  /** A column is as wide as its widest child and as tall as its children together. */
  lemma ColumnSize(env: Env, n: Node, parent: Option<ResolvedStyle>, cache: Cache)
    requires n.kind == ColumnLayout
    ensures var styles := ChildStyles(env, n, |n.children|, cache).0;
      IsCeiling(ParsedStyle(env, n, parent, cache).0.width, Widths(styles))
      && ParsedStyle(env, n, parent, cache).0.height == Sum(Heights(styles))
  {
    BareLayoutSize(env, n, parent, cache, Column);
    AggregateColumn(ChildStyles(env, n, |n.children|, cache).0);
  }

  /**
   * A background without padding drops its own style, Column alignment
   * included, and is sized by its children alone.
   */
  lemma HiddenBackgroundTakesChildrenSize(env: Env, n: Node, parent: Option<ResolvedStyle>, cache: Cache)
    requires n.kind.Background? && !BackgroundComponent.HasBackground(n.kind.padding)
    requires BackgroundComponent.NAME !in cache
    ensures var s := ParsedStyle(env, n, parent, cache).0;
      s.align == DefaultRaw.align && s.padding == Zero
      && s.width == Max(0.0, Aggregate(DefaultRaw.align, ChildStyles(env, n, |n.children|, cache).0).0)
  {
  }

  // ---------------------------------------------------------------- the top-down pass

  /**
   * `parse_into_render_params_with_style`: where a node goes, given the cursor
   * its previous sibling left and that sibling's style.
   */
  function Position(parentAlign: Align, cursor: Point<real>, sibling: ResolvedStyle, style: ResolvedStyle): (p: Point<real>)
    ensures parentAlign == Row ==> (p.y == cursor.y + style.margin.top
      && p.x == cursor.x + sibling.width + sibling.padding.Horizontal() + style.margin.left)
    ensures parentAlign == Column ==> (p.x == cursor.x + style.margin.left
      && p.y == cursor.y + sibling.height + sibling.padding.Vertical() + style.margin.top)
  {
    match parentAlign
    case Row => Point(cursor.x + sibling.width + style.margin.left + sibling.padding.Horizontal(), cursor.y + style.margin.top)
    case Column => Point(cursor.x + style.margin.left, cursor.y + style.margin.top + sibling.height + sibling.padding.Vertical())
  }

  /** After the default sibling style, under either alignment, a node is offset by its own margin only. */
  lemma FirstChildOffsetByMargin(parentAlign: Align, cursor: Point<real>, style: ResolvedStyle)
    ensures Position(parentAlign, cursor, DefaultResolved, style) == Point(cursor.x + style.margin.left, cursor.y + style.margin.top)
  {
  }

  /** The outcome of drawing a node: its origin, the cache afterwards and what it painted, in order. */
  datatype Drawn = Drawn(origin: Point<real>, cache: Cache, events: seq<Event>)

  /** The state of the loop over the children in `draw`. */
  datatype Cursor = Cursor(at: Point<real>, sibling: ResolvedStyle, cache: Cache, events: seq<Event>)

  /** Where a node's children start: its origin moved in by its left and top padding. */
  function ContentOrigin(origin: Point<real>, style: ResolvedStyle): Point<real> {
    Point(origin.x + style.padding.left, origin.y + style.padding.top)
  }

  /**
   * `Component::draw`: resolve the node's style against its parent's, place
   * it, and unless it is pruned draw it (unless it hides itself) and then its
   * children. The first error stops everything.
   */
  function Draw(env: Env, n: Node, parentStyle: ResolvedStyle, cursor: Point<real>, sibling: ResolvedStyle, cache: Cache): (r: Result<Drawn, RenderError>)
    decreases n, |n.children| + 2
  {
    var (style, measured) := ParsedStyle(env, n, Some(parentStyle), cache);
    var origin := Position(parentStyle.align, cursor, sibling, style);
    if !RenderCondition(n.kind) then Ok(Drawn(origin, measured, []))
    else DrawPlaced(env, n, parentStyle, style, origin, measured)
  }

  /**
   * What a node paints itself: nothing when it fails its render condition or
   * hides itself (`self_render_condition`).
   */
  function Own(env: Env, k: Kind, origin: Point<real>, style: ResolvedStyle, parentStyle: ResolvedStyle): (r: Result<seq<Event>, RenderError>)
    ensures !(RenderCondition(k) && SelfRenderCondition(k)) ==> r == Ok([])
  {
    if RenderCondition(k) && SelfRenderCondition(k) then DrawSelf(env, k, origin, style, parentStyle) else Ok([])
  }

  /** The rest of `draw` once the node is placed and passes its render condition. */
  function DrawPlaced(env: Env, n: Node, parentStyle: ResolvedStyle, style: ResolvedStyle, origin: Point<real>, cache: Cache): (r: Result<Drawn, RenderError>)
    decreases n, |n.children| + 1
  {
    var own := Own(env, n.kind, origin, style, parentStyle);
    if own.Err? then Err(own.error)
    else
      match DrawChildren(env, n, style, |n.children|, ContentOrigin(origin, style), cache)
      case Err(e) => Err(e)
      case Ok(c) => Ok(Drawn(origin, c.cache, own.value + c.events))
  }

  /**
   * The loop of `draw` over the first `count` children: each is drawn at the
   * cursor the previous one left, after the previous one's style (the default
   * style before the first); then the cursor moves to the child's origin and
   * the sibling style becomes the child's style against this node's.
   */
  function DrawChildren(env: Env, n: Node, style: ResolvedStyle, count: nat, start: Point<real>, cache: Cache): (r: Result<Cursor, RenderError>)
    requires count <= |n.children|
    decreases n, count
  {
    if count == 0 then Ok(Cursor(start, DefaultResolved, cache, []))
    else
      match DrawChildren(env, n, style, count - 1, start, cache)
      case Err(e) => Err(e)
      case Ok(c) =>
        var child := n.children[count - 1];
        match Draw(env, child, style, c.at, c.sibling, c.cache)
        case Err(e) => Err(e)
        case Ok(d) =>
          var (childStyle, after) := ParsedStyle(env, child, Some(style), d.cache);
          Ok(Cursor(d.origin, childStyle, after, c.events + d.events))
  }

  /** A node whose render condition fails draws nothing, neither itself nor anything below it. */
  lemma PrunedDrawsNothing(env: Env, n: Node, parentStyle: ResolvedStyle, cursor: Point<real>, sibling: ResolvedStyle, cache: Cache)
    requires !RenderCondition(n.kind)
    ensures Draw(env, n, parentStyle, cursor, sibling, cache).Ok?
    ensures Draw(env, n, parentStyle, cursor, sibling, cache).value.events == []
  {
  }

  /** A node that hides itself still draws its children, and only what they draw. */
  lemma SelfHiddenDrawsChildren(env: Env, n: Node, parentStyle: ResolvedStyle, cursor: Point<real>, sibling: ResolvedStyle, cache: Cache)
    requires RenderCondition(n.kind) && !SelfRenderCondition(n.kind)
    ensures var (style, measured) := ParsedStyle(env, n, Some(parentStyle), cache);
      var origin := Position(parentStyle.align, cursor, sibling, style);
      var children := DrawChildren(env, n, style, |n.children|, ContentOrigin(origin, style), measured);
      var r := Draw(env, n, parentStyle, cursor, sibling, cache);
      (r.Ok? <==> children.Ok?) && (r.Ok? ==> r.value.events == children.value.events)
  {
  }

  /** A node paints itself before anything of its children, and an error in its own painting stops it. */
  lemma OwnPaintsComeFirst(env: Env, n: Node, parentStyle: ResolvedStyle, cursor: Point<real>, sibling: ResolvedStyle, cache: Cache)
    requires RenderCondition(n.kind) && SelfRenderCondition(n.kind)
    ensures var (style, _) := ParsedStyle(env, n, Some(parentStyle), cache);
      var origin := Position(parentStyle.align, cursor, sibling, style);
      var own := DrawSelf(env, n.kind, origin, style, parentStyle);
      var r := Draw(env, n, parentStyle, cursor, sibling, cache);
      (own.Err? ==> r == Err(own.error))
      && (r.Ok? ==> own.Ok? && own.value <= r.value.events)
  {
  }

  /**
   * Children are drawn in order: what the first `i` children paint is a prefix
   * of what the first `j` paint, and when the first `i` fail, so do the first `j`.
   */
  lemma {:induction false} DrawChildrenPrefix(env: Env, n: Node, style: ResolvedStyle, i: nat, j: nat, start: Point<real>, cache: Cache)
    requires i <= j <= |n.children|
    ensures var a := DrawChildren(env, n, style, i, start, cache);
      var b := DrawChildren(env, n, style, j, start, cache);
      (a.Err? ==> b == Err(a.error)) && (b.Ok? ==> a.Ok? && a.value.events <= b.value.events)
    decreases j - i
  {
    if i < j {
      DrawChildrenPrefix(env, n, style, i, j - 1, start, cache);
    }
  }

  /** A placed node whose own paints fail draws nothing more. */
  lemma DrawPlacedOwnFails(env: Env, n: Node, parentStyle: ResolvedStyle, style: ResolvedStyle, origin: Point<real>, cache: Cache)
    requires Own(env, n.kind, origin, style, parentStyle).Err?
    ensures DrawPlaced(env, n, parentStyle, style, origin, cache) == Err(Own(env, n.kind, origin, style, parentStyle).error)
  {
  }

  /** A placed node whose own paints succeed goes on to its children, from the content origin. */
  lemma DrawPlacedChildren(env: Env, n: Node, parentStyle: ResolvedStyle, style: ResolvedStyle, origin: Point<real>, cache: Cache,
                           own: seq<Event>, c: Result<Cursor, RenderError>)
    requires Own(env, n.kind, origin, style, parentStyle) == Ok(own)
    requires DrawChildren(env, n, style, |n.children|, ContentOrigin(origin, style), cache) == c
    ensures c.Err? ==> DrawPlaced(env, n, parentStyle, style, origin, cache) == Err(c.error)
    ensures c.Ok? ==> DrawPlaced(env, n, parentStyle, style, origin, cache) == Ok(Drawn(origin, c.value.cache, own + c.value.events))
  {
  }

  /** One more round of the loop over the children, as the loop in `draw` takes it. */
  lemma DrawChildrenNext(env: Env, n: Node, style: ResolvedStyle, i: nat, start: Point<real>, cache: Cache, c: Cursor, d: Drawn)
    requires i < |n.children|
    requires DrawChildren(env, n, style, i, start, cache) == Ok(c)
    requires Draw(env, n.children[i], style, c.at, c.sibling, c.cache) == Ok(d)
    ensures var (childStyle, after) := ParsedStyle(env, n.children[i], Some(style), d.cache);
      DrawChildren(env, n, style, i + 1, start, cache) == Ok(Cursor(d.origin, childStyle, after, c.events + d.events))
  {
  }

  /** A child that fails stops the loop over the children with its error. */
  lemma DrawChildrenFails(env: Env, n: Node, style: ResolvedStyle, i: nat, start: Point<real>, cache: Cache, c: Cursor)
    requires i < |n.children|
    requires DrawChildren(env, n, style, i, start, cache) == Ok(c)
    requires Draw(env, n.children[i], style, c.at, c.sibling, c.cache).Err?
    ensures DrawChildren(env, n, style, |n.children|, start, cache)
      == Err(Draw(env, n.children[i], style, c.at, c.sibling, c.cache).error)
  {
    DrawChildrenPrefix(env, n, style, i + 1, |n.children|, start, cache);
  }

  /**
   * The cursor after child `i` is that child's origin, and the events grow by
   * exactly what child `i` drew there.
   */
  lemma DrawChildrenStep(env: Env, n: Node, style: ResolvedStyle, i: nat, start: Point<real>, cache: Cache)
    requires i < |n.children|
    requires DrawChildren(env, n, style, i + 1, start, cache).Ok?
    ensures var c := DrawChildren(env, n, style, i, start, cache).value;
      var d := Draw(env, n.children[i], style, c.at, c.sibling, c.cache);
      d.Ok? && DrawChildren(env, n, style, i + 1, start, cache).value.at == d.value.origin
      && DrawChildren(env, n, style, i + 1, start, cache).value.events == c.events + d.value.events
  {
  }
}

=== FILE: config.dfy ===
/**
 * config.rs: the snapshot configuration records, their defaults, the
 * `DimensionValue` and gradient-stop rules, and the `CodeSnap` builder's
 * in-place field updates.
 */
module Config {
  import opened Wrappers
  import opened Color

  const DEFAULT_WINDOW_MARGIN: real := 82.0
  const DEFAULT_SCALE_FACTOR: Byte := 3

  /** 2^32: one more than the largest `u32`. */
  const U32_MODULUS: nat := 0x1_0000_0000

  type U32 = x: int | 0 <= x < 0x1_0000_0000

  /** `n as u32`: the low 32 bits, so a number below 2^32 is kept as it is. */
  function AsU32(n: nat): (r: U32)
    ensures n < U32_MODULUS ==> r == n
  {
    n % U32_MODULUS
  }

  // ---------------------------------------------------------------- dimensions and gradients

  /** A gradient coordinate: a number, or the "max" sentinel for the canvas extent. */
  datatype DimensionValue = Num(value: real) | Max

  /** The JSON value a `DimensionValue` is read from. */
  datatype Json = JNumber(number: real) | JString(text: string) | JOther

  const DIMENSION_VALUE_ERROR: string := "The value of DimensionValue should be a number or 'max'"

  /** serde's message when a value is neither a number nor a string. */
  const UNTAGGED_ERROR: string := "data did not match any variant of untagged enum AnyType"

  /**
   * `DimensionValue::deserialize`: numbers pass, the exact string "max" is
   * `Max`, another string fails with the crate's own message, and any other
   * value fails inside serde before that message is reached.
   */
  function DeserializeDimensionValue(json: Json): (r: Result<DimensionValue, string>)
    ensures r.Ok? <==> json.JNumber? || json == JString("max")
    ensures json.JNumber? ==> r == Ok(Num(json.number))
    ensures json == JString("max") ==> r == Ok(Max)
    ensures json.JString? && json.text != "max" ==> r == Err(DIMENSION_VALUE_ERROR)
    ensures json.JOther? ==> r == Err(UNTAGGED_ERROR)
  {
    match json
    case JNumber(n) => Ok(Num(n))
    case JString(s) => if s == "max" then Ok(Max) else Err(DIMENSION_VALUE_ERROR)
    case JOther => Err(UNTAGGED_ERROR)
  }

  datatype Point<T> = Point(x: T, y: T)

  type GradientPoint = Point<DimensionValue>

  function ResolveDimension(v: DimensionValue, extent: real): real {
    match v
    case Num(n) => n
    case Max => extent
  }

  /**
   * `into_f32_point`: `Max` becomes the pixmap width on the x axis and the
   * pixmap height on the y axis; numbers pass through.
   */
  function IntoF32Point(p: GradientPoint, pixmapWidth: real, pixmapHeight: real): (q: Point<real>)
    ensures p.x.Num? ==> q.x == p.x.value
    ensures p.x.Max? ==> q.x == pixmapWidth
    ensures p.y.Num? ==> q.y == p.y.value
    ensures p.y.Max? ==> q.y == pixmapHeight
  {
    Point(ResolveDimension(p.x, pixmapWidth), ResolveDimension(p.y, pixmapHeight))
  }

  /** Each axis is resolved on its own: the y extent never affects x and vice versa. */
  lemma IntoF32PointAxesIndependent(p: GradientPoint, w: real, h: real, w': real, h': real)
    ensures IntoF32Point(p, w, h).x == IntoF32Point(p, w, h').x
    ensures IntoF32Point(p, w, h).y == IntoF32Point(p, w', h).y
  {
  }

  datatype LinearGradientStop = LinearGradientStop(position: real, color: string)

  const GRADIENT_STOP_ERROR: string := "The position of the gradient stop should be in the range of 0.0 to 1.0"

  /** `LinearGradientStop::new`: the position must lie in [0, 1]; the colour is not checked here. */
  function NewStop(position: real, color: string): (r: Result<LinearGradientStop, string>)
    ensures r.Ok? <==> 0.0 <= position <= 1.0
    ensures r.Ok? ==> r.value.position == position && r.value.color == color
    ensures r.Err? ==> r.error == GRADIENT_STOP_ERROR
  {
    if position < 0.0 || position > 1.0 then Err(GRADIENT_STOP_ERROR)
    else Ok(LinearGradientStop(position, color))
  }

  /** The renderer's gradient stop: a position and a parsed colour. */
  datatype GradientStop = GradientStop(position: real, color: Rgba)

  /** `From<LinearGradientStop> for GradientStop`: parses the colour, which may fail. */
  function ToGradientStop(stop: LinearGradientStop): (r: Result<GradientStop, ColorError>)
    ensures r.Ok? <==> ToRgba(stop.color).Ok?
    ensures r.Ok? ==> r.value == GradientStop(stop.position, ToRgba(stop.color).value)
  {
    match ToRgba(stop.color)
    case Ok(c) => Ok(GradientStop(stop.position, c))
    case Err(e) => Err(e)
  }

  /** Every stop converted in order; the first bad colour aborts. */
  function ToGradientStops(stops: seq<LinearGradientStop>): (r: Result<seq<GradientStop>, ColorError>)
    ensures r.Ok? <==> forall i :: 0 <= i < |stops| ==> ToRgba(stops[i].color).Ok?
    ensures r.Ok? ==> |r.value| == |stops|
    ensures r.Ok? ==> forall i :: 0 <= i < |stops| ==>
      r.value[i] == GradientStop(stops[i].position, ToRgba(stops[i].color).value)
  {
    if stops == [] then Ok([])
    else
      match (ToGradientStop(stops[0]), ToGradientStops(stops[1..]))
      case (Ok(s), Ok(rest)) => Ok([s] + rest)
      case (Err(e), _) => Err(e)
      case (_, Err(e)) => Err(e)
  }

  datatype LinearGradient = LinearGradient(start: GradientPoint, end: GradientPoint, stops: seq<LinearGradientStop>)

  datatype Background = Solid(color: string) | Gradient(gradient: LinearGradient)

  // ---------------------------------------------------------------- configuration records

  datatype TitleConfig = TitleConfig(fontFamily: string, color: string)

  /** `config::Margin`: the background padding around the window. */
  datatype WindowMargin = WindowMargin(x: real, y: real)

  datatype BreadcrumbsConfig = BreadcrumbsConfig(enable: bool, separator: string, fontFamily: string, color: string)

  datatype Border = Border(color: string, width: real)

  datatype Shadow = Shadow(radius: real, color: string)

  datatype Window = Window(margin: WindowMargin, titleConfig: TitleConfig, border: Border, macWindowBar: bool, shadow: Shadow)

  datatype HighlightLine = Single(line: U32, color: string) | Range(start: U32, end: U32, color: string)

  datatype CommandLineContent = CommandLineContent(content: string, fullCommand: string)

  datatype Code = Code(
    content: string,
    startLineNumber: Option<U32>,
    highlightLines: seq<HighlightLine>,
    language: Option<string>,
    filePath: Option<string>)

  datatype CommandOutputConfig = CommandOutputConfig(
    prompt: string, fontFamily: string, promptColor: string, commandColor: string, stringArgColor: string)

  datatype Content = CodeContent(code: Code) | CommandOutput(lines: seq<CommandLineContent>)

  datatype CodeConfig = CodeConfig(fontFamily: string, breadcrumbs: BreadcrumbsConfig)

  datatype Watermark = Watermark(content: string, fontFamily: string, color: string)

  datatype SnapshotConfig = SnapshotConfig(
    window: Window,
    commandOutputConfig: CommandOutputConfig,
    codeConfig: CodeConfig,
    watermark: Option<Watermark>,
    content: Content,
    scaleFactor: Byte,
    themesFolders: seq<string>,
    fontsFolders: seq<string>,
    theme: string,
    background: Background,
    lineNumberColor: string,
    title: Option<string>)

  // ---------------------------------------------------------------- defaults

  const DEFAULT_FONT_FAMILY: string := "CaskaydiaCove Nerd Font"

  const DEFAULT_WINDOW: Window := Window(
    WindowMargin(DEFAULT_WINDOW_MARGIN, DEFAULT_WINDOW_MARGIN),
    TitleConfig(DEFAULT_FONT_FAMILY, "#aca9b2"),
    Border("#ffffff30", 1.0),
    true,
    Shadow(20.0, "#0000004d"))

  const DEFAULT_BREADCRUMBS: BreadcrumbsConfig := BreadcrumbsConfig(false, "/", DEFAULT_FONT_FAMILY, "#80848b")

  const DEFAULT_CODE_CONFIG: CodeConfig := CodeConfig(DEFAULT_FONT_FAMILY, DEFAULT_BREADCRUMBS)

  const DEFAULT_COMMAND_OUTPUT_CONFIG: CommandOutputConfig :=
    CommandOutputConfig("❯", DEFAULT_FONT_FAMILY, "#F78FB3", "#98C379", "#ff0000")

  /** What `map_code` starts from when no content is set: a code block with empty text. */
  const DEFAULT_CODE: Code := Code("", None, [], None, None)

  /** `default_scale_factor`, the value serde fills in when the field is absent. */
  function SerdeScaleFactor(field: Option<Byte>): (s: Byte)
    ensures field.None? ==> s == DEFAULT_SCALE_FACTOR
    ensures field.Some? ==> s == field.value
  {
    field.GetOr(DEFAULT_SCALE_FACTOR)
  }

  const SCALE_FACTOR_ERROR: string := "The scale factor must be greater than 1"

  /** `CodeSnap::validate`: an unset scale factor passes; a set one must be at least 1. */
  function Validate(scaleFactor: Option<Byte>): (r: Result<(), string>)
    ensures r.Err? <==> scaleFactor == Some(0)
    ensures r.Err? ==> r.error == SCALE_FACTOR_ERROR
  {
    match scaleFactor
    case Some(sf) => if sf < 1 then Err(SCALE_FACTOR_ERROR) else Ok(())
    case None => Ok(())
  }

  /** Everything a `CodeSnap` builder holds, as one value. */
  datatype BuilderState = BuilderState(
    window: Option<Window>,
    commandOutputConfig: Option<CommandOutputConfig>,
    codeConfig: Option<CodeConfig>,
    watermark: Option<Option<Watermark>>,
    content: Option<Content>,
    scaleFactor: Option<Byte>,
    themesFolders: Option<seq<string>>,
    fontsFolders: Option<seq<string>>,
    theme: Option<string>,
    background: Option<Background>,
    lineNumberColor: Option<string>,
    title: Option<Option<string>>)

  /** The theme and the line-number colour a configuration gets when they are unset. */
  const DEFAULT_THEME: string := "candy"
  const DEFAULT_LINE_NUMBER_COLOR: string := "#495162"

  const EMPTY_BUILDER: BuilderState := BuilderState(None, None, None, None, None, None, None, None, None, None, None, None)

  /**
   * The generated `build`: validation first, then every unset field takes its
   * default, except `content` and `background`, which have none.
   */
  function Build(b: BuilderState): (r: Result<SnapshotConfig, string>)
    ensures r.Ok? <==> b.scaleFactor != Some(0) && b.content.Some? && b.background.Some?
    ensures r.Ok? ==> r.value.scaleFactor == b.scaleFactor.GetOr(DEFAULT_SCALE_FACTOR) && r.value.scaleFactor >= 1
    ensures r.Ok? ==> r.value.window == b.window.GetOr(DEFAULT_WINDOW)
    ensures r.Ok? ==> r.value.codeConfig == b.codeConfig.GetOr(DEFAULT_CODE_CONFIG)
    ensures r.Ok? ==> r.value.watermark == b.watermark.GetOr(None)
    ensures r.Ok? ==> r.value.commandOutputConfig == b.commandOutputConfig.GetOr(DEFAULT_COMMAND_OUTPUT_CONFIG)
    ensures r.Ok? ==> r.value.themesFolders == b.themesFolders.GetOr([])
    ensures r.Ok? ==> r.value.fontsFolders == b.fontsFolders.GetOr([])
    ensures r.Ok? ==> r.value.theme == b.theme.GetOr(DEFAULT_THEME)
    ensures r.Ok? ==> r.value.lineNumberColor == b.lineNumberColor.GetOr(DEFAULT_LINE_NUMBER_COLOR)
    ensures r.Ok? ==> r.value.title == b.title.GetOr(None)
    ensures r.Ok? ==> r.value.content == b.content.value && r.value.background == b.background.value
  {
    match Validate(b.scaleFactor)
    case Err(e) => Err(e)
    case Ok(_) =>
      if b.content.None? then Err("`content` must be initialized")
      else if b.background.None? then Err("`background` must be initialized")
      else Ok(SnapshotConfig(
        b.window.GetOr(DEFAULT_WINDOW),
        b.commandOutputConfig.GetOr(DEFAULT_COMMAND_OUTPUT_CONFIG),
        b.codeConfig.GetOr(DEFAULT_CODE_CONFIG),
        b.watermark.GetOr(None),
        b.content.value,
        b.scaleFactor.GetOr(DEFAULT_SCALE_FACTOR),
        b.themesFolders.GetOr([]),
        b.fontsFolders.GetOr([]),
        b.theme.GetOr(DEFAULT_THEME),
        b.background.value,
        b.lineNumberColor.GetOr(DEFAULT_LINE_NUMBER_COLOR),
        b.title.GetOr(None)))
  }

  /** The builder and the serde path agree on the default scale factor. */
  lemma DefaultScaleFactorAgrees(b: BuilderState)
    requires b.scaleFactor.None? && b.content.Some? && b.background.Some?
    ensures Build(b).Ok? && Build(b).value.scaleFactor == SerdeScaleFactor(None) == 3
  {
  }

  /**
   * The `CodeSnap` builder. Each field is unset (`None`) until assigned; the
   * `Map…` methods read a field (or its default), pass it through `f` and
   * store the result, leaving every other field alone. When `f` fails, the
   * error is returned and the field keeps its old value.
   */
  class CodeSnap {
    var window: Option<Window>
    var commandOutputConfig: Option<CommandOutputConfig>
    var codeConfig: Option<CodeConfig>
    var watermark: Option<Option<Watermark>>
    var content: Option<Content>
    var scaleFactor: Option<Byte>
    var themesFolders: Option<seq<string>>
    var fontsFolders: Option<seq<string>>
    var theme: Option<string>
    var background: Option<Background>
    var lineNumberColor: Option<string>
    var title: Option<Option<string>>

    function State(): BuilderState
      reads this
    {
      BuilderState(window, commandOutputConfig, codeConfig, watermark, content, scaleFactor,
        themesFolders, fontsFolders, theme, background, lineNumberColor, title)
    }

    constructor (content: Option<Content>, background: Option<Background>)
      ensures State() == EMPTY_BUILDER.(content := content, background := background)
    {
      window := None;
      commandOutputConfig := None;
      codeConfig := None;
      watermark := None;
      this.content := content;
      scaleFactor := None;
      themesFolders := None;
      fontsFolders := None;
      theme := None;
      this.background := background;
      lineNumberColor := None;
      title := None;
    }

    method SetScaleFactor(sf: Byte)
      modifies this
      ensures State() == old(State()).(scaleFactor := Some(sf))
    {
      scaleFactor := Some(sf);
    }

    /** `map_code_config`. */
    method MapCodeConfig(f: CodeConfig -> Result<CodeConfig, string>) returns (r: Result<(), string>)
      modifies this
      ensures var result := f(old(codeConfig).GetOr(DEFAULT_CODE_CONFIG));
        if result.Ok? then r.Ok? && State() == old(State()).(codeConfig := Some(result.value))
        else r == Err(result.error) && State() == old(State())
    {
      var result := f(codeConfig.GetOr(DEFAULT_CODE_CONFIG));
      if result.Err? {
        return Err(result.error);
      }
      codeConfig := Some(result.value);
      r := Ok(());
    }

    /** `map_code`: only a code content (or none, read as empty code) is handed to `f`. */
    method MapCode(f: Code -> Result<Content, string>) returns (r: Result<(), string>)
      modifies this
      ensures var current := old(content).GetOr(CodeContent(DEFAULT_CODE));
        if current.CommandOutput? then r.Ok? && State() == old(State())
        else
          var result := f(current.code);
          if result.Ok? then r.Ok? && State() == old(State()).(content := Some(result.value))
          else r == Err(result.error) && State() == old(State())
    {
      var current := content.GetOr(CodeContent(DEFAULT_CODE));
      if current.CommandOutput? {
        return Ok(());
      }
      var result := f(current.code);
      if result.Err? {
        return Err(result.error);
      }
      content := Some(result.value);
      r := Ok(());
    }

    /** `map_window`. */
    method MapWindow(f: Window -> Result<Window, string>) returns (r: Result<(), string>)
      modifies this
      ensures var result := f(old(window).GetOr(DEFAULT_WINDOW));
        if result.Ok? then r.Ok? && State() == old(State()).(window := Some(result.value))
        else r == Err(result.error) && State() == old(State())
    {
      var result := f(window.GetOr(DEFAULT_WINDOW));
      if result.Err? {
        return Err(result.error);
      }
      window := Some(result.value);
      r := Ok(());
    }

    /** `map_watermark`: an unset watermark is read as "no watermark". */
    method MapWatermark(f: Option<Watermark> -> Result<Option<Watermark>, string>) returns (r: Result<(), string>)
      modifies this
      ensures var result := f(old(watermark).GetOr(None));
        if result.Ok? then r.Ok? && State() == old(State()).(watermark := Some(result.value))
        else r == Err(result.error) && State() == old(State())
    {
      var result := f(watermark.GetOr(None));
      if result.Err? {
        return Err(result.error);
      }
      watermark := Some(result.value);
      r := Ok(());
    }
  }
}

=== FILE: edges.dfy ===
/** The box-model edges of edges/padding.rs (and its twin, Margin). */
module Edges {
  import opened Wrappers

  /** Four independent offsets; Padding and Margin have the same shape. */
  datatype Edge = Edge(left: real, right: real, top: real, bottom: real) {
    function Horizontal(): real {
      left + right
    }

    function Vertical(): real {
      bottom + top
    }
  }

  type Padding = Edge
  type Margin = Edge

  const Zero: Edge := Edge(0.0, 0.0, 0.0, 0.0)

  /** `Padding::from_value`: the same offset on all four sides. */
  function FromValue(value: real): (p: Padding)
    ensures p.left == value && p.right == value && p.top == value && p.bottom == value
    ensures p.Horizontal() == 2.0 * value && p.Vertical() == 2.0 * value
  {
    Edge(value, value, value, value)
  }

  /**
   * `Padding::from_config`: a uniform background padding wins over the two
   * per-axis values.
   */
  function FromConfig(horizontal: real, vertical: real, backgroundPadding: Option<real>): (p: Padding)
    ensures backgroundPadding.Some? ==> p == FromValue(backgroundPadding.value)
    ensures backgroundPadding.None? ==>
      p.left == horizontal && p.right == horizontal && p.top == vertical && p.bottom == vertical
    ensures backgroundPadding.None? ==> p.Horizontal() == 2.0 * horizontal && p.Vertical() == 2.0 * vertical
  {
    match backgroundPadding
    case Some(padding) => FromValue(padding)
    case None => Edge(horizontal, horizontal, vertical, vertical)
  }
}

=== FILE: highlight_code_block.dfy ===
/**
 * components/highlight_code_block.rs: one full-width band per highlighted
 * line range, drawn under the code.
 */
module HighlightCodeBlockComponent {
  import opened Wrappers
  import opened Edges
  import opened Color
  import opened Config
  import opened Canvas
  import opened Tree

  /** `HighlightCodeBlock::from`: a leaf holding the entries and the editor geometry. */
  function From(highlightLines: seq<HighlightLine>, codeLineCount: nat, lineHeight: real, editorPadding: Padding): (n: Node)
    ensures n.kind.HighlightCodeBlock? && n.children == []
    ensures n.kind.highlightLines == highlightLines && n.kind.codeLineCount == codeLineCount
    ensures n.kind.lineHeight == lineHeight && n.kind.editorPadding == editorPadding
  {
    Node(HighlightCodeBlock(highlightLines, codeLineCount, lineHeight, editorPadding), [])
  }

  /** `render_condition`: there is at least one entry. */
  predicate RenderCondition(k: Kind)
    requires k.HighlightCodeBlock?
  {
    |k.highlightLines| > 0
  }

  /** The start, end and colour of an entry; a single line is the range from it to itself. */
  function Bounds(line: HighlightLine): (U32, U32, string) {
    match line
    case Single(n, color) => (n, n, color)
    case Range(start, end, color) => (start, end, color)
  }

  function Min(a: int, b: int): int {
    if a <= b then a else b
  }

  /**
   * The band over lines `first` to `last`: from the left edge of the editor
   * (the block's origin minus the editor's left padding), as wide as the
   * parent, without anti-aliasing.
   */
  function Band(k: Kind, origin: Point<real>, parentWidth: real, scaleFactor: real, first: int, last: int, color: Rgba): Paint
    requires k.HighlightCodeBlock?
  {
    FillRect(origin.x - k.editorPadding.left, origin.y + (first - 1) as real * k.lineHeight,
      parentWidth, (last - first + 1) as real * k.lineHeight, SolidFill(color), false, Scale(scaleFactor))
  }

  /**
   * `draw_highlight_line`: the band from line `start` to line `end` (in
   * either order), with the end clamped to the number of code lines (cut to
   * u32 as the Rust code does). A start of 0, or a clamped end before the
   * start, makes the u32 subtractions underflow; a colour that does not parse
   * panics too.
   */
  function HighlightRect(k: Kind, origin: Point<real>, parentWidth: real, scaleFactor: real,
                         start: U32, end: U32, hex: string): (r: Result<Paint, RenderError>)
    requires k.HighlightCodeBlock?
    decreases if start > end then 1 else 0
    ensures var lo, hi := Min(start, end), (if start <= end then end else start);
      var last := Min(hi, AsU32(k.codeLineCount));
      && (r == Err(ArithmeticOverflow) <==> lo == 0 || last < lo)
      && (r.Ok? <==> 1 <= lo <= last && ToRgba(hex).Ok?)
      && (1 <= lo <= last && ToRgba(hex).Err? ==> r == Err(BadColor(ToRgba(hex).error)))
      && (r.Ok? ==> r.value == Band(k, origin, parentWidth, scaleFactor, lo, last, ToRgba(hex).value))
  {
    if start > end then HighlightRect(k, origin, parentWidth, scaleFactor, end, start, hex)
    else
      var last := Min(end, AsU32(k.codeLineCount));
      if start == 0 || last < start then Err(ArithmeticOverflow)
      else
        match ToRgba(hex)
        case Ok(color) => Ok(Band(k, origin, parentWidth, scaleFactor, start, last, color))
        case Err(e) => Err(BadColor(e))
  }

  /** Swapping the two ends of a range changes nothing. */
  lemma HighlightRectSymmetric(k: Kind, origin: Point<real>, parentWidth: real, scaleFactor: real, a: U32, b: U32, hex: string)
    requires k.HighlightCodeBlock?
    ensures HighlightRect(k, origin, parentWidth, scaleFactor, a, b, hex) == HighlightRect(k, origin, parentWidth, scaleFactor, b, a, hex)
  {
  }

  /**
   * The band covers exactly lines start..end of the editor: its top is the
   * top of line `start`, its bottom the bottom of the last line drawn.
   */
  lemma HighlightCoversLines(k: Kind, origin: Point<real>, parentWidth: real, scaleFactor: real, start: U32, end: U32, hex: string)
    requires k.HighlightCodeBlock?
    requires 1 <= start <= end <= k.codeLineCount < U32_MODULUS
    requires ToRgba(hex).Ok?
    ensures var r := HighlightRect(k, origin, parentWidth, scaleFactor, start, end, hex);
      && r.Ok?
      && r.value.y == origin.y + (start - 1) as real * k.lineHeight
      && r.value.y + r.value.height == origin.y + end as real * k.lineHeight
      && r.value.x == origin.x - k.editorPadding.left && r.value.width == parentWidth
  {
    assert Min(start, end) == start && Min(end, k.codeLineCount) == end;
    BandCovers(k, origin, parentWidth, scaleFactor, start, end, ToRgba(hex).value);
  }

  /** The band over `first`..`last` starts at the top of `first` and ends at the bottom of `last`. */
  lemma BandCovers(k: Kind, origin: Point<real>, parentWidth: real, scaleFactor: real, first: int, last: int, color: Rgba)
    requires k.HighlightCodeBlock?
    ensures var b := Band(k, origin, parentWidth, scaleFactor, first, last, color);
      && b.y == origin.y + (first - 1) as real * k.lineHeight
      && b.y + b.height == origin.y + last as real * k.lineHeight
      && b.x == origin.x - k.editorPadding.left && b.width == parentWidth
  {
    AddScaled((first - 1) as real, (last - first + 1) as real, k.lineHeight);
  }

  lemma AddScaled(a: real, b: real, c: real)
    ensures a * c + b * c == (a + b) * c
  {
  }

  /** Highlighting lines 3 to 5 with 18-pixel lines starts 36 below the block and is 54 high. */
  lemma ThreeToFiveAtEighteen(k: Kind, origin: Point<real>, parentWidth: real, scaleFactor: real, hex: string)
    requires k.HighlightCodeBlock? && k.lineHeight == 18.0 && 5 <= k.codeLineCount < U32_MODULUS
    requires ToRgba(hex).Ok?
    ensures HighlightRect(k, origin, parentWidth, scaleFactor, 3, 5, hex).Ok?
    ensures HighlightRect(k, origin, parentWidth, scaleFactor, 3, 5, hex).value.y == origin.y + 36.0
    ensures HighlightRect(k, origin, parentWidth, scaleFactor, 3, 5, hex).value.height == 54.0
  {
  }

  /** A range reaching past the code is cut at the last code line. */
  lemma HighlightClampsToCode(k: Kind, origin: Point<real>, parentWidth: real, scaleFactor: real, start: U32, end: U32, hex: string)
    requires k.HighlightCodeBlock?
    requires 1 <= start <= k.codeLineCount < end && k.codeLineCount < U32_MODULUS
    ensures HighlightRect(k, origin, parentWidth, scaleFactor, start, end, hex)
         == HighlightRect(k, origin, parentWidth, scaleFactor, start, k.codeLineCount, hex)
  {
  }

  /** The paint for one entry. */
  function EntryPaint(k: Kind, origin: Point<real>, parentWidth: real, scaleFactor: real, line: HighlightLine): Result<Paint, RenderError>
    requires k.HighlightCodeBlock?
  {
    var (start, end, color) := Bounds(line);
    HighlightRect(k, origin, parentWidth, scaleFactor, start, end, color)
  }

  /** `Single(n, c)` draws exactly what `Range(n, n, c)` draws. */
  lemma SingleIsRange(k: Kind, origin: Point<real>, parentWidth: real, scaleFactor: real, n: U32, color: string)
    requires k.HighlightCodeBlock?
    ensures EntryPaint(k, origin, parentWidth, scaleFactor, Single(n, color))
         == EntryPaint(k, origin, parentWidth, scaleFactor, Range(n, n, color))
  {
  }

  /** The paint of each entry, in entry order. */
  function EntryResults(k: Kind, origin: Point<real>, parentWidth: real, scaleFactor: real, entries: seq<HighlightLine>): (rs: seq<Result<Event, RenderError>>)
    requires k.HighlightCodeBlock?
  {
    seq(|entries|, i requires 0 <= i < |entries| => EntryEvent(k, origin, parentWidth, scaleFactor, entries[i]))
  }

  /** The paint of one entry, tagged as the highlight's. */
  function EntryEvent(k: Kind, origin: Point<real>, parentWidth: real, scaleFactor: real, line: HighlightLine): (r: Result<Event, RenderError>)
    requires k.HighlightCodeBlock?
  {
    match EntryPaint(k, origin, parentWidth, scaleFactor, line)
    case Ok(paint) => Ok(Event(HighlightPainter, paint))
    case Err(e) => Err(e)
  }

  /**
   * The paints of `draw_self`: one band per entry, in order; the first entry
   * that fails stops the drawing.
   */
  function EntryPaints(k: Kind, origin: Point<real>, parentWidth: real, scaleFactor: real, entries: seq<HighlightLine>): Result<seq<Event>, RenderError>
    requires k.HighlightCodeBlock?
  {
    Collect(EntryResults(k, origin, parentWidth, scaleFactor, entries))
  }

  /** One band per entry, in entry order; drawing succeeds exactly when every entry does. */
  lemma EntryPaintsInOrder(k: Kind, origin: Point<real>, parentWidth: real, scaleFactor: real, entries: seq<HighlightLine>)
    requires k.HighlightCodeBlock?
    ensures var r := EntryPaints(k, origin, parentWidth, scaleFactor, entries);
      && (r.Ok? <==> forall i :: 0 <= i < |entries| ==> EntryPaint(k, origin, parentWidth, scaleFactor, entries[i]).Ok?)
      && (r.Ok? ==> |r.value| == |entries|)
      && (r.Ok? ==> forall i :: 0 <= i < |entries| ==>
            r.value[i] == Event(HighlightPainter, EntryPaint(k, origin, parentWidth, scaleFactor, entries[i]).value))
  {
    var results := EntryResults(k, origin, parentWidth, scaleFactor, entries);
    CollectAllOk(results);
    forall i | 0 <= i < |entries|
      ensures results[i].Ok? <==> EntryPaint(k, origin, parentWidth, scaleFactor, entries[i]).Ok?
      ensures results[i].Ok? ==> results[i].value == Event(HighlightPainter, EntryPaint(k, origin, parentWidth, scaleFactor, entries[i]).value)
    {
      assert results[i] == EntryEvent(k, origin, parentWidth, scaleFactor, entries[i]);
    }
  }

  /** Every band is drawn without anti-aliasing and scaled by the scale factor. */
  lemma BandsAreCrisp(k: Kind, origin: Point<real>, parentWidth: real, scaleFactor: real, entries: seq<HighlightLine>)
    requires k.HighlightCodeBlock?
    requires EntryPaints(k, origin, parentWidth, scaleFactor, entries).Ok?
    ensures forall e :: e in EntryPaints(k, origin, parentWidth, scaleFactor, entries).value ==>
      e.paint.FillRect? && !e.paint.antiAlias && e.paint.transform == Scale(scaleFactor)
  {
    var events := EntryPaints(k, origin, parentWidth, scaleFactor, entries).value;
    EntryPaintsInOrder(k, origin, parentWidth, scaleFactor, entries);
    forall e | e in events
      ensures e.paint.FillRect? && !e.paint.antiAlias && e.paint.transform == Scale(scaleFactor)
    {
      var i :| 0 <= i < |events| && events[i] == e;
      var (start, end, color) := Bounds(entries[i]);
      assert EntryPaint(k, origin, parentWidth, scaleFactor, entries[i]) == HighlightRect(k, origin, parentWidth, scaleFactor, start, end, color);
    }
  }

  /** `HighlightCodeBlock::draw_self`: the entries' bands, painted in entry order until one fails. */
  method DrawSelf(pixmap: Pixmap, env: Env, k: Kind, origin: Point<real>, parentWidth: real) returns (r: Result<(), RenderError>)
    requires k.HighlightCodeBlock?
    modifies pixmap
    ensures r.Ok? <==> EntryPaints(k, origin, parentWidth, env.scaleFactor, k.highlightLines).Ok?
    ensures r.Ok? ==> pixmap.events == old(pixmap.events) + EntryPaints(k, origin, parentWidth, env.scaleFactor, k.highlightLines).value
    ensures r.Err? ==> r.error == EntryPaints(k, origin, parentWidth, env.scaleFactor, k.highlightLines).error
  {
    r := pixmap.PaintEach(EntryResults(k, origin, parentWidth, env.scaleFactor, k.highlightLines));
  }
}

=== FILE: image_snapshot.dfy ===
/**
 * snapshot/image_snapshot.rs: the component tree a code snapshot is drawn
 * from, where the picture may be saved, and the SVG document that wraps the
 * PNG data.
 */
module ImageSnapshot {
  import opened Wrappers
  import opened Text
  import opened Edges
  import opened Color
  import Config
  import opened Canvas
  import opened Tree
  import Style
  import Engine
  import RectComponent
  import Layout
  import HighlightCodeBlockComponent
  import LineNumberComponent
  import MacTitleBarComponent
  import TitleComponent
  import BreadcrumbsComponent
  import WatermarkComponent

  const LINE_HEIGHT: real := 18.0
  const DEFAULT_WINDOW_MIN_WIDTH: real := 350.0
  const WINDOW_RADIUS: real := 12.0
  const DEFAULT_BORDER_COLOR: string := "#ffffff30"
  const SHADOW_OFFSET_X: real := 0.0
  const SHADOW_OFFSET_Y: real := 21.0
  const SHADOW_COLOR: Rgba := Rgba(0, 0, 0, 80)
  const SAVE_PATH_ERROR: string := "The save_path must ends with .png or .svg"

  /**
   * What `from_config` reads of the snapshot configuration. The window title
   * and the border are optional here, as `from_config` treats them; the
   * border has no width of its own.
   */
  datatype ImageConfig = ImageConfig(
    margin: Config.WindowMargin,
    macWindowBar: bool,
    title: Option<string>,
    border: Option<string>,
    shadow: real,
    code: Config.Code,
    breadcrumbs: Option<Config.BreadcrumbsConfig>,
    watermark: Option<Config.Watermark>)

  // ---------------------------------------------------------------- the tree

  /** The padding inside the window: 14 all round, but 12 on top without the mac title bar. */
  function WindowPadding(macWindowBar: bool): Padding {
    FromValue(14.0).(top := if macWindowBar then 14.0 else 12.0)
  }

  /** Only a configured border is drawn, and always one wide. */
  function BorderWidth(border: Option<string>): real {
    if border.Some? then 1.0 else 0.0
  }

  function BorderColor(border: Option<string>): string {
    border.GetOr(DEFAULT_BORDER_COLOR)
  }

  /** The watermark survives only when the margin below the window leaves room for it. */
  function KeptWatermark(config: ImageConfig): Option<Config.Watermark> {
    if RectComponent.BackgroundPadding(config.margin).bottom >= Config.DEFAULT_WINDOW_MARGIN then config.watermark else None
  }

  /** The code block: highlight bands under the line numbers, and the code beside them. */
  function CodeBlockNode(config: ImageConfig, lineNumber: Kind): Node {
    Layout.CodeBlockOf([
      HighlightCodeBlockComponent.From(config.code.highlightLines, |Lines(config.code.content)|, LINE_HEIGHT, WindowPadding(config.macWindowBar)),
      Node(lineNumber, []),
      Node(Code(config.code.content), [])])
  }

  /** The bordered, shadowed window and everything in it. */
  function Window(config: ImageConfig, editorBackground: Rgba, borderColor: Rgba, lineNumber: Kind): Node {
    var rect := RectComponent.CreateWithBorder(WINDOW_RADIUS, editorBackground, DEFAULT_WINDOW_MIN_WIDTH,
      WindowPadding(config.macWindowBar), BorderWidth(config.border), borderColor,
      [Layout.RowOf([MacTitleBarComponent.New(config.macWindowBar), TitleComponent.FromText(config.title)]),
       BreadcrumbsComponent.FromPath(config.code.filePath, config.breadcrumbs),
       CodeBlockNode(config, lineNumber)]);
    RectComponent.WithShadow(rect, SHADOW_OFFSET_X, SHADOW_OFFSET_Y, config.shadow, SHADOW_COLOR)
  }

  /**
   * `ImageSnapshot::from_config`, up to the drawing of the root: the tree of
   * components. The background of the code theme is given. A border colour
   * that does not parse panics first; then the line numbers may overflow.
   */
  function FromConfig(config: ImageConfig, editorBackground: Rgba): (r: Result<Node, RenderError>)
    ensures var border := ToRgba(BorderColor(config.border));
      var lineNumber := LineNumberComponent.New(config.code.content, config.code.startLineNumber, LINE_HEIGHT);
      && (border.Err? ==> r == Err(BadColor(border.error)))
      && (border.Ok? && lineNumber.Err? ==> r == Err(lineNumber.error))
      && (r.Ok? <==> border.Ok? && lineNumber.Ok?)
      && (r.Ok? ==>
            && r.value.kind == Container && |r.value.children| == 1
            && r.value.children[0].kind == Background(Edge(config.margin.x, config.margin.x, config.margin.y, config.margin.y))
            && r.value.children[0].children
               == [Window(config, editorBackground, border.value, lineNumber.value), WatermarkComponent.New(KeptWatermark(config))])
  {
    match ToRgba(BorderColor(config.border))
    case Err(e) => Err(BadColor(e))
    case Ok(borderColor) =>
      match LineNumberComponent.New(config.code.content, config.code.startLineNumber, LINE_HEIGHT)
      case Err(e) => Err(e)
      case Ok(lineNumber) =>
        Ok(Node(Container, [Node(Background(RectComponent.BackgroundPadding(config.margin)),
          [Window(config, editorBackground, borderColor, lineNumber), WatermarkComponent.New(KeptWatermark(config))])]))
  }

  /** The default border colour is translucent white, so a snapshot without a border never fails on its colour. */
  lemma DefaultBorderParses(config: ImageConfig, editorBackground: Rgba)
    requires config.border.None?
    ensures ToRgba(BorderColor(config.border)) == Ok(Rgba(255, 255, 255, 48))
    ensures FromConfig(config, editorBackground).Ok?
      <==> LineNumberComponent.New(config.code.content, config.code.startLineNumber, LINE_HEIGHT).Ok?
  {
    assert Hex2(255) == "ff" && Hex2(48) == "30";
    assert FormatRgbaHex(Rgba(255, 255, 255, 48)) == DEFAULT_BORDER_COLOR;
    ToRgbaOfFormat(Rgba(255, 255, 255, 48));
  }

  /**
   * The window is three nested rects: radius 12 outside, min width 350
   * inside, a frame one wide in the border colour only when a border is
   * configured (none at all otherwise), and the shadow 21 below in
   * translucent black.
   */
  lemma WindowFrame(config: ImageConfig, editorBackground: Rgba, borderColor: Rgba, lineNumber: Kind)
    ensures var w := Window(config, editorBackground, borderColor, lineNumber);
      && w.kind.Rect? && w.kind.radius == 12.0 && w.kind.color == editorBackground
      && w.kind.shadow == Some(ShadowConfig(0.0, 21.0, config.shadow, Rgba(0, 0, 0, 80)))
      && |w.children| == 1 && w.children[0].kind.Rect? && w.children[0].kind.color == borderColor
      && |w.children[0].children| == 1
      && w.children[0].children[0].kind.Rect? && w.children[0].children[0].kind.minWidth == 350.0
      && w.children[0].children[0].kind.color == editorBackground
      && (config.border.Some? ==>
            w.kind.minWidth == 352.0 && w.kind.padding == FromValue(1.0) && w.children[0].kind.padding == FromValue(1.0))
      && (config.border.None? ==>
            w.kind.minWidth == 350.0 && w.kind.padding == FromValue(0.0) && w.children[0].kind.padding == FromValue(0.0))
  {
  }

  /** Inside the frame there are 14 of padding all round, but 12 on top without the mac title bar. */
  lemma WindowInnerPadding(config: ImageConfig, editorBackground: Rgba, borderColor: Rgba, lineNumber: Kind)
    ensures var w := Window(config, editorBackground, borderColor, lineNumber);
      && |w.children| == 1 && |w.children[0].children| == 1
      && var inner := w.children[0].children[0];
      && inner.kind.Rect?
      && inner.kind.padding.left == 14.0 && inner.kind.padding.right == 14.0 && inner.kind.padding.bottom == 14.0
      && (config.macWindowBar ==> inner.kind.padding.top == 14.0)
      && (!config.macWindowBar ==> inner.kind.padding.top == 12.0)
  {
  }

  /** The window holds the title row (mac buttons, then title), the breadcrumbs and the code block, in that order. */
  lemma WindowContents(config: ImageConfig, editorBackground: Rgba, borderColor: Rgba, lineNumber: Kind)
    ensures var w := Window(config, editorBackground, borderColor, lineNumber);
      && |w.children| == 1 && |w.children[0].children| == 1
      && w.children[0].children[0].children
         == [Node(RowLayout, [Node(MacTitleBar(config.macWindowBar), []), Node(Title(config.title), [])]),
             Node(Breadcrumbs(config.code.filePath, config.breadcrumbs), []),
             CodeBlockNode(config, lineNumber)]
  {
  }

  /**
   * The code block holds one highlight band per configured entry over as many
   * lines as the code has, 18 apart, then the line numbers, then the code.
   */
  lemma CodeBlockWiring(config: ImageConfig, lineNumber: Kind)
    ensures var b := CodeBlockNode(config, lineNumber);
      && b.kind == CodeBlock && |b.children| == 3
      && b.children[0].kind.HighlightCodeBlock? && b.children[0].children == []
      && b.children[0].kind.highlightLines == config.code.highlightLines
      && b.children[0].kind.codeLineCount == |Lines(config.code.content)|
      && b.children[0].kind.lineHeight == 18.0
      && b.children[0].kind.editorPadding == WindowPadding(config.macWindowBar)
      && b.children[1] == Node(lineNumber, [])
      && b.children[2] == Node(Code(config.code.content), [])
  {
  }

  /**
   * The watermark is drawn exactly when one is configured and the vertical
   * margin is at least the default 82.
   */
  lemma WatermarkShownIff(config: ImageConfig, editorBackground: Rgba)
    requires FromConfig(config, editorBackground).Ok?
    ensures var w := FromConfig(config, editorBackground).value.children[0].children[1];
      && w.children == [] && w.kind.Watermark?
      && (Engine.RenderCondition(w.kind) <==> config.margin.y >= 82.0 && config.watermark.Some?)
      && (Engine.RenderCondition(w.kind) ==> w.kind.watermark == config.watermark)
  {
    var w := FromConfig(config, editorBackground).value.children[0].children[1];
    assert w == WatermarkComponent.New(KeptWatermark(config));
    assert Engine.RenderCondition(w.kind) == KeptWatermark(config).Some?;
    KeptWatermarkIff(config);
  }

  /** The kept watermark is the configured one exactly when the vertical margin is at least 82. */
  lemma KeptWatermarkIff(config: ImageConfig)
    ensures KeptWatermark(config).Some? <==> config.margin.y >= 82.0 && config.watermark.Some?
    ensures KeptWatermark(config).Some? ==> KeptWatermark(config) == config.watermark
  {
    assert RectComponent.BackgroundPadding(config.margin).bottom == config.margin.y;
  }

  // ---------------------------------------------------------------- drawing order

  /** Every event was painted by `p`. */
  predicate PaintedBy(events: seq<Event>, p: Painter) {
    forall e :: e in events ==> e.painter == p
  }

  /** A leaf draws exactly its own paints. */
  lemma LeafDrawsOwn(env: Env, leaf: Node, parentStyle: Style.ResolvedStyle, cursor: Config.Point<real>, sibling: Style.ResolvedStyle, cache: Engine.Cache)
    requires leaf.children == []
    requires Engine.Draw(env, leaf, parentStyle, cursor, sibling, cache).Ok?
    ensures var (style, _) := Engine.ParsedStyle(env, leaf, Some(parentStyle), cache);
      var origin := Engine.Position(parentStyle.align, cursor, sibling, style);
      var own := Engine.Own(env, leaf.kind, origin, style, parentStyle);
      own.Ok? && Engine.Draw(env, leaf, parentStyle, cursor, sibling, cache).value.events == own.value
  {
    var (style, measured) := Engine.ParsedStyle(env, leaf, Some(parentStyle), cache);
    var origin := Engine.Position(parentStyle.align, cursor, sibling, style);
    var own := Engine.Own(env, leaf.kind, origin, style, parentStyle);
    if Engine.RenderCondition(leaf.kind) {
      var none := Engine.DrawChildren(env, leaf, style, 0, Engine.ContentOrigin(origin, style), measured);
      assert none.Ok? && none.value.events == [];
      if own.Ok? {
        Engine.DrawPlacedChildren(env, leaf, parentStyle, style, origin, measured, own.value, none);
        assert own.value + [] == own.value;
      } else {
        Engine.DrawPlacedOwnFails(env, leaf, parentStyle, style, origin, measured);
      }
    }
  }

  /** The highlight band leaf paints only highlight bands, the gutter only numbers, the code only code. */
  lemma CodeBlockLeafPainters(env: Env, k: Kind, origin: Config.Point<real>, style: Style.ResolvedStyle, parentStyle: Style.ResolvedStyle)
    requires k.HighlightCodeBlock? || k.LineNumber? || k.Code?
    requires Engine.Own(env, k, origin, style, parentStyle).Ok?
    ensures var events := Engine.Own(env, k, origin, style, parentStyle).value;
      && (k.HighlightCodeBlock? ==> PaintedBy(events, HighlightPainter))
      && (k.LineNumber? ==> PaintedBy(events, LineNumberPainter))
      && (k.Code? ==> PaintedBy(events, CodePainter))
  {
    var events := Engine.Own(env, k, origin, style, parentStyle).value;
    if k.HighlightCodeBlock? && Engine.RenderCondition(k) {
      HighlightCodeBlockComponent.EntryPaintsInOrder(k, origin, parentStyle.width, env.scaleFactor, k.highlightLines);
      forall e | e in events
        ensures e.painter == HighlightPainter
      {
        var i :| 0 <= i < |events| && events[i] == e;
      }
    }
  }

  /** What a leaf of the code block draws is painted by that leaf's component. */
  lemma CodeBlockLeafDraws(env: Env, leaf: Node, parentStyle: Style.ResolvedStyle, cursor: Config.Point<real>, sibling: Style.ResolvedStyle, cache: Engine.Cache)
    requires leaf.children == [] && (leaf.kind.HighlightCodeBlock? || leaf.kind.LineNumber? || leaf.kind.Code?)
    requires Engine.Draw(env, leaf, parentStyle, cursor, sibling, cache).Ok?
    ensures var events := Engine.Draw(env, leaf, parentStyle, cursor, sibling, cache).value.events;
      && (leaf.kind.HighlightCodeBlock? ==> PaintedBy(events, HighlightPainter))
      && (leaf.kind.LineNumber? ==> PaintedBy(events, LineNumberPainter))
      && (leaf.kind.Code? ==> PaintedBy(events, CodePainter))
  {
    LeafDrawsOwn(env, leaf, parentStyle, cursor, sibling, cache);
    var (style, _) := Engine.ParsedStyle(env, leaf, Some(parentStyle), cache);
    var origin := Engine.Position(parentStyle.align, cursor, sibling, style);
    CodeBlockLeafPainters(env, leaf.kind, origin, style, parentStyle);
  }

  /** The code block paints nothing of its own: what it draws is what its children draw. */
  lemma CodeBlockDrawsChildren(env: Env, n: Node, parentStyle: Style.ResolvedStyle, cursor: Config.Point<real>,
                               sibling: Style.ResolvedStyle, cache: Engine.Cache, d: Engine.Drawn)
    requires n.kind == CodeBlock
    requires Engine.Draw(env, n, parentStyle, cursor, sibling, cache) == Ok(d)
    ensures var (style, measured) := Engine.ParsedStyle(env, n, Some(parentStyle), cache);
      var origin := Engine.Position(parentStyle.align, cursor, sibling, style);
      var all := Engine.DrawChildren(env, n, style, |n.children|, Engine.ContentOrigin(origin, style), measured);
      all.Ok? && d.events == all.value.events
  {
    var (style, measured) := Engine.ParsedStyle(env, n, Some(parentStyle), cache);
    var origin := Engine.Position(parentStyle.align, cursor, sibling, style);
    assert Engine.Own(env, n.kind, origin, style, parentStyle) == Ok([]);
    var all := Engine.DrawChildren(env, n, style, |n.children|, Engine.ContentOrigin(origin, style), measured);
    Engine.DrawPlacedChildren(env, n, parentStyle, style, origin, measured, [], all);
    assert all.Ok? ==> [] + all.value.events == all.value.events;
  }

  /** Drawing one more leaf of the code block adds what that leaf painted. */
  lemma CodeBlockChildStep(env: Env, n: Node, style: Style.ResolvedStyle, start: Config.Point<real>, cache: Engine.Cache, i: nat)
    returns (added: seq<Event>)
    requires i < |n.children| && n.children[i].children == []
    requires n.children[i].kind.HighlightCodeBlock? || n.children[i].kind.LineNumber? || n.children[i].kind.Code?
    requires Engine.DrawChildren(env, n, style, i + 1, start, cache).Ok?
    ensures Engine.DrawChildren(env, n, style, i, start, cache).Ok?
    ensures Engine.DrawChildren(env, n, style, i + 1, start, cache).value.events
      == Engine.DrawChildren(env, n, style, i, start, cache).value.events + added
    ensures n.children[i].kind.HighlightCodeBlock? ==> PaintedBy(added, HighlightPainter)
    ensures n.children[i].kind.LineNumber? ==> PaintedBy(added, LineNumberPainter)
    ensures n.children[i].kind.Code? ==> PaintedBy(added, CodePainter)
  {
    Engine.DrawChildrenPrefix(env, n, style, i, i + 1, start, cache);
    Engine.DrawChildrenStep(env, n, style, i, start, cache);
    var c := Engine.DrawChildren(env, n, style, i, start, cache).value;
    CodeBlockLeafDraws(env, n.children[i], style, c.at, c.sibling, c.cache);
    added := Engine.Draw(env, n.children[i], style, c.at, c.sibling, c.cache).value.events;
  }

  /**
   * Three leaves drawn in a row, highlight bands, line numbers and code: what
   * they draw splits into what each of them painted.
   */
  lemma CodeBlockChildrenSplit(env: Env, n: Node, style: Style.ResolvedStyle, start: Config.Point<real>, cache: Engine.Cache)
    returns (bands: seq<Event>, numbers: seq<Event>, code: seq<Event>)
    requires |n.children| == 3 && n.children[0].children == [] && n.children[1].children == [] && n.children[2].children == []
    requires n.children[0].kind.HighlightCodeBlock? && n.children[1].kind.LineNumber? && n.children[2].kind.Code?
    requires Engine.DrawChildren(env, n, style, |n.children|, start, cache).Ok?
    ensures Engine.DrawChildren(env, n, style, |n.children|, start, cache).value.events == bands + numbers + code
    ensures PaintedBy(bands, HighlightPainter) && PaintedBy(numbers, LineNumberPainter) && PaintedBy(code, CodePainter)
  {
    var last := |n.children| - 1;
    code := CodeBlockChildStep(env, n, style, start, cache, last);
    numbers := CodeBlockChildStep(env, n, style, start, cache, last - 1);
    bands := CodeBlockChildStep(env, n, style, start, cache, last - 2);
    var none := Engine.DrawChildren(env, n, style, 0, start, cache).value.events;
    var one := Engine.DrawChildren(env, n, style, 1, start, cache).value.events;
    var two := Engine.DrawChildren(env, n, style, 2, start, cache).value.events;
    assert none == [];
    assert one == bands;
    assert two == bands + numbers;
  }

  /** In three blocks painted one after another, the first block's events come before the last block's. */
  lemma FirstBlockBeforeLast(bands: seq<Event>, numbers: seq<Event>, code: seq<Event>)
    requires PaintedBy(bands, HighlightPainter) && PaintedBy(numbers, LineNumberPainter) && PaintedBy(code, CodePainter)
    ensures var events := bands + numbers + code;
      forall i, j ::
        (0 <= i < |events| && 0 <= j < |events| && events[i].painter == HighlightPainter && events[j].painter == CodePainter) ==> i < j
  {
    var events := bands + numbers + code;
    forall k | 0 <= k < |events|
      ensures k < |bands| ==> events[k].painter == HighlightPainter
      ensures |bands| + |numbers| <= k ==> events[k].painter == CodePainter
    {
      if k < |bands| {
        assert events[k] == bands[k];
      } else if k < |bands| + |numbers| {
        assert events[k] == numbers[k - |bands|];
      } else {
        assert events[k] == code[k - |bands| - |numbers|];
      }
    }
  }

  /**
   * In the code block, every highlight band is painted before any of the
   * code, so the bands lie under the text.
   */
  lemma OverlayBeforeCode(env: Env, config: ImageConfig, lineNumber: Kind, parentStyle: Style.ResolvedStyle,
                          cursor: Config.Point<real>, sibling: Style.ResolvedStyle, cache: Engine.Cache, d: Engine.Drawn)
    requires lineNumber.LineNumber?
    requires Engine.Draw(env, CodeBlockNode(config, lineNumber), parentStyle, cursor, sibling, cache) == Ok(d)
    ensures forall i, j ::
      (0 <= i < |d.events| && 0 <= j < |d.events| && d.events[i].painter == HighlightPainter && d.events[j].painter == CodePainter) ==> i < j
  {
    var n := CodeBlockNode(config, lineNumber);
    CodeBlockDrawsChildren(env, n, parentStyle, cursor, sibling, cache, d);
    var (style, measured) := Engine.ParsedStyle(env, n, Some(parentStyle), cache);
    var origin := Engine.Position(parentStyle.align, cursor, sibling, style);
    var bands, numbers, code := CodeBlockChildrenSplit(env, n, style, Engine.ContentOrigin(origin, style), measured);
    FirstBlockBeforeLast(bands, numbers, code);
  }

  // ---------------------------------------------------------------- output

  /**
   * `save`'s check on the path: only ".png" and ".svg" are accepted (the
   * pixmap is then written as PNG either way).
   */
  function SavePath(path: string): (r: Result<string, string>)
    ensures r.Ok? <==> EndsWith(path, ".png") || EndsWith(path, ".svg")
    ensures r.Ok? ==> r.value == path
    ensures r.Err? ==> r.error == SAVE_PATH_ERROR
  {
    if !EndsWith(path, ".png") && !EndsWith(path, ".svg") then Err(SAVE_PATH_ERROR) else Ok(path)
  }

  const SVG_HEAD: string := "<svg xmlns=\"http://www.w3.org/2000/svg\" xmlns:xlink=\"http://www.w3.org/1999/xlink\"><image href=\"data:image/png;base64,"
  const SVG_TAIL: string := "\"/></svg>"

  /** The SVG document `to_svg` writes: the base64 PNG data as the only image. */
  function SvgDocument(pngBase64: string): string {
    SVG_HEAD + pngBase64 + SVG_TAIL
  }

  /** Reading the PNG data back out of an SVG document. */
  function SvgPayload(svg: string): (r: Option<string>)
    ensures r.Some? ==> SvgDocument(r.value) == svg
  {
    Unwrap(svg, SVG_HEAD, SVG_TAIL)
  }

  /** What lies between a leading `head` and a trailing `tail`, when `s` has both. */
  function Unwrap(s: string, head: string, tail: string): (r: Option<string>)
    ensures r.Some? ==> head + r.value + tail == s
  {
    if |s| >= |head| + |tail| && StartsWith(s, head) && EndsWith(s, tail)
    then
      var inner := s[|head|..|s| - |tail|];
      assert s == s[..|head|] + inner + s[|s| - |tail|..];
      Some(inner)
    else None
  }

  /** Wrapping text between a head and a tail and unwrapping it gives the text back. */
  lemma UnwrapWrap(head: string, inner: string, tail: string)
    ensures Unwrap(head + inner + tail, head, tail) == Some(inner)
  {
    var s := head + inner + tail;
    assert s[..|head|] == head;
    assert s[|s| - |tail|..] == tail;
    assert s[|head|..|s| - |tail|] == inner;
  }

  /** The SVG document carries the PNG data unchanged. */
  lemma SvgRoundTrip(pngBase64: string)
    ensures SvgPayload(SvgDocument(pngBase64)) == Some(pngBase64)
  {
    UnwrapWrap(SVG_HEAD, pngBase64, SVG_TAIL);
  }

  /** A drawn snapshot: the pixmap and, once converted, its SVG document. */
  class Snapshot {
    const pixmap: Pixmap
    var svgContent: Option<string>

    constructor (pixmap: Pixmap)
      ensures this.pixmap == pixmap && svgContent.None?
    {
      this.pixmap := pixmap;
      svgContent := None;
    }

    /** `to_svg`, given the base64 text of the encoded PNG. */
    method ToSvg(pngBase64: string)
      modifies this
      ensures svgContent == Some(SvgDocument(pngBase64))
      ensures SvgPayload(svgContent.value) == Some(pngBase64)
    {
      svgContent := Some(SvgDocument(pngBase64));
      SvgRoundTrip(pngBase64);
    }
  }
}

=== FILE: layout.dfy ===
/**
 * components/layout/row.rs, components/layout/column.rs and
 * components/code_block.rs: containers that only declare how to arrange their
 * children. None of them names itself, so none is ever cached.
 */
module Layout {
  import opened Style
  import opened Tree

  /** `Row::style`: row alignment, nothing else. */
  const ROW_STYLE: RawStyle := DefaultRaw.(align := Row)

  /** `Column::style`: column alignment, nothing else. */
  const COLUMN_STYLE: RawStyle := DefaultRaw.(align := Column)

  /** `CodeBlock::style`: the parent's width, the children's height. */
  const CODE_BLOCK_STYLE: RawStyle := DefaultRaw.(width := Inherit, height := Dynamic)

  /** `Row::from_children`: the children in the given, left-to-right, order. */
  function RowOf(children: seq<Node>): (n: Node)
    ensures n.kind == RowLayout && n.children == children
  {
    Node(RowLayout, children)
  }

  /** `Column::from_children`: the children in the given, top-to-bottom, order. */
  function ColumnOf(children: seq<Node>): (n: Node)
    ensures n.kind == ColumnLayout && n.children == children
  {
    Node(ColumnLayout, children)
  }

  /** `CodeBlock::from_children`. */
  function CodeBlockOf(children: seq<Node>): (n: Node)
    ensures n.kind == CodeBlock && n.children == children
  {
    Node(CodeBlock, children)
  }
}

=== FILE: leaves.dfy ===
/**
 * The two text leaves whose drawing is delegated to the font renderer:
 * components/editor/code.rs and components/command_line/command_line_output.rs.
 */
module CodeComponent {
  import opened Wrappers
  import opened Style
  import Config
  import opened Canvas
  import opened Tree

  const NAME: string := "Code"
  const FONT_SIZE: real := 12.5
  const CODE_LINE_HEIGHT: real := 18.0

  /** `Code::style`: the measured size of the code, nothing else. */
  function DeclaredStyle(env: Env, k: Kind): (s: RawStyle)
    requires k.Code?
    ensures s.width == Size.Num(env.measureText(k.value).0) && s.height == Size.Num(env.measureText(k.value).1)
    ensures s.(width := DefaultRaw.width, height := DefaultRaw.height) == DefaultRaw
  {
    DefaultRaw.(width := Size.Num(env.measureText(k.value).0), height := Size.Num(env.measureText(k.value).1))
  }

  /** `Code::draw_self`: the code as one text drawn from the component's origin, without a box. */
  function Paints(k: Kind, origin: Config.Point<real>): (evs: seq<Event>)
    requires k.Code?
    ensures |evs| == 1 && evs[0].painter == CodePainter
    ensures evs[0].paint == DrawText(origin.x, origin.y, None, [k.value], Start)
  {
    [Event(CodePainter, DrawText(origin.x, origin.y, None, [k.value], Start))]
  }
}

module CommandLineOutputComponent {
  import opened Wrappers
  import opened Color
  import opened Style
  import Config
  import opened Canvas
  import opened Tree
  import opened Ansi

  const NAME: string := "CommandLineOutput"
  const FONT_SIZE: real := 12.5
  const LINE_HEIGHT: real := 20.0

  /** `CommandLineOutput::from`: a leaf holding the raw terminal text. */
  function From(ansiText: string): (n: Node)
    ensures n.kind.CommandLineOutput? && n.kind.ansiText == ansiText && n.children == []
  {
    Node(CommandLineOutput(ansiText), [])
  }

  /** `CommandLineOutput::style`: the raw text measured at half the font size per character and 20 per line. */
  function DeclaredStyle(env: Env, k: Kind): (s: RawStyle)
    requires k.CommandLineOutput?
    ensures s.width == Size.Num(env.calcWh(k.ansiText, FONT_SIZE / 2.0, LINE_HEIGHT).0)
    ensures s.height == Size.Num(env.calcWh(k.ansiText, FONT_SIZE / 2.0, LINE_HEIGHT).1)
    ensures s.(width := DefaultRaw.width, height := DefaultRaw.height) == DefaultRaw
  {
    var (w, h) := env.calcWh(k.ansiText, FONT_SIZE / 2.0, LINE_HEIGHT);
    DefaultRaw.(width := Size.Num(w), height := Size.Num(h))
  }

  /**
   * `CommandLineOutput::draw_self`: the terminal text split into coloured runs,
   * drawn from the component's origin in the code font; a run without a
   * foreground colour is drawn in the palette's White.
   */
  function Paints(env: Env, k: Kind, origin: Config.Point<real>): (evs: seq<Event>)
    requires k.CommandLineOutput?
    ensures |evs| == 1 && evs[0].painter == CommandLineOutputPainter && evs[0].paint.DrawSpans?
    ensures var p := evs[0].paint; var cats := env.categorise(k.ansiText);
      p.x == origin.x && p.y == origin.y && p.box == None && |p.runs| == |cats|
      && forall i :: 0 <= i < |cats| ==>
        p.runs[i].text == cats[i].text && p.runs[i].family == env.codeFontFamily
        && Ok(p.runs[i].color) == ToRgba(ParseColorToHex(cats[i].fg.GetOr(White)))
  {
    [Event(CommandLineOutputPainter, DrawSpans(origin.x, origin.y, None,
      Colorize(env.categorise(k.ansiText), env.codeFontFamily)))]
  }
}

=== FILE: line_number.dfy ===
/** components/line_number.rs: the right-aligned gutter of line numbers. */
module LineNumberComponent {
  import opened Wrappers
  import opened Text
  import opened Edges
  import opened Style
  import opened Config
  import opened Canvas
  import opened Tree

  /** `LineNumber::default()`: nothing to show and never rendered. */
  const HIDDEN: Kind := LineNumber(0.0, false, [], 0)

  /** The number shown on each line, from `start` on: `{:>digits$}` of the number. */
  function Entry(n: nat, digits: nat): string {
    PadLeft(NatToString(n), digits)
  }

  /**
   * `LineNumber::new`. Without a start number the gutter is hidden. Otherwise
   * there is one entry per "\n"-separated piece of the content (that count
   * cut to u32), numbered from the start; every entry is right-aligned to the
   * width of the largest number. The u32 sum of count and start overflows
   * past the u32 range, and a zero sum underflows when one is subtracted.
   */
  function New(content: string, startNumber: Option<U32>, lineHeight: real): (r: Result<Kind, RenderError>)
    ensures startNumber.None? ==> r == Ok(HIDDEN)
    ensures startNumber.Some? ==>
      var count := AsU32(|Split(content, '\n')|);
      var start := startNumber.value;
      && (r.Ok? <==> 0 < start + count < U32_MODULUS)
      && (r.Ok? ==>
           && r.value.LineNumber? && r.value.renderCondition && r.value.lineHeight == lineHeight
           && r.value.numberOfDigit == |NatToString(start + count - 1)|
           && |r.value.lineNumberContent| == count
           && forall i :: 0 <= i < count ==> r.value.lineNumberContent[i] == Entry(start + i, r.value.numberOfDigit))
  {
    match startNumber
    case None => Ok(HIDDEN)
    case Some(start) =>
      var maxLineNumber := AsU32(|Split(content, '\n')|) + start;
      if maxLineNumber >= U32_MODULUS || maxLineNumber == 0 then Err(ArithmeticOverflow)
      else
        var digits := |NatToString(maxLineNumber - 1)|;
        Ok(LineNumber(lineHeight, true,
          seq(maxLineNumber - start, i requires 0 <= i < maxLineNumber - start => Entry(start + i, digits)), digits))
  }

  /** Every entry is exactly as wide as the largest number, so the gutter is right-aligned. */
  lemma EntriesHaveEqualWidth(content: string, start: U32, lineHeight: real)
    requires New(content, Some(start), lineHeight).Ok?
    ensures var k := New(content, Some(start), lineHeight).value;
      forall i :: 0 <= i < |k.lineNumberContent| ==>
        |k.lineNumberContent[i]| == k.numberOfDigit && EndsWith(k.lineNumberContent[i], NatToString(start + i))
  {
    var k := New(content, Some(start), lineHeight).value;
    if |k.lineNumberContent| > 0 {
      EntriesAligned(k.lineNumberContent, start, k.numberOfDigit);
    }
  }

  /** Entries padded to the width of the last number are all that wide and end in their number. */
  lemma EntriesAligned(entries: seq<string>, start: nat, digits: nat)
    requires |entries| > 0 && digits == |NatToString(start + |entries| - 1)|
    requires forall i :: 0 <= i < |entries| ==> entries[i] == Entry(start + i, digits)
    ensures forall i :: 0 <= i < |entries| ==> |entries[i]| == digits && EndsWith(entries[i], NatToString(start + i))
  {
    forall i | 0 <= i < |entries|
      ensures |entries[i]| == digits && EndsWith(entries[i], NatToString(start + i))
    {
      NatToStringMonotone(start + i, start + |entries| - 1);
    }
  }

  /** One number per "\n" in the content, plus one. */
  lemma OneNumberPerLine(content: string, start: U32, lineHeight: real)
    requires Count(content, '\n') + 1 < U32_MODULUS
    requires New(content, Some(start), lineHeight).Ok?
    ensures |New(content, Some(start), lineHeight).value.lineNumberContent| == Count(content, '\n') + 1
  {
    SplitCount(content, '\n');
  }

  /** A content ending in "\n" gets one more number than without it. */
  lemma TrailingNewlineAddsNumber(content: string, start: U32, lineHeight: real)
    requires Count(content, '\n') + 2 < U32_MODULUS
    requires New(content + "\n", Some(start), lineHeight).Ok?
    requires New(content, Some(start), lineHeight).Ok?
    ensures |New(content + "\n", Some(start), lineHeight).value.lineNumberContent|
         == |New(content, Some(start), lineHeight).value.lineNumberContent| + 1
  {
    CountAppend(content, "\n", '\n');
    assert Count("\n", '\n') == 1;
    OneNumberPerLine(content, start, lineHeight);
    OneNumberPerLine(content + "\n", start, lineHeight);
  }

  /** `render_condition`: the flag set by `new`. */
  predicate RenderCondition(k: Kind)
    requires k.LineNumber?
  {
    k.renderCondition
  }

  /** `LineNumber::style`: one character cell per digit wide, one line per entry high, 10 to the right. */
  function DeclaredStyle(env: Env, k: Kind): (s: RawStyle)
    requires k.LineNumber?
    ensures s.width == Size.Num(env.charWidth * k.numberOfDigit as real)
    ensures s.height == Size.Num(|k.lineNumberContent| as real * k.lineHeight)
    ensures s.margin == Edge(0.0, 10.0, 0.0, 0.0) && s.padding == Zero && s.align == Row && s.minWidth == 0.0
  {
    DefaultRaw.(width := Size.Num(env.charWidth * k.numberOfDigit as real),
                height := Size.Num(|k.lineNumberContent| as real * k.lineHeight),
                margin := Edge(0.0, 10.0, 0.0, 0.0))
  }

  /** `LineNumber::draw_self`: the entries, one per line, in the component's own box. */
  function Paints(k: Kind, origin: Point<real>, style: ResolvedStyle): (evs: seq<Event>)
    requires k.LineNumber?
    ensures |evs| == 1 && evs[0].painter == LineNumberPainter
    ensures evs[0].paint == DrawText(origin.x, origin.y, Some(Point(style.width, style.height)), [Join(k.lineNumberContent, "\n")], Start)
  {
    [Event(LineNumberPainter, DrawText(origin.x, origin.y, Some(Point(style.width, style.height)), [Join(k.lineNumberContent, "\n")], Start))]
  }
}

=== FILE: mac_title_bar.dfy ===
/** components/editor/mac_title_bar.rs: the three traffic-light buttons. */
module MacTitleBarComponent {
  import opened Color
  import opened Config
  import opened Edges
  import opened Style
  import opened Canvas
  import opened Tree

  const NAME: string := "MacTitleBar"
  const RADIUS: real := 6.0
  const GAP: real := 4.0

  const CLOSE_RED: Rgba := Rgba(255, 94, 87, 255)
  const MINIMIZE_YELLOW: Rgba := Rgba(255, 186, 46, 255)
  const ZOOM_GREEN: Rgba := Rgba(43, 200, 65, 255)

  /** The button colours, in drawing order. */
  const BUTTON_COLORS: seq<Rgba> := [CLOSE_RED, MINIMIZE_YELLOW, ZOOM_GREEN]

  /** `MacTitleBar::new`: a leaf whose render condition is the given flag. */
  function New(renderCondition: bool): (n: Node)
    ensures n.kind == MacTitleBar(renderCondition) && n.children == []
  {
    Node(MacTitleBar(renderCondition), [])
  }

  /** `MacTitleBar::style`: 62 × 12 (one diameter plus 2 · 25), 10 below. */
  function DeclaredStyle(): (s: RawStyle)
    ensures s.width == Size.Num(62.0) && s.height == Size.Num(12.0)
    ensures s.margin == Edge(0.0, 0.0, 0.0, 10.0) && s.padding == Zero
  {
    var diameter := RADIUS * 2.0;
    DefaultRaw.(width := Size.Num(diameter + 2.0 * 25.0), height := Size.Num(diameter), margin := Edge(0.0, 0.0, 0.0, 10.0))
  }

  /** One filled circle of the given colour at (x + xOffset, y). */
  function ButtonPaint(x: real, y: real, color: Rgba, xOffset: real, scaleFactor: real): Event {
    Event(MacTitleBarPainter, FillPath([Circle(Point(x + xOffset, y), RADIUS), PathVerb.Close], color, Scale(scaleFactor)))
  }

  /** How far button `index` is from the first: one diameter plus one gap per button before it. */
  function ButtonOffset(index: nat, gap: real): real {
    index as real * (RADIUS * 2.0 + gap)
  }

  /** The buttons of `draw_control_buttons`: button i shifted by i diameters plus i gaps. */
  function ButtonPaints(x: real, y: real, colors: seq<Rgba>, gap: real, scaleFactor: real): (evs: seq<Event>)
    ensures |evs| == |colors|
  {
    if colors == [] then []
    else
      var i := |colors| - 1;
      ButtonPaints(x, y, colors[..i], gap, scaleFactor) + [ButtonPaint(x, y, colors[i], ButtonOffset(i, gap), scaleFactor)]
  }

  /** Button i sits i · (diameter + gap) to the right of the first, in the colour at position i. */
  lemma {:induction false} ButtonPaintsAt(x: real, y: real, colors: seq<Rgba>, gap: real, scaleFactor: real)
    ensures forall i :: 0 <= i < |colors| ==>
      ButtonPaints(x, y, colors, gap, scaleFactor)[i] == ButtonPaint(x, y, colors[i], ButtonOffset(i, gap), scaleFactor)
  {
    if colors != [] {
      var n := |colors| - 1;
      ButtonPaintsAt(x, y, colors[..n], gap, scaleFactor);
      var all := ButtonPaints(x, y, colors, gap, scaleFactor);
      var init := ButtonPaints(x, y, colors[..n], gap, scaleFactor);
      assert all == init + [ButtonPaint(x, y, colors[n], ButtonOffset(n, gap), scaleFactor)];
      forall i | 0 <= i < |colors|
        ensures all[i] == ButtonPaint(x, y, colors[i], ButtonOffset(i, gap), scaleFactor)
      {
        if i < n {
          assert all[i] == init[i];
          assert colors[..n][i] == colors[i];
        }
      }
    }
  }

  /** `draw_control_button`: a one-circle path, closed and filled. */
  method DrawControlButton(pixmap: Pixmap, x: real, y: real, color: Rgba, xOffset: real, scaleFactor: real)
    modifies pixmap
    ensures pixmap.events == old(pixmap.events) + [ButtonPaint(x, y, color, xOffset, scaleFactor)]
  {
    var pathBuilder := new PathBuilder();
    pathBuilder.PushCircle(x + xOffset, y, RADIUS);
    pathBuilder.Close();
    assert pathBuilder.verbs == [Circle(Point(x + xOffset, y), RADIUS), PathVerb.Close];
    pixmap.Paint(Event(MacTitleBarPainter, FillPath(pathBuilder.verbs, color, Scale(scaleFactor))));
  }

  /** `draw_control_buttons`: the loop over the colours. */
  method DrawControlButtons(pixmap: Pixmap, x: real, y: real, colors: seq<Rgba>, gap: real, scaleFactor: real)
    modifies pixmap
    ensures pixmap.events == old(pixmap.events) + ButtonPaints(x, y, colors, gap, scaleFactor)
  {
    var index := 0;
    while index < |colors|
      invariant 0 <= index <= |colors|
      invariant pixmap.events == old(pixmap.events) + ButtonPaints(x, y, colors[..index], gap, scaleFactor)
    {
      var diameter := RADIUS * 2.0;
      var xOffset := index as real * (diameter + gap);
      assert xOffset == ButtonOffset(index, gap);
      DrawControlButton(pixmap, x, y, colors[index], xOffset, scaleFactor);
      assert colors[..index + 1][..index] == colors[..index];
      assert colors[..index + 1][index] == colors[index];
      assert ButtonPaints(x, y, colors[..index + 1], gap, scaleFactor)
          == ButtonPaints(x, y, colors[..index], gap, scaleFactor) + [ButtonPaint(x, y, colors[index], ButtonOffset(index, gap), scaleFactor)];
      index := index + 1;
    }
    assert colors[..index] == colors;
  }

  /** `MacTitleBar::draw_self`: the buttons start one radius in from the component's corner. */
  method DrawSelf(pixmap: Pixmap, env: Env, origin: Point<real>)
    modifies pixmap
    ensures pixmap.events == old(pixmap.events) + Paints(env, origin)
  {
    DrawControlButtons(pixmap, origin.x + RADIUS, origin.y + RADIUS, BUTTON_COLORS, GAP, env.scaleFactor);
  }

  function Paints(env: Env, origin: Point<real>): seq<Event> {
    ButtonPaints(origin.x + RADIUS, origin.y + RADIUS, BUTTON_COLORS, GAP, env.scaleFactor)
  }

  /**
   * Button i is a circle of radius 6 centred at (x + 6 + 16·i, y + 6), and the
   * buttons come red, yellow, green.
   */
  lemma ButtonLayout(env: Env, origin: Point<real>)
    ensures |Paints(env, origin)| == 3
    ensures forall i :: 0 <= i < 3 ==>
      Paints(env, origin)[i].paint.FillPath? && Paints(env, origin)[i].paint.path == [Circle(Point(origin.x + 6.0 + 16.0 * i as real, origin.y + 6.0), 6.0), PathVerb.Close]
    ensures Paints(env, origin)[0].paint.color == CLOSE_RED
    ensures Paints(env, origin)[1].paint.color == MINIMIZE_YELLOW
    ensures Paints(env, origin)[2].paint.color == ZOOM_GREEN
  {
    ButtonPaintsAt(origin.x + RADIUS, origin.y + RADIUS, BUTTON_COLORS, GAP, env.scaleFactor);
  }
}

=== FILE: presets.dfy ===
/**
 * preset_background.rs: the seven built-in gradient backgrounds. Each is a
 * horizontal gradient from the top-left corner to the right edge.
 */
module Presets {
  import opened Wrappers
  import opened Color
  import opened Config

  datatype Preset = Bamboo | Sea | Classic | Grape | Peach | Summer | Dusk

  /** The (position, colour) pairs each preset passes to `LinearGradientStop::new`. */
  function StopTable(p: Preset): seq<(real, string)> {
    match p
    case Bamboo => [(0.22, "#6bcba5"), (0.95, "#caf4c2")]
    case Sea => [(0.0, "#1fa2ff"), (0.4, "#12d8fa"), (0.95, "#a6ffcb")]
    case Classic => [(0.0, "#3a1c71"), (0.5, "#d76d77"), (0.95, "#ffb07c")]
    case Grape => [(0.28, "#675af7"), (0.95, "#bd65fa")]
    case Peach => [(0.22, "#dd5e89"), (0.95, "#f7bb97")]
    case Summer => [(0.28, "#f8a5c2"), (0.95, "#74b9ff")]
    case Dusk => [(0.22, "#ff626e"), (0.95, "#ffbe71")]
  }

  /** `LinearGradientStop::new` applied to each pair in order; the first bad position aborts. */
  function NewStops(table: seq<(real, string)>): (r: Result<seq<LinearGradientStop>, string>)
    ensures r.Ok? <==> forall i :: 0 <= i < |table| ==> 0.0 <= table[i].0 <= 1.0
    ensures r.Ok? ==> |r.value| == |table|
    ensures r.Ok? ==> forall i :: 0 <= i < |table| ==> r.value[i] == LinearGradientStop(table[i].0, table[i].1)
  {
    if table == [] then Ok([])
    else
      match (NewStop(table[0].0, table[0].1), NewStops(table[1..]))
      case (Ok(s), Ok(rest)) => Ok([s] + rest)
      case (Err(e), _) => Err(e)
      case (_, Err(e)) => Err(e)
  }

  /** Every preset position lies in [0, 1], so building a preset never panics. */
  lemma StopPositionsInRange(p: Preset)
    ensures forall i :: 0 <= i < |StopTable(p)| ==> 0.0 <= StopTable(p)[i].0 <= 1.0
  {
  }

  /** Positions rise strictly within each preset. */
  lemma StopPositionsIncreasing(p: Preset)
    ensures forall i, j :: 0 <= i < j < |StopTable(p)| ==> StopTable(p)[i].0 < StopTable(p)[j].0
  {
  }

  /** The preset as a `Background`: a gradient from (0, 0) to (max, 0) through its stops. */
  function PresetBackground(p: Preset): (b: Background)
    ensures b.Gradient?
    ensures b.gradient.start == Point(Num(0.0), Num(0.0)) && b.gradient.end == Point(Max, Num(0.0))
    ensures |b.gradient.stops| == |StopTable(p)| >= 2
    ensures forall i :: 0 <= i < |StopTable(p)| ==>
      b.gradient.stops[i] == LinearGradientStop(StopTable(p)[i].0, StopTable(p)[i].1)
  {
    StopPositionsInRange(p);
    var stops := NewStops(StopTable(p));
    Gradient(LinearGradient(Point(Num(0.0), Num(0.0)), Point(Max, Num(0.0)), stops.value))
  }

  /** A well-formed "#rrggbb" string that parses to an opaque colour. */
  predicate OpaqueHex(s: string) {
    IsValidHexColor(s) && ToRgba(s).Ok? && ToRgba(s).value.a == 255
  }

  /** The red, green and blue components each preset colour spells. */
  function StopComponents(p: Preset): seq<(Byte, Byte, Byte)> {
    match p
    case Bamboo => [(0x6b, 0xcb, 0xa5), (0xca, 0xf4, 0xc2)]
    case Sea => [(0x1f, 0xa2, 0xff), (0x12, 0xd8, 0xfa), (0xa6, 0xff, 0xcb)]
    case Classic => [(0x3a, 0x1c, 0x71), (0xd7, 0x6d, 0x77), (0xff, 0xb0, 0x7c)]
    case Grape => [(0x67, 0x5a, 0xf7), (0xbd, 0x65, 0xfa)]
    case Peach => [(0xdd, 0x5e, 0x89), (0xf7, 0xbb, 0x97)]
    case Summer => [(0xf8, 0xa5, 0xc2), (0x74, 0xb9, 0xff)]
    case Dusk => [(0xff, 0x62, 0x6e), (0xff, 0xbe, 0x71)]
  }

  lemma SpellsComponents(p: Preset, i: nat)
    requires i < |StopTable(p)|
    ensures |StopComponents(p)| == |StopTable(p)|
    ensures StopTable(p)[i].1 == FormatRgbHex(StopComponents(p)[i].0, StopComponents(p)[i].1, StopComponents(p)[i].2)
  {
    match p
    case Bamboo => BambooSpellsComponents(i);
    case Sea => SeaSpellsComponents(i);
    case Classic => ClassicSpellsComponents(i);
    case Grape => GrapeSpellsComponents(i);
    case Peach => PeachSpellsComponents(i);
    case Summer => SummerSpellsComponents(i);
    case Dusk => DuskSpellsComponents(i);
  }

  lemma BambooSpellsComponents(i: nat)
    requires i < |StopTable(Bamboo)|
    ensures |StopComponents(Bamboo)| == |StopTable(Bamboo)|
    ensures StopTable(Bamboo)[i].1 == FormatRgbHex(StopComponents(Bamboo)[i].0, StopComponents(Bamboo)[i].1, StopComponents(Bamboo)[i].2)
  {
    if i == 0 { SpellsRgb("#6bcba5", 0x6b, 0xcb, 0xa5); }
    else { SpellsRgb("#caf4c2", 0xca, 0xf4, 0xc2); }
  }

  lemma SeaSpellsComponents(i: nat)
    requires i < |StopTable(Sea)|
    ensures |StopComponents(Sea)| == |StopTable(Sea)|
    ensures StopTable(Sea)[i].1 == FormatRgbHex(StopComponents(Sea)[i].0, StopComponents(Sea)[i].1, StopComponents(Sea)[i].2)
  {
    if i == 0 { SpellsRgb("#1fa2ff", 0x1f, 0xa2, 0xff); }
    else if i == 1 { SpellsRgb("#12d8fa", 0x12, 0xd8, 0xfa); }
    else { SpellsRgb("#a6ffcb", 0xa6, 0xff, 0xcb); }
  }

  lemma ClassicSpellsComponents(i: nat)
    requires i < |StopTable(Classic)|
    ensures |StopComponents(Classic)| == |StopTable(Classic)|
    ensures StopTable(Classic)[i].1 == FormatRgbHex(StopComponents(Classic)[i].0, StopComponents(Classic)[i].1, StopComponents(Classic)[i].2)
  {
    if i == 0 { SpellsRgb("#3a1c71", 0x3a, 0x1c, 0x71); }
    else if i == 1 { SpellsRgb("#d76d77", 0xd7, 0x6d, 0x77); }
    else { SpellsRgb("#ffb07c", 0xff, 0xb0, 0x7c); }
  }

  lemma GrapeSpellsComponents(i: nat)
    requires i < |StopTable(Grape)|
    ensures |StopComponents(Grape)| == |StopTable(Grape)|
    ensures StopTable(Grape)[i].1 == FormatRgbHex(StopComponents(Grape)[i].0, StopComponents(Grape)[i].1, StopComponents(Grape)[i].2)
  {
    if i == 0 { SpellsRgb("#675af7", 0x67, 0x5a, 0xf7); }
    else { SpellsRgb("#bd65fa", 0xbd, 0x65, 0xfa); }
  }

  lemma PeachSpellsComponents(i: nat)
    requires i < |StopTable(Peach)|
    ensures |StopComponents(Peach)| == |StopTable(Peach)|
    ensures StopTable(Peach)[i].1 == FormatRgbHex(StopComponents(Peach)[i].0, StopComponents(Peach)[i].1, StopComponents(Peach)[i].2)
  {
    if i == 0 { SpellsRgb("#dd5e89", 0xdd, 0x5e, 0x89); }
    else { SpellsRgb("#f7bb97", 0xf7, 0xbb, 0x97); }
  }

  lemma SummerSpellsComponents(i: nat)
    requires i < |StopTable(Summer)|
    ensures |StopComponents(Summer)| == |StopTable(Summer)|
    ensures StopTable(Summer)[i].1 == FormatRgbHex(StopComponents(Summer)[i].0, StopComponents(Summer)[i].1, StopComponents(Summer)[i].2)
  {
    if i == 0 { SpellsRgb("#f8a5c2", 0xf8, 0xa5, 0xc2); }
    else { SpellsRgb("#74b9ff", 0x74, 0xb9, 0xff); }
  }

  lemma DuskSpellsComponents(i: nat)
    requires i < |StopTable(Dusk)|
    ensures |StopComponents(Dusk)| == |StopTable(Dusk)|
    ensures StopTable(Dusk)[i].1 == FormatRgbHex(StopComponents(Dusk)[i].0, StopComponents(Dusk)[i].1, StopComponents(Dusk)[i].2)
  {
    if i == 0 { SpellsRgb("#ff626e", 0xff, 0x62, 0x6e); }
    else { SpellsRgb("#ffbe71", 0xff, 0xbe, 0x71); }
  }

  /** A "#rrggbb" literal whose digits are those of the three components. */
  lemma SpellsRgb(s: string, r: Byte, g: Byte, b: Byte)
    requires |s| == 7 && s[0] == '#'
    requires s[1] == Hex2(r)[0] && s[2] == Hex2(r)[1]
    requires s[3] == Hex2(g)[0] && s[4] == Hex2(g)[1]
    requires s[5] == Hex2(b)[0] && s[6] == Hex2(b)[1]
    ensures s == FormatRgbHex(r, g, b)
  {
    var want := FormatRgbHex(r, g, b);
    assert want == "#" + Hex2(r) + Hex2(g) + Hex2(b);
    assert forall k :: 0 <= k < 7 ==> s[k] == want[k];
  }

  /**
   * Every preset colour is a well-formed "#rrggbb" string that parses to an
   * opaque colour with the components it spells.
   */
  lemma PresetColorParses(p: Preset, i: nat)
    requires i < |StopTable(p)|
    ensures OpaqueHex(StopTable(p)[i].1)
    ensures ToRgba(StopTable(p)[i].1) == Ok(Rgba(StopComponents(p)[i].0, StopComponents(p)[i].1, StopComponents(p)[i].2, 255))
  {
    SpellsComponents(p, i);
    var (r, g, b) := StopComponents(p)[i];
    ToRgbaOfRgbFormat(r, g, b);
  }

  lemma PresetColorsParse(p: Preset)
    ensures forall i :: 0 <= i < |StopTable(p)| ==> OpaqueHex(StopTable(p)[i].1)
  {
    forall i | 0 <= i < |StopTable(p)|
      ensures OpaqueHex(StopTable(p)[i].1)
    {
      PresetColorParses(p, i);
    }
  }

  /** Consequently every preset converts to renderer stops without error. */
  lemma PresetGradientStopsParse(p: Preset)
    ensures ToGradientStops(PresetBackground(p).gradient.stops).Ok?
  {
    PresetColorsParse(p);
  }
}

=== FILE: rect.dfy ===
/**
 * components/rect.rs: a rounded rectangle that may cast a shadow, and the
 * three nested rectangles that draw a bordered window.
 */
module RectComponent {
  import opened Wrappers
  import opened Edges
  import opened Style
  import opened Color
  import opened Config
  import opened Canvas
  import opened Tree

  /** `Rect::new`: no min width means 0, and a new rect has no shadow. */
  function New(radius: real, color: Rgba, minWidth: Option<real>, padding: Padding, name: string, children: seq<Node>): (n: Node)
    ensures n.kind.Rect? && n.children == children
    ensures n.kind.minWidth == (if minWidth.Some? then minWidth.value else 0.0)
    ensures n.kind.shadow == None
    ensures n.kind.radius == radius && n.kind.color == color && n.kind.padding == padding && n.kind.componentName == name
  {
    Node(Rect(radius, minWidth.GetOr(0.0), padding, color, None, name), children)
  }

  /** `Rect::style`: column alignment, the rect's own padding and min width. */
  function DeclaredStyle(k: Kind): (s: RawStyle)
    requires k.Rect?
    ensures s.align == Column && s.padding == k.padding && s.minWidth == k.minWidth
    ensures s.width == Dynamic && s.height == Dynamic && s.margin == Zero
  {
    DefaultRaw.(minWidth := k.minWidth, align := Column, padding := k.padding)
  }

  const UNDER_LAYER: string := "RectUnderLayer"
  const BORDER_LAYER: string := "RectBorderLayer"
  const INNER_LAYER: string := "RectInnerLayer"

  /**
   * `Rect::create_with_border`: an under layer in the content colour, a
   * border layer in the border colour and an inner layer in the content
   * colour, each `borderWidth` smaller in radius and min width than the one
   * around it. Only the inner layer has the caller's padding and children.
   */
  function CreateWithBorder(radius: real, color: Rgba, minWidth: real, padding: Padding,
                            borderWidth: real, borderColor: Rgba, children: seq<Node>): (n: Node)
    ensures n.kind.Rect? && |n.children| == 1
    ensures n.children[0].kind.Rect? && |n.children[0].children| == 1
    ensures n.children[0].children[0].kind.Rect? && n.children[0].children[0].children == children
    ensures var under, border, inner := n.kind, n.children[0].kind, n.children[0].children[0].kind;
      && under.componentName == UNDER_LAYER && border.componentName == BORDER_LAYER && inner.componentName == INNER_LAYER
      && under.radius == radius && border.radius == radius - borderWidth && inner.radius == radius - 2.0 * borderWidth
      && under.minWidth == minWidth + 2.0 * borderWidth && border.minWidth == minWidth + borderWidth && inner.minWidth == minWidth
      && under.color == color && border.color == borderColor && inner.color == color
      && under.padding == FromValue(borderWidth) && border.padding == FromValue(borderWidth) && inner.padding == padding
      && under.shadow.None? && border.shadow.None? && inner.shadow.None?
  {
    New(radius, color, Some(minWidth + borderWidth * 2.0), FromValue(borderWidth), UNDER_LAYER,
      [New(radius - borderWidth, borderColor, Some(minWidth + borderWidth), FromValue(borderWidth), BORDER_LAYER,
        [New(radius - borderWidth * 2.0, color, Some(minWidth), padding, INNER_LAYER, children)])])
  }

  /** A one-wide border around a radius-12 window at least 350 wide: radii 12, 11, 10 and min widths 352, 351, 350. */
  lemma WindowBorderLayers(color: Rgba, padding: Padding, borderColor: Rgba, children: seq<Node>)
    ensures var n := CreateWithBorder(12.0, color, 350.0, padding, 1.0, borderColor, children);
      && n.kind.radius == 12.0 && n.children[0].kind.radius == 11.0 && n.children[0].children[0].kind.radius == 10.0
      && n.kind.minWidth == 352.0 && n.children[0].kind.minWidth == 351.0 && n.children[0].children[0].kind.minWidth == 350.0
  {
  }

  /** `Rect::shadow`: sets the shadow and nothing else. */
  function WithShadow(n: Node, x: real, y: real, blur: real, color: Rgba): (m: Node)
    requires n.kind.Rect?
    ensures m.kind.Rect? && m.kind.shadow == Some(ShadowConfig(x, y, blur, color))
    ensures m.children == n.children && m.kind == n.kind.(shadow := m.kind.shadow)
  {
    n.(kind := n.kind.(shadow := Some(ShadowConfig(x, y, blur, color))))
  }

  // ---------------------------------------------------------------- the outline

  /**
   * The outline `draw_self` builds for a rect at (x, y) of size w × h and
   * corner radius r: a cross-shaped polygon through the straight edges plus
   * one circle per corner.
   */
  function RoundedRectPath(x: real, y: real, w: real, h: real, r: real): seq<PathVerb> {
    UpperOutline(x, y, w, h, r) + LowerOutline(x, y, w, h, r) + CornerOutline(x, y, w, h, r)
  }

  /** The cross polygon, from the top edge round to the bottom edge. */
  function UpperOutline(x: real, y: real, w: real, h: real, r: real): seq<PathVerb> {
    var rw, rh := w - 2.0 * r, h - 2.0 * r;
    [ PathVerb.MoveTo(Point(x + r, y)),
      LineTo(Point(x + r + rw, y)),
      LineTo(Point(x + r + rw, y + r)),
      LineTo(Point(x + rw + r * 2.0, y + r)),
      LineTo(Point(x + rw + r * 2.0, y + rh + r)),
      LineTo(Point(x + rw + r, y + rh + r)),
      LineTo(Point(x + rw + r, y + rh + r * 2.0)) ]
  }

  /** The cross polygon, from the bottom edge back to the top edge. */
  function LowerOutline(x: real, y: real, w: real, h: real, r: real): seq<PathVerb> {
    var rw, rh := w - 2.0 * r, h - 2.0 * r;
    [ LineTo(Point(x + r, y + rh + r * 2.0)),
      LineTo(Point(x + r, y + rh + r)),
      LineTo(Point(x, y + rh + r)),
      LineTo(Point(x, y + r)),
      LineTo(Point(x + r, y + r)),
      LineTo(Point(x + r, y)),
      LineTo(Point(x + r + rw, y)) ]
  }

  /** The four corner circles and the closing step. */
  function CornerOutline(x: real, y: real, w: real, h: real, r: real): seq<PathVerb> {
    var rw, rh := w - 2.0 * r, h - 2.0 * r;
    [ Circle(Point(x + rw + r, y + rh + r), r),
      Circle(Point(x + r + rw, y + r), r),
      Circle(Point(x + r, y + r), r),
      Circle(Point(x + r, y + rh + r), r),
      PathVerb.Close ]
  }

  /** A path step stays inside the box [x, x + w] × [y, y + h] (a circle with its whole disc). */
  predicate InBox(v: PathVerb, x: real, y: real, w: real, h: real) {
    match v
    case MoveTo(p) => x <= p.x <= x + w && y <= p.y <= y + h
    case LineTo(p) => x <= p.x <= x + w && y <= p.y <= y + h
    case Circle(c, r) => x <= c.x - r && c.x + r <= x + w && y <= c.y - r && c.y + r <= y + h
    case Close => true
  }

  /**
   * For a radius that fits (0 ≤ 2r ≤ w, h), the outline stays inside the
   * rect's box and touches all four of its sides.
   */
  lemma PathSpansBox(x: real, y: real, w: real, h: real, r: real)
    requires 0.0 <= r && 2.0 * r <= w && 2.0 * r <= h
    ensures forall i :: 0 <= i < |RoundedRectPath(x, y, w, h, r)| ==> InBox(RoundedRectPath(x, y, w, h, r)[i], x, y, w, h)
    ensures RoundedRectPath(x, y, w, h, r)[10].to.x == x && RoundedRectPath(x, y, w, h, r)[4].to.x == x + w
    ensures RoundedRectPath(x, y, w, h, r)[0].to.y == y && RoundedRectPath(x, y, w, h, r)[7].to.y == y + h
  {
  }

  /** The four corner circles have radius r and sit r in from both sides of their corner. */
  lemma CornerCircles(x: real, y: real, w: real, h: real, r: real)
    ensures var path := RoundedRectPath(x, y, w, h, r);
      && path[14] == Circle(Point(x + w - r, y + h - r), r)
      && path[15] == Circle(Point(x + w - r, y + r), r)
      && path[16] == Circle(Point(x + r, y + r), r)
      && path[17] == Circle(Point(x + r, y + h - r), r)
  {
  }

  // ---------------------------------------------------------------- the shadow

  /**
   * `From<Margin> for Padding` (edges/margin.rs is not part of this model):
   * assumed to put `x` on the left and right and `y` on the top and bottom.
   */
  function BackgroundPadding(m: WindowMargin): Padding {
    Edge(m.x, m.x, m.y, m.y)
  }

  /** Where and how large the shadow buffer is, and the offset of the host inside it. */
  datatype ShadowGeometry = ShadowGeometry(bufferX: real, bufferY: real, bufferWidth: real, bufferHeight: real, offsetX: real, offsetY: real)

  function ShadowPlacement(env: Env, origin: Point<real>, style: ResolvedStyle): (g: ShadowGeometry)
    ensures g.bufferWidth == style.width + BackgroundPadding(env.windowMargin).Horizontal()
    ensures g.bufferHeight == style.height + BackgroundPadding(env.windowMargin).Vertical()
    ensures 2.0 * g.offsetX == g.bufferWidth - style.width && 2.0 * g.offsetY == g.bufferHeight - style.height
    ensures g.bufferX == origin.x - g.offsetX && g.bufferY == origin.y - g.offsetY
  {
    var bg := BackgroundPadding(env.windowMargin);
    var pw, ph := style.width + bg.Horizontal(), style.height + bg.Vertical();
    var ox, oy := (pw - style.width) / 2.0, (ph - style.height) / 2.0;
    ShadowGeometry(origin.x - ox, origin.y - oy, pw, ph, ox, oy)
  }

  /**
   * The composited shadow: the blurred buffer holding one shadow-coloured
   * rect, placed at the buffer position cut to whole pixels.
   */
  function ShadowEvent(env: Env, shadow: ShadowConfig, origin: Point<real>, style: ResolvedStyle): Event {
    var g := ShadowPlacement(env, origin, style);
    Event(RectPainter, DrawPixmap(Truncate(g.bufferX) as real, Truncate(g.bufferY) as real, g.bufferWidth, g.bufferHeight,
      ShadowBuffer(shadow, g, style), Scale(env.scaleFactor)))
  }

  /** What is painted on the shadow buffer: the shadow rect at the host's offset, then the blur. */
  function ShadowBuffer(shadow: ShadowConfig, g: ShadowGeometry, style: ResolvedStyle): seq<Event> {
    [ Event(RectPainter, FillRect(shadow.x + g.offsetX, shadow.y + g.offsetY, style.width, style.height,
        SolidFill(shadow.color), true, Identity)),
      Event(RectPainter, Blur(shadow.blur)) ]
  }

  /**
   * The buffer is centred on the host rect, and the shadow rect lands on the
   * canvas exactly where the host is, moved by the shadow offset (before the
   * buffer position is cut to whole pixels).
   */
  lemma ShadowIsHostTranslated(env: Env, shadow: ShadowConfig, origin: Point<real>, style: ResolvedStyle)
    ensures var g := ShadowPlacement(env, origin, style);
      var inner := ShadowBuffer(shadow, g, style)[0].paint;
      && g.bufferX + g.bufferWidth / 2.0 == origin.x + style.width / 2.0
      && g.bufferY + g.bufferHeight / 2.0 == origin.y + style.height / 2.0
      && g.bufferX + inner.x == origin.x + shadow.x && g.bufferY + inner.y == origin.y + shadow.y
      && inner.width == style.width && inner.height == style.height
  {
  }

  /** Everything a rect paints: its shadow first, when it has one, then the filled outline. */
  function Paints(env: Env, k: Kind, origin: Point<real>, style: ResolvedStyle): (evs: seq<Event>)
    requires k.Rect?
    ensures |evs| == (if k.shadow.Some? then 2 else 1)
    ensures evs[|evs| - 1] == Event(RectPainter,
      FillPath(RoundedRectPath(origin.x, origin.y, style.width, style.height, k.radius), k.color, Scale(env.scaleFactor)))
    ensures k.shadow.Some? ==> evs[0] == ShadowEvent(env, k.shadow.value, origin, style)
  {
    var fill := Event(RectPainter,
      FillPath(RoundedRectPath(origin.x, origin.y, style.width, style.height, k.radius), k.color, Scale(env.scaleFactor)));
    match k.shadow
    case Some(shadow) => [ShadowEvent(env, shadow, origin, style), fill]
    case None => [fill]
  }

  /** `draw_shadow`: paints into a fresh buffer, blurs it, and composites it. */
  method DrawShadow(pixmap: Pixmap, env: Env, shadow: ShadowConfig, origin: Point<real>, style: ResolvedStyle)
    modifies pixmap
    ensures pixmap.events == old(pixmap.events) + [ShadowEvent(env, shadow, origin, style)]
  {
    var w, h := style.width, style.height;
    var backgroundPadding := BackgroundPadding(env.windowMargin);
    var pixmapW := w + backgroundPadding.Horizontal();
    var pixmapH := h + backgroundPadding.Vertical();
    var offsetX := (pixmapW - w) / 2.0;
    var offsetY := (pixmapH - h) / 2.0;
    ghost var g := ShadowPlacement(env, origin, style);
    assert g == ShadowGeometry(origin.x - offsetX, origin.y - offsetY, pixmapW, pixmapH, offsetX, offsetY);
    var buffer := new Pixmap(pixmapW, pixmapH);
    buffer.Paint(Event(RectPainter, FillRect(shadow.x + offsetX, shadow.y + offsetY, w, h, SolidFill(shadow.color), true, Identity)));
    buffer.Paint(Event(RectPainter, Blur(shadow.blur)));
    assert buffer.events == ShadowBuffer(shadow, g, style);
    var shadowX := Truncate(origin.x - offsetX);
    var shadowY := Truncate(origin.y - offsetY);
    pixmap.Paint(Event(RectPainter, DrawPixmap(shadowX as real, shadowY as real, pixmapW, pixmapH, buffer.events, Scale(env.scaleFactor))));
  }

  /** The outline, built one `PathBuilder` step at a time as `draw_self` does. */
  method BuildOutline(x: real, y: real, w: real, h: real, r: real) returns (path: seq<PathVerb>)
    ensures path == RoundedRectPath(x, y, w, h, r)
  {
    var pathBuilder := new PathBuilder();
    PushUpper(pathBuilder, x, y, w, h, r);
    PushLower(pathBuilder, x, y, w, h, r);
    PushCorners(pathBuilder, x, y, w, h, r);
    path := pathBuilder.verbs;
  }

  method PushUpper(pathBuilder: PathBuilder, x: real, y: real, w: real, h: real, r: real)
    modifies pathBuilder
    ensures pathBuilder.verbs == old(pathBuilder.verbs) + UpperOutline(x, y, w, h, r)
  {
    var rectWidth, rectHeight := w - 2.0 * r, h - 2.0 * r;
    pathBuilder.MoveTo(x + r, y);
    pathBuilder.LineTo(x + r + rectWidth, y);
    pathBuilder.LineTo(x + r + rectWidth, y + r);
    pathBuilder.LineTo(x + rectWidth + r * 2.0, y + r);
    pathBuilder.LineTo(x + rectWidth + r * 2.0, y + rectHeight + r);
    pathBuilder.LineTo(x + rectWidth + r, y + rectHeight + r);
    pathBuilder.LineTo(x + rectWidth + r, y + rectHeight + r * 2.0);
  }

  method PushLower(pathBuilder: PathBuilder, x: real, y: real, w: real, h: real, r: real)
    modifies pathBuilder
    ensures pathBuilder.verbs == old(pathBuilder.verbs) + LowerOutline(x, y, w, h, r)
  {
    var rectWidth, rectHeight := w - 2.0 * r, h - 2.0 * r;
    pathBuilder.LineTo(x + r, y + rectHeight + r * 2.0);
    pathBuilder.LineTo(x + r, y + rectHeight + r);
    pathBuilder.LineTo(x, y + rectHeight + r);
    pathBuilder.LineTo(x, y + r);
    pathBuilder.LineTo(x + r, y + r);
    pathBuilder.LineTo(x + r, y);
    pathBuilder.LineTo(x + r + rectWidth, y);
  }

  method PushCorners(pathBuilder: PathBuilder, x: real, y: real, w: real, h: real, r: real)
    modifies pathBuilder
    ensures pathBuilder.verbs == old(pathBuilder.verbs) + CornerOutline(x, y, w, h, r)
  {
    var rectWidth, rectHeight := w - 2.0 * r, h - 2.0 * r;
    pathBuilder.PushCircle(x + rectWidth + r, y + rectHeight + r, r);
    pathBuilder.PushCircle(x + r + rectWidth, y + r, r);
    pathBuilder.PushCircle(x + r, y + r, r);
    pathBuilder.PushCircle(x + r, y + rectHeight + r, r);
    pathBuilder.Close();
  }

  /** `Rect::draw_self`: the shadow first, when there is one, then the filled outline. */
  method DrawSelf(pixmap: Pixmap, env: Env, k: Kind, origin: Point<real>, style: ResolvedStyle)
    requires k.Rect?
    modifies pixmap
    ensures pixmap.events == old(pixmap.events) + Paints(env, k, origin, style)
  {
    var path := BuildOutline(origin.x, origin.y, style.width, style.height, k.radius);
    if k.shadow.Some? {
      DrawShadow(pixmap, env, k.shadow.value, origin, style);
    }
    pixmap.Paint(Event(RectPainter, FillPath(path, k.color, Scale(env.scaleFactor))));
  }
}

=== FILE: renderer.dfy ===
/**
 * `ComponentContext` of components/interface/component.rs and the two passes
 * as the Rust code runs them: the style cache is a field the passes update in
 * place, and drawing appends to the pixmap. Each method is proved to do what
 * the functions of module Engine describe.
 */
module Renderer {
  import opened Wrappers
  import opened Style
  import opened Config
  import opened Canvas
  import opened Tree
  import opened Engine
  import RectComponent
  import BackgroundComponent
  import HighlightCodeBlockComponent
  import MacTitleBarComponent
  import WatermarkComponent

  /**
   * A drawing method did what `spec` describes: it failed with the same
   * error, or it placed the node at the same origin, left the cache as `spec`
   * does and appended exactly `spec`'s events to the pixmap.
   */
  predicate Follows(r: Result<Point<real>, RenderError>, spec: Result<Drawn, RenderError>, cache: Cache, before: seq<Event>, after: seq<Event>) {
    match spec
    case Err(e) => r == Err(e)
    case Ok(d) => r == Ok(d.origin) && cache == d.cache && after == before + d.events
  }

  class ComponentContext {
    const env: Env
    var styleMap: Cache

    constructor (env: Env)
      ensures this.env == env && styleMap == map[]
    {
      this.env := env;
      styleMap := map[];
    }

    /** `Component::parsed_style`. */
    method ParsedStyle(n: Node, parent: Option<ResolvedStyle>) returns (style: ResolvedStyle)
      modifies this
      ensures (style, styleMap) == Engine.ParsedStyle(env, n, parent, old(styleMap))
      decreases n, 1
    {
      var name := Name(n.kind);
      if name in styleMap && name != STUB_COMPONENT {
        return styleMap[name];
      }
      if !RenderCondition(n.kind) {
        return DefaultResolved;
      }
      var raw := if SelfRenderCondition(n.kind) then Declared(env, n.kind) else DefaultRaw;
      var wh := GetDynamicWh(n, raw.align);
      style := Resolve(raw, wh, parent);
      styleMap := styleMap[name := style];
    }

    /** `Component::get_dynamic_wh`: the fold over the children, measuring each without a parent. */
    method GetDynamicWh(n: Node, align: Align) returns (wh: (real, real))
      modifies this
      ensures var (styles, after) := ChildStyles(env, n, |n.children|, old(styleMap));
        wh == Aggregate(align, styles) && styleMap == after
      decreases n, 0
    {
      wh := (0.0, 0.0);
      ghost var styles: seq<ResolvedStyle> := [];
      var i := 0;
      while i < |n.children|
        invariant 0 <= i <= |n.children|
        invariant (styles, styleMap) == ChildStyles(env, n, i, old(styleMap))
        invariant wh == Aggregate(align, styles)
      {
        var s := ParsedStyle(n.children[i], None);
        wh := Step(align, wh, s);
        assert (styles + [s])[..i] == styles;
        styles := styles + [s];
        i := i + 1;
      }
    }

    /** Appends the events one after the other. */
    method PaintAll(pixmap: Pixmap, events: seq<Event>)
      modifies pixmap
      ensures pixmap.events == old(pixmap.events) + events
    {
      var i := 0;
      while i < |events|
        invariant 0 <= i <= |events|
        invariant pixmap.events == old(pixmap.events) + events[..i]
      {
        pixmap.Paint(events[i]);
        assert events[..i + 1] == events[..i] + [events[i]];
        i := i + 1;
      }
      assert events[..i] == events;
    }

    /** `Component::draw_self` of the node's component. */
    method DrawSelf(pixmap: Pixmap, k: Kind, origin: Point<real>, style: ResolvedStyle, parentStyle: ResolvedStyle)
      returns (r: Result<(), RenderError>)
      requires RenderCondition(k)
      requires pixmap.width == env.pixmapWidth && pixmap.height == env.pixmapHeight
      modifies pixmap
      ensures r.Ok? <==> Engine.DrawSelf(env, k, origin, style, parentStyle).Ok?
      ensures r.Ok? ==> pixmap.events == old(pixmap.events) + Engine.DrawSelf(env, k, origin, style, parentStyle).value
      ensures r.Err? ==> r.error == Engine.DrawSelf(env, k, origin, style, parentStyle).error
    {
      match k
      case Rect(_, _, _, _, _, _) =>
        RectComponent.DrawSelf(pixmap, env, k, origin, style);
        r := Ok(());
      case Background(_) =>
        r := BackgroundComponent.DrawSelf(pixmap, env.background);
      case HighlightCodeBlock(_, _, _, _) =>
        r := HighlightCodeBlockComponent.DrawSelf(pixmap, env, k, origin, parentStyle.width);
      case MacTitleBar(_) =>
        MacTitleBarComponent.DrawSelf(pixmap, env, origin);
        r := Ok(());
      case Watermark(_) =>
        var paints := WatermarkComponent.Paints(k, origin);
        if paints.Err? {
          return Err(paints.error);
        }
        PaintAll(pixmap, paints.value);
        r := Ok(());
      case _ =>
        PaintAll(pixmap, Engine.DrawSelf(env, k, origin, style, parentStyle).value);
        r := Ok(());
    }

    /**
     * `Component::draw`: returns where the node was placed. On success the
     * cache and the pixmap are what the specification says; on an error the
     * error is the specification's.
     */
    method Draw(pixmap: Pixmap, n: Node, parentStyle: ResolvedStyle, cursor: Point<real>, sibling: ResolvedStyle)
      returns (r: Result<Point<real>, RenderError>)
      requires pixmap.width == env.pixmapWidth && pixmap.height == env.pixmapHeight
      modifies this, pixmap
      ensures Follows(r, Engine.Draw(env, n, parentStyle, cursor, sibling, old(styleMap)), styleMap, old(pixmap.events), pixmap.events)
      decreases n, 3
    {
      var style := ParsedStyle(n, Some(parentStyle));
      var origin := Position(parentStyle.align, cursor, sibling, style);
      if !RenderCondition(n.kind) {
        return Ok(origin);
      }
      r := DrawPlaced(pixmap, n, parentStyle, style, origin);
    }

    /** `Component::draw` after placing: the node itself unless it hides itself, then its children. */
    method DrawPlaced(pixmap: Pixmap, n: Node, parentStyle: ResolvedStyle, style: ResolvedStyle, origin: Point<real>)
      returns (r: Result<Point<real>, RenderError>)
      requires pixmap.width == env.pixmapWidth && pixmap.height == env.pixmapHeight
      modifies this, pixmap
      ensures Follows(r, Engine.DrawPlaced(env, n, parentStyle, style, origin, old(styleMap)), styleMap, old(pixmap.events), pixmap.events)
      decreases n, 2
    {
      ghost var cache := styleMap;
      ghost var before := pixmap.events;
      var own := DrawOwn(pixmap, n.kind, origin, style, parentStyle);
      if own.Err? {
        DrawPlacedOwnFails(env, n, parentStyle, style, origin, cache);
        return Err(own.error);
      }
      ghost var painted := Own(env, n.kind, origin, style, parentStyle).value;
      assert pixmap.events == before + painted;
      ghost var c := DrawChildren(env, n, style, |n.children|, ContentOrigin(origin, style), cache);
      var children := DrawChildLoop(pixmap, n, style, ContentOrigin(origin, style));
      DrawPlacedChildren(env, n, parentStyle, style, origin, cache, painted, c);
      if children.Err? {
        return Err(children.error);
      }
      assert pixmap.events == before + (painted + c.value.events);
      return Ok(origin);
    }

    /** The node's own paints, unless it hides itself. */
    method DrawOwn(pixmap: Pixmap, k: Kind, origin: Point<real>, style: ResolvedStyle, parentStyle: ResolvedStyle)
      returns (r: Result<(), RenderError>)
      requires pixmap.width == env.pixmapWidth && pixmap.height == env.pixmapHeight
      modifies pixmap
      ensures var spec := Own(env, k, origin, style, parentStyle);
        (r.Ok? <==> spec.Ok?) && (r.Err? ==> r.error == spec.error)
        && (r.Ok? ==> pixmap.events == old(pixmap.events) + spec.value)
    {
      if RenderCondition(k) && SelfRenderCondition(k) {
        r := DrawSelf(pixmap, k, origin, style, parentStyle);
      } else {
        r := Ok(());
      }
    }

    /** The loop of `Component::draw` over the children. */
    method DrawChildLoop(pixmap: Pixmap, n: Node, style: ResolvedStyle, start: Point<real>)
      returns (r: Result<(), RenderError>)
      requires pixmap.width == env.pixmapWidth && pixmap.height == env.pixmapHeight
      modifies this, pixmap
      ensures var spec := DrawChildren(env, n, style, |n.children|, start, old(styleMap));
        (r.Ok? <==> spec.Ok?) && (r.Err? ==> r.error == spec.error)
        && (r.Ok? ==> styleMap == spec.value.cache && pixmap.events == old(pixmap.events) + spec.value.events)
      decreases n, 0
    {
      ghost var measured := styleMap;
      var at := start;
      var siblingStyle := DefaultResolved;
      ghost var events: seq<Event> := [];
      for i := 0 to |n.children|
        invariant DrawChildren(env, n, style, i, start, measured) == Ok(Cursor(at, siblingStyle, styleMap, events))
        invariant pixmap.events == old(pixmap.events) + events
      {
        var next;
        ghost var added: seq<Event>;
        next, added := DrawChild(pixmap, n, style, start, i, measured, at, siblingStyle, events);
        if next.Err? {
          return Err(next.error);
        }
        events := events + added;
        at, siblingStyle := next.value.0, next.value.1;
      }
      return Ok(());
    }

    /** One round of that loop: draw child `i`, then measure it against this node's style. */
    method DrawChild(pixmap: Pixmap, n: Node, style: ResolvedStyle, start: Point<real>, i: nat, ghost measured: Cache,
                     at: Point<real>, siblingStyle: ResolvedStyle, ghost events: seq<Event>)
      returns (r: Result<(Point<real>, ResolvedStyle), RenderError>, ghost added: seq<Event>)
      requires i < |n.children|
      requires DrawChildren(env, n, style, i, start, measured) == Ok(Cursor(at, siblingStyle, styleMap, events))
      requires pixmap.width == env.pixmapWidth && pixmap.height == env.pixmapHeight
      modifies this, pixmap
      ensures r.Err? ==> DrawChildren(env, n, style, |n.children|, start, measured) == Err(r.error)
      ensures r.Ok? ==> (pixmap.events == old(pixmap.events) + added
        && DrawChildren(env, n, style, i + 1, start, measured) == Ok(Cursor(r.value.0, r.value.1, styleMap, events + added)))
      decreases n, 0, |n.children| - i
    {
      ghost var c := Cursor(at, siblingStyle, styleMap, events);
      ghost var d := Engine.Draw(env, n.children[i], style, at, siblingStyle, styleMap);
      var next := Draw(pixmap, n.children[i], style, at, siblingStyle);
      if next.Err? {
        DrawChildrenFails(env, n, style, i, start, measured, c);
        return Err(next.error), [];
      }
      DrawChildrenNext(env, n, style, i, start, measured, c, d.value);
      var childStyle := ParsedStyle(n.children[i], Some(style));
      return Ok((next.value, childStyle)), d.value.events;
    }
  }
}

=== FILE: style.dfy ===
/**
 * Style types of components/interface/style.rs. That file is not part of this
 * model; the shapes below are those component.rs and the components use, and
 * the two defaults are assumptions: Dynamic sizes (zero once resolved),
 * min width 0, Row alignment and zero edges.
 */
module Style {
  import opened Edges

  /** How one axis of a node is sized. */
  datatype Size = Num(value: real) | Dynamic | Inherit

  /** How a node arranges its children. */
  datatype Align = Row | Column

  /** What a node declares. */
  datatype RawStyle = RawStyle(width: Size, height: Size, minWidth: real, align: Align, padding: Padding, margin: Margin)

  /** What resolution produces: width and height already include padding and margin. */
  datatype ResolvedStyle = ResolvedStyle(width: real, height: real, minWidth: real, align: Align, padding: Padding, margin: Margin)

  const DefaultRaw: RawStyle := RawStyle(Dynamic, Dynamic, 0.0, Row, Zero, Zero)

  const DefaultResolved: ResolvedStyle := ResolvedStyle(0.0, 0.0, 0.0, Row, Zero, Zero)
}

=== FILE: text.dfy ===
/**
 * The few pieces of Rust's string library the core relies on, written out:
 * UTF-8 byte length (`str::len`), `str::split` on one character, `str::lines`,
 * `str::split_whitespace`, `join`, decimal formatting, `{:>w$}`/`{:w$}` padding
 * and `usize::from_str`.
 */
module Text {
  import opened Wrappers

  // ---------------------------------------------------------------- bytes

  /** Number of bytes of the UTF-8 encoding of `c`. */
  function Utf8Width(c: char): nat {
    if c as int < 0x80 then 1
    else if c as int < 0x800 then 2
    else if c as int < 0x1_0000 then 3
    else 4
  }

  predicate IsAscii(s: string) {
    forall i :: 0 <= i < |s| ==> s[i] as int < 0x80
  }

  /** `str::len`: the length in bytes of the UTF-8 encoding. */
  function Utf8Len(s: string): (n: nat)
    ensures n >= |s|
    ensures IsAscii(s) ==> n == |s|
  {
    if s == [] then 0 else Utf8Width(s[0]) + Utf8Len(s[1..])
  }

  lemma {:induction false} Utf8LenAppend(a: string, b: string)
    ensures Utf8Len(a + b) == Utf8Len(a) + Utf8Len(b)
  {
    if a != [] {
      assert (a + b)[1..] == a[1..] + b;
      Utf8LenAppend(a[1..], b);
    } else {
      assert a + b == b;
    }
  }

  // ---------------------------------------------------------------- searching

  predicate StartsWith(s: string, prefix: string) {
    prefix <= s
  }

  predicate EndsWith(s: string, suffix: string) {
    |suffix| <= |s| && s[|s| - |suffix|..] == suffix
  }

  function Count(s: string, c: char): (n: nat)
    ensures n <= |s|
  {
    if s == [] then 0 else (if s[0] == c then 1 else 0) + Count(s[1..], c)
  }

  lemma {:induction false} CountZero(s: string, c: char)
    ensures Count(s, c) == 0 <==> c !in s
  {
    if s != [] {
      CountZero(s[1..], c);
      assert s == [s[0]] + s[1..];
    }
  }

  lemma {:induction false} CountAppend(a: string, b: string, c: char)
    ensures Count(a + b, c) == Count(a, c) + Count(b, c)
  {
    if a != [] {
      assert (a + b)[1..] == a[1..] + b;
      CountAppend(a[1..], b, c);
    } else {
      assert a + b == b;
    }
  }

  /** Index of the first occurrence of `c`. */
  function IndexOf(s: string, c: char): (i: nat)
    requires c in s
    ensures i < |s| && s[i] == c && c !in s[..i]
  {
    if s[0] == c then 0
    else
      assert c in s[1..] by { var k :| 0 <= k < |s| && s[k] == c; assert s[1..][k - 1] == c; }
      var j := IndexOf(s[1..], c);
      assert s[..j + 1] == [s[0]] + s[1..][..j];
      j + 1
  }

  // ---------------------------------------------------------------- split / join

  /** `s.split(c)`: the pieces between the occurrences of `c`; never empty. */
  function Split(s: string, c: char): (pieces: seq<string>)
    ensures |pieces| >= 1
  {
    if s == [] then [""]
    else
      var rest := Split(s[1..], c);
      if s[0] == c then [""] + rest else [[s[0]] + rest[0]] + rest[1..]
  }

  /** `pieces.join(sep)`. */
  function Join(pieces: seq<string>, sep: string): string {
    if |pieces| == 0 then ""
    else if |pieces| == 1 then pieces[0]
    else pieces[0] + sep + Join(pieces[1..], sep)
  }

  lemma {:induction false} SplitCount(s: string, c: char)
    ensures |Split(s, c)| == Count(s, c) + 1
  {
    if s != [] {
      SplitCount(s[1..], c);
    }
  }

  lemma {:induction false} SplitPiecesAvoid(s: string, c: char)
    ensures forall k :: 0 <= k < |Split(s, c)| ==> c !in Split(s, c)[k]
  {
    if s != [] {
      SplitPiecesAvoid(s[1..], c);
    }
  }

  /** Splitting and joining with the same character gives the string back. */
  lemma {:induction false} JoinSplit(s: string, c: char)
    ensures Join(Split(s, c), [c]) == s
  {
    if s != [] {
      var rest := Split(s[1..], c);
      JoinSplit(s[1..], c);
      if s[0] == c {
        assert Split(s, c) == [""] + rest;
        if |rest| == 1 {
        } else {
          assert ([""] + rest)[1..] == rest;
        }
      } else {
        var ps := [[s[0]] + rest[0]] + rest[1..];
        assert Split(s, c) == ps;
        if |rest| == 1 {
          assert s == [s[0]] + rest[0];
        } else {
          assert ps[1..] == rest[1..];
          assert Join(rest, [c]) == rest[0] + [c] + Join(rest[1..], [c]);
          assert s == [s[0]] + s[1..];
        }
      }
    }
  }

  /** A trailing separator adds one (empty) piece. */
  lemma SplitAppendSeparator(s: string, c: char)
    ensures |Split(s + [c], c)| == |Split(s, c)| + 1
  {
    SplitCount(s + [c], c);
    SplitCount(s, c);
    CountAppend(s, [c], c);
  }

  /** Split of `a` + [c] + `b` where `a` has no `c` puts `a` first. */
  lemma {:induction false} SplitAt(a: string, b: string, c: char)
    requires c !in a
    ensures Split(a + [c] + b, c) == [a] + Split(b, c)
  {
    if a == [] {
      assert a + [c] + b == [c] + b;
      assert ([c] + b)[1..] == b;
    } else {
      assert (a + [c] + b)[1..] == a[1..] + [c] + b;
      SplitAt(a[1..], b, c);
      assert [a[0]] + a[1..] == a;
    }
  }

  lemma {:induction false} SplitWithout(a: string, c: char)
    requires c !in a
    ensures Split(a, c) == [a]
  {
    if a != [] {
      SplitWithout(a[1..], c);
      assert [a[0]] + a[1..] == a;
    }
  }

  /** Joining pieces free of `c` with `c` and splitting again gives the pieces back. */
  lemma {:induction false} SplitJoin(pieces: seq<string>, c: char)
    requires |pieces| >= 1
    requires forall k :: 0 <= k < |pieces| ==> c !in pieces[k]
    ensures Split(Join(pieces, [c]), c) == pieces
  {
    if |pieces| == 1 {
      SplitWithout(pieces[0], c);
    } else {
      SplitJoin(pieces[1..], c);
      SplitAt(pieces[0], Join(pieces[1..], [c]), c);
      assert pieces == [pieces[0]] + pieces[1..];
    }
  }

  // ---------------------------------------------------------------- lines

  /** Drops one trailing carriage return. */
  function StripCr(line: string): string {
    if |line| > 0 && line[|line| - 1] == '\r' then line[..|line| - 1] else line
  }

  /**
   * `s.lines()`: the pieces ended by "\n" (one "\r" right before the "\n" is
   * dropped too); a final piece without "\n" is a line of its own, and the
   * empty string has no lines.
   */
  function Lines(s: string): (ls: seq<string>)
    ensures |ls| <= |s|
    ensures forall k :: 0 <= k < |ls| ==> '\n' !in ls[k]
    decreases |s|
  {
    if s == [] then []
    else if '\n' !in s then [s]
    else
      var i := IndexOf(s, '\n');
      assert '\n' !in StripCr(s[..i]);
      [StripCr(s[..i])] + Lines(s[i + 1..])
  }

  // ---------------------------------------------------------------- whitespace

  /** `char::is_whitespace`: the Unicode White_Space property. */
  predicate IsWhitespace(c: char) {
    ('\t' <= c <= '\r') || c == ' ' || c == '\U{85}' || c == '\U{A0}' || c == '\U{1680}'
    || ('\U{2000}' <= c <= '\U{200A}') || c == '\U{2028}' || c == '\U{2029}' || c == '\U{202F}'
    || c == '\U{205F}' || c == '\U{3000}'
  }

  predicate NoWhitespace(s: string) {
    forall i :: 0 <= i < |s| ==> !IsWhitespace(s[i])
  }

  /** End of the run of non-whitespace characters starting at `i`. */
  function WordEnd(s: string, i: nat): (j: nat)
    requires i <= |s|
    ensures i <= j <= |s|
    ensures i < |s| && !IsWhitespace(s[i]) ==> i < j
    ensures forall k :: i <= k < j ==> !IsWhitespace(s[k])
    ensures j < |s| ==> IsWhitespace(s[j])
    decreases |s| - i
  {
    if i == |s| || IsWhitespace(s[i]) then i else WordEnd(s, i + 1)
  }

  /** `s.split_whitespace()`: the maximal non-empty runs without whitespace. */
  function SplitWhitespace(s: string): (words: seq<string>)
    ensures forall k :: 0 <= k < |words| ==> words[k] != [] && NoWhitespace(words[k])
    decreases |s|
  {
    if s == [] then []
    else if IsWhitespace(s[0]) then SplitWhitespace(s[1..])
    else
      var j := WordEnd(s, 0);
      [s[..j]] + SplitWhitespace(s[j..])
  }

  lemma {:induction false} WordEndOfConcat(w: string, rest: string)
    requires NoWhitespace(w)
    requires rest != [] && IsWhitespace(rest[0])
    ensures WordEnd(w + rest, 0) == |w|
  {
    var s := w + rest;
    var i := |w|;
    // walk back from |w|: every position before it continues the word
    while i > 0
      invariant 0 <= i <= |w|
      invariant WordEnd(s, i) == |w|
    {
      i := i - 1;
      assert s[i] == w[i];
    }
  }

  lemma {:induction false} SplitWhitespaceWord(w: string)
    requires w != [] && NoWhitespace(w)
    ensures SplitWhitespace(w) == [w]
  {
    var i := |w|;
    while i > 0
      invariant 0 <= i <= |w|
      invariant WordEnd(w, i) == |w|
    {
      i := i - 1;
    }
    assert !IsWhitespace(w[0]);
    assert w[..|w|] == w;
    assert w[|w|..] == [];
  }

  /**
   * Joining non-empty whitespace-free words with single spaces and splitting
   * the result on whitespace gives the words back.
   */
  lemma {:induction false} SplitWhitespaceJoin(words: seq<string>)
    requires forall k :: 0 <= k < |words| ==> words[k] != [] && NoWhitespace(words[k])
    ensures SplitWhitespace(Join(words, " ")) == words
  {
    if |words| == 1 {
      SplitWhitespaceWord(words[0]);
    } else if |words| > 1 {
      var w := words[0];
      var rest := Join(words[1..], " ");
      var s := w + " " + rest;
      assert Join(words, " ") == s;
      WordEndOfConcat(w, " " + rest);
      assert s == w + (" " + rest);
      assert s[..|w|] == w;
      assert s[|w|..] == " " + rest;
      assert (" " + rest)[1..] == rest;
      SplitWhitespaceJoin(words[1..]);
      assert words == [w] + words[1..];
    }
  }

  // ---------------------------------------------------------------- decimal numbers

  function DigitChar(d: nat): char
    requires d < 10
  {
    ['0', '1', '2', '3', '4', '5', '6', '7', '8', '9'][d]
  }

  predicate IsDigit(c: char) {
    '0' <= c <= '9'
  }

  function DigitValue(c: char): nat
    requires IsDigit(c)
  {
    c as int - '0' as int
  }

  /** `n.to_string()`. */
  function NatToString(n: nat): (s: string)
    ensures |s| >= 1
    ensures forall i :: 0 <= i < |s| ==> IsDigit(s[i])
  {
    if n < 10 then [DigitChar(n)] else NatToString(n / 10) + [DigitChar(n % 10)]
  }

  /** Larger numbers never have fewer decimal digits. */
  lemma {:induction false} NatToStringMonotone(a: nat, b: nat)
    requires a <= b
    ensures |NatToString(a)| <= |NatToString(b)|
  {
    if b >= 10 && a >= 10 {
      NatToStringMonotone(a / 10, b / 10);
    }
  }

  /** The value of a non-empty string of decimal digits. */
  function DigitsValue(s: string): nat
    requires forall i :: 0 <= i < |s| ==> IsDigit(s[i])
  {
    if s == [] then 0 else 10 * DigitsValue(s[..|s| - 1]) + DigitValue(s[|s| - 1])
  }

  lemma {:induction false} DigitsValueOfNatToString(n: nat)
    ensures DigitsValue(NatToString(n)) == n
  {
    var s := NatToString(n);
    if n < 10 {
      assert s[..0] == [];
    } else {
      assert s[..|s| - 1] == NatToString(n / 10);
      DigitsValueOfNatToString(n / 10);
    }
  }

  /** The digits after an optional leading '+'. */
  function UnsignedDigits(s: string): (d: string)
    ensures |s| > 0 && s[0] == '+' ==> s == "+" + d
    ensures !(|s| > 0 && s[0] == '+') ==> d == s
  {
    if |s| > 0 && s[0] == '+' then s[1..] else s
  }

  /** The length of the run of decimal digits at the head of `s`. */
  function DigitRun(s: string): (k: nat)
    ensures k <= |s|
    ensures forall i :: 0 <= i < k ==> IsDigit(s[i])
    ensures k < |s| ==> !IsDigit(s[k])
  {
    if s == [] || !IsDigit(s[0]) then 0
    else
      var k := DigitRun(s[1..]);
      assert forall i :: 1 <= i < k + 1 ==> s[i] == s[1..][i - 1];
      k + 1
  }

  /** A longer prefix of digits never has a smaller value. */
  lemma {:induction false} DigitsValuePrefixMonotone(s: string, j: nat, k: nat)
    requires j <= k <= |s|
    requires forall i :: 0 <= i < k ==> IsDigit(s[i])
    ensures DigitsValue(s[..j]) <= DigitsValue(s[..k])
    decreases k - j
  {
    if j < k {
      assert s[..k][..k - 1] == s[..k - 1];
      DigitsValuePrefixMonotone(s, j, k - 1);
    }
  }

  const USIZE_MAX: nat := 0xFFFF_FFFF_FFFF_FFFF

  /**
   * `s.parse::<usize>()` on a 64-bit target: an optional '+', then at least
   * one decimal digit, and a value that fits.
   */
  function ParseUsize(s: string): (r: Option<nat>)
    ensures r.Some? ==> r.value <= USIZE_MAX
  {
    var digits := UnsignedDigits(s);
    if digits == [] || !(forall i :: 0 <= i < |digits| ==> IsDigit(digits[i])) then None
    else if DigitsValue(digits) > USIZE_MAX then None
    else Some(DigitsValue(digits))
  }

  /** Formatting a number and parsing it back is the identity. */
  lemma ParseUsizeOfNatToString(n: nat)
    requires n <= USIZE_MAX
    ensures ParseUsize(NatToString(n)) == Some(n)
  {
    DigitsValueOfNatToString(n);
  }

  // ---------------------------------------------------------------- padding

  /** `c.to_string().repeat(n)`: `n` copies of one character. */
  function RepeatChar(c: char, n: nat): (r: string)
    ensures |r| == n && forall i :: 0 <= i < n ==> r[i] == c
  {
    seq(n, _ => c)
  }

  function Spaces(n: nat): (r: string)
    ensures |r| == n && forall i :: 0 <= i < n ==> r[i] == ' '
  {
    seq(n, _ => ' ')
  }

  /** `format!("{:>w$}", s)`: right-aligned in a field of `w` characters. */
  function PadLeft(s: string, w: nat): (r: string)
    ensures |r| == if |s| < w then w else |s|
    ensures EndsWith(r, s)
  {
    if |s| < w then Spaces(w - |s|) + s else s
  }

  /** `format!("{:w$}", s)` for a string: left-aligned in a field of `w` characters. */
  function PadRight(s: string, w: nat): (r: string)
    ensures |r| == if |s| < w then w else |s|
    ensures StartsWith(r, s)
  {
    if |s| < w then s + Spaces(w - |s|) else s
  }
}

=== FILE: title.dfy ===
/** components/editor/title.rs: the window title, centred across the canvas. */
module TitleComponent {
  import opened Wrappers
  import opened Text
  import opened Edges
  import opened Style
  import opened Config
  import opened Canvas
  import opened Tree

  /** `Title::from_text`: a leaf holding the optional text. */
  function FromText(text: Option<string>): (n: Node)
    ensures n.kind == Title(text) && n.children == []
  {
    Node(Title(text), [])
  }

  /** `render_condition`: there is a title text. */
  predicate RenderCondition(k: Kind)
    requires k.Title?
  {
    k.text.Some?
  }

  /**
   * `Title::style`: 6 per byte of text wide, 12 high, 2 below. It unwraps the
   * text, which the layout engine only asks for once the render condition
   * holds.
   */
  function DeclaredStyle(k: Kind): (s: RawStyle)
    requires k.Title? && RenderCondition(k)
    ensures s.width == Size.Num(6.0 * Utf8Len(k.text.value) as real) && s.height == Size.Num(12.0)
    ensures s.margin == Edge(0.0, 0.0, 0.0, 2.0) && s.padding == Zero && s.minWidth == 0.0
  {
    DefaultRaw.(margin := Edge(0.0, 0.0, 0.0, 2.0), width := Size.Num(6.0 * Utf8Len(k.text.value) as real), height := Size.Num(12.0))
  }

  /** `Title::draw_self`: one line at the title's height, centred over the whole canvas width. */
  function Paints(k: Kind, origin: Point<real>, canvasWidth: real, canvasHeight: real): (evs: seq<Event>)
    requires k.Title? && RenderCondition(k)
    ensures |evs| == 1 && evs[0].painter == TitlePainter
    ensures evs[0].paint == DrawText(0.0, origin.y, Some(Point(canvasWidth, canvasHeight)), [k.text.value], Center)
  {
    [Event(TitlePainter, DrawText(0.0, origin.y, Some(Point(canvasWidth, canvasHeight)), [k.text.value], Center))]
  }

  /** The title's horizontal placement ignores where the layout put it: only its y is used. */
  lemma TitleIgnoresX(k: Kind, a: Point<real>, b: Point<real>, w: real, h: real)
    requires k.Title? && RenderCondition(k)
    requires a.y == b.y
    ensures Paints(k, a, w, h) == Paints(k, b, w, h)
  {
  }
}

=== FILE: tree.dfy ===
/**
 * The component tree: one constructor per component type of the layout
 * engine, with the fields each component stores, and the read-only part of
 * `ComponentContext` the components consult.
 */
module Tree {
  import opened Wrappers
  import opened Edges
  import opened Color
  import Config
  import Ansi

  const STUB_COMPONENT: string := "STUB_COMPONENT"

  datatype ShadowConfig = ShadowConfig(x: real, y: real, blur: real, color: Rgba)

  datatype Kind =
    | Container
    | RowLayout
    | ColumnLayout
    | CodeBlock
    | Rect(radius: real, minWidth: real, padding: Padding, color: Rgba, shadow: Option<ShadowConfig>, componentName: string)
    | Background(padding: Padding)
    | HighlightCodeBlock(highlightLines: seq<Config.HighlightLine>, codeLineCount: nat, lineHeight: real, editorPadding: Padding)
    | LineNumber(lineHeight: real, renderCondition: bool, lineNumberContent: seq<string>, numberOfDigit: nat)
    | MacTitleBar(renderCondition: bool)
    | Title(text: Option<string>)
    | Watermark(watermark: Option<Config.Watermark>)
    | Breadcrumbs(path: Option<string>, breadcrumbs: Option<Config.BreadcrumbsConfig>)
    | CommandLineHeader(prompt: string, command: string, args: string, promptColor: Rgba, commandColor: Rgba)
    | CommandLineOutput(ansiText: string)
    | Code(value: string)

  /** A component and its children, in drawing order. */
  datatype Node = Node(kind: Kind, children: seq<Node>)

  /**
   * What the components read from `ComponentContext` besides the style cache:
   * the scale factor, the size of the pixmap being drawn on, the configured
   * window margin and background, and the text-measuring collaborators, which
   * are not part of this model and enter as given functions.
   */
  datatype Env = Env(
    scaleFactor: real,
    pixmapWidth: real,
    pixmapHeight: real,
    windowMargin: Config.WindowMargin,
    background: Config.Background,
    charWidth: real,
    foreground: Rgba,
    codeFontFamily: string,
    calcWh: (string, real, real) -> (real, real),
    measureText: string -> (real, real),
    categorise: string -> seq<Ansi.Category>)
}

=== FILE: watermark.dfy ===
/** components/watermark.rs: the optional line of text under the window. */
module WatermarkComponent {
  import opened Wrappers
  import opened Edges
  import opened Style
  import opened Color
  import Config
  import opened Canvas
  import opened Tree

  const NAME: string := "Watermark"

  /** `Watermark::new`: a leaf holding the optional configuration. */
  function New(config: Option<Config.Watermark>): (n: Node)
    ensures n.kind == Watermark(config) && n.children == []
  {
    Node(Watermark(config), [])
  }

  /** `render_condition`: a watermark is configured. */
  predicate RenderCondition(k: Kind)
    requires k.Watermark?
  {
    k.watermark.Some?
  }

  /** `Watermark::style`: 50 above and 22 below when configured, the default style otherwise. */
  function DeclaredStyle(k: Kind): (s: RawStyle)
    requires k.Watermark?
    ensures k.watermark.Some? ==> s == DefaultRaw.(margin := Edge(0.0, 0.0, 50.0, 22.0))
    ensures k.watermark.None? ==> s == DefaultRaw
  {
    match k.watermark
    case Some(_) => DefaultRaw.(margin := Edge(0.0, 0.0, 50.0, 22.0))
    case None => DefaultRaw
  }

  /**
   * `Watermark::draw_self`: the content on one line, centred, at the
   * watermark's height; the configured colour must parse.
   */
  function Paints(k: Kind, origin: Config.Point<real>): (r: Result<seq<Event>, RenderError>)
    requires k.Watermark? && RenderCondition(k)
    ensures r.Ok? <==> ToRgba(k.watermark.value.color).Ok?
    ensures r.Ok? ==> r.value == [Event(WatermarkPainter, DrawText(0.0, origin.y, None, [k.watermark.value.content], Center))]
    ensures r.Err? ==> r.error == BadColor(ToRgba(k.watermark.value.color).error)
  {
    var config := k.watermark.value;
    match ToRgba(config.color)
    case Ok(_) => Ok([Event(WatermarkPainter, DrawText(0.0, origin.y, None, [config.content], Center))])
    case Err(e) => Err(BadColor(e))
  }
}

=== FILE: wrappers.dfy ===
/** Option and Result, the two failure-carrying shapes the Rust code uses. */
module Wrappers {

  datatype Option<+T> = None | Some(value: T) {
    function GetOr(default: T): T {
      match this
      case Some(v) => v
      case None => default
    }
  }

  /** `Err` stands for both a returned `Err` and a panic: either one aborts the caller. */
  datatype Result<+T, +E> = Ok(value: T) | Err(error: E)

  /**
   * A sequence of results collected in order, as `collect::<Result<Vec<_>, _>>()`
   * or a `?` inside a loop does: the first error wins, otherwise all values.
   */
  function Collect<T, E>(results: seq<Result<T, E>>): (r: Result<seq<T>, E>)
    ensures r.Ok? ==> |r.value| == |results|
  {
    if results == [] then Ok([])
    else
      match Collect(results[..|results| - 1])
      case Err(e) => Err(e)
      case Ok(values) =>
        match results[|results| - 1]
        case Err(e) => Err(e)
        case Ok(v) => Ok(values + [v])
  }

  /** Collecting succeeds exactly when every result is `Ok`, and then keeps every value in place. */
  lemma {:induction false} CollectAllOk<T, E>(results: seq<Result<T, E>>)
    ensures Collect(results).Ok? <==> forall i :: 0 <= i < |results| ==> results[i].Ok?
    ensures Collect(results).Ok? ==> forall i :: 0 <= i < |results| ==> Collect(results).value[i] == results[i].value
  {
    if results != [] {
      var init := results[..|results| - 1];
      CollectAllOk(init);
      assert forall i :: 0 <= i < |init| ==> init[i] == results[i];
    }
  }

  /**
   * One more result: an `Ok` one extends the collected values, an `Err` one
   * decides the whole sequence.
   */
  lemma CollectNext<T, E>(results: seq<Result<T, E>>, i: nat)
    requires i < |results|
    requires Collect(results[..i]).Ok?
    ensures results[i].Ok? ==> Collect(results[..i + 1]) == Ok(Collect(results[..i]).value + [results[i].value])
    ensures results[i].Err? ==> Collect(results) == Err(results[i].error)
  {
    assert results[..i + 1][..i] == results[..i];
    if results[i].Err? {
      CollectFailingPrefix(results, i + 1);
    }
  }

  /** The first failing result decides: a failing prefix fails the whole sequence the same way. */
  lemma {:induction false} CollectFailingPrefix<T, E>(results: seq<Result<T, E>>, n: nat)
    requires n <= |results|
    requires Collect(results[..n]).Err?
    ensures Collect(results) == Collect(results[..n])
    decreases |results| - n
  {
    if n < |results| {
      assert results[..n + 1][..n] == results[..n];
      CollectFailingPrefix(results, n + 1);
    } else {
      assert results[..n] == results;
    }
  }
}
